=== FILE: README.md ===
# Numeca_Scripts in Dafny

A Dafny model of the five scripts of the Numeca_Scripts collection that hold pure logic:

- **The SGE batch-job generator** (`SGE/NUMECA_launch_SGE_interactive.py`).
  - It checks the user's answers: package, computations, version, core count, MPI library, memory and partitioner.
  - It derives the "generation" of the NUMECA version with `major_version`.
  - It writes one `launch_<name>.sge` script per computation from four emitters: NUMECA settings, MPI settings, PATH/LD_LIBRARY_PATH and computation settings.
  - It optionally submits each script with `qsub`.
  - Modules: `Version` (the version logic), `SgeScript` (the emitters and the scripts they make) and `SgeLaunch` (the main block and the `launch_*` functions).
- **The `.par` expression patcher** (`FineDesign3D/create_easy_expressions_par.py`, module `EasyExpressions`). It adds one uncertain parameter per key of an ordered key map. It raises the parameter count to match. It turns every parameter whose NAME contains one of a key's triggers into the expression `"<value>*<key>"`.
- **The `.his` statistics extractor** (`FineDesign3D/uncertain_results.py`, module `UncertainResults`). It writes the statistical-moment names of each STATISTICS_NAMES block, then one row of moment values per DESIGN_SAMPLE whose SIMULATION_PATH is a design directory.
- **The optimisation results extractor** (`FineDesign3D/optim_results.py`, module `OptimResults`). For each quantity it writes one `"<design> <value>"` row per file of that name found in the walk of the computation directory.
- **The CFView selective-open builder** (`CFView/cfview_sel_open_blocknames.py`, module `CfviewBlocks`). It turns block names into the sorted, quoted list of their 1-based positions. It builds the `FileOpenProjectSelection` command and writes the CFView macro around it.

`PyStr` models the Python 2 string operations the scripts rely on:
- `str.split()` and `str.split(c)`
- `sep.join`
- `in`, `startswith` and `endswith`
- `os.path.join` and `os.path.splitext`
- `str(n)` and `int(s)`

How the model is built:
- Each line-by-line script is a fold over its lines with a small state datatype. An exception the script does not catch is a failure outcome, which keeps what was written when the output file was already open.
- An emitted SGE script is the sequence of its typed writes: directive, assignment, export, launch command or fixed text. `Render` gives the exact text of the file.
- Paths built from the user's answers stay symbolic (`CasePath`); `PathText` renders them with `os.path.join`.
- The file system, the directory walk and the user's answers are parameters.

Behaviour of the code worth knowing, each point modelled as written:
- **Release candidates.** The comments at SGE/NUMECA_launch_SGE_interactive.py:109-110 leave versions such as "112rc" to the second pattern, `([0-9]+)([a-zA-Z]+)`. The first pattern at :105-106 already matches them, with group 1 "1", so `major_version` returns 0 (see Findings). The launchers call `major_version` (:409, :445, :482), and `SgeLaunch.LaunchScripts` does too. `SgeLaunch.IntendedLaunchScripts` is the same launch with the whole leading number over ten.
- **Section order.** The FINE launchers write the MPI settings before the library paths (:415-416, :451-452). The Hexpress/Hybrid launcher writes them the other way round (:488-489).
- **Computation check for Hexpress/Hybrid.** A typed Hexpress/Hybrid name is only checked for the `.conf` suffix (:536). The "Skipping computation" report (:621-636) removes nothing, so every chosen name gets a script.
- **Batch step.** A FINE/Turbo script runs a `fine -batch` step (:346-353) before its mpirun.
- **Script location.** Each launcher changes into `<path>/SGE_Scripts` (:406, :442, :479) before it opens `os.path.join(script_path, "launch_<name>.sge")` (:413, :449, :486). With a relative project path the open looks for the script directory inside itself, and fails unless that nested directory exists.
- **Names with a slash.** A typed Hexpress/Hybrid name only has to end in `.conf` (:536), so "sub/a.conf" is accepted. Its script `launch_sub/a.conf.sge` (:486) lies in a subdirectory `launch_sub` that `makedirs` never creates, and the open fails unless it exists. `SgeLaunch.NameDirectory` is the directory each open needs.
- **A failing open.** Each script is submitted right after it is written (:413-419), so an IOError at one computation leaves the scripts before it written and submitted. `SgeLaunch.Session` gives this the `Interrupted` outcome.
- **Header row.** The statistics extractor writes each moment name with a trailing space as it meets it (FineDesign3D/uncertain_results.py:63-67), and ends the header row at the block's end (:59-62). Rows of samples before the names block come first.
- **Output kept on failure.** The patcher (FineDesign3D/create_easy_expressions_par.py:67) and the extractor (FineDesign3D/uncertain_results.py:51) open their output file before the loop. An uncaught exception leaves what was written so far in that file.
- **Optimisation results.** `value` and `design_nr` are module-level variables (FineDesign3D/optim_results.py:66-75), so they carry over across files and quantities. The script exits (:77-82) only when one of them has never been set; a file lacking either reuses the earlier one.

## Model

| member | source | states |
|---|---|---|
| Version.AlphaBetaGroup | SGE/NUMECA_launch_SGE_interactive.py:105-107 | The backtracking match of `([0-9]+)\w+([0-9]+)` gives the group-1 length that the regular expression's meaning (`IsAlphaBetaGroup`: the longest split that matches) defines, and None exactly when no split matches |
| Version.TryAlphaBeta | SGE/NUMECA_launch_SGE_interactive.py:105-106 | Trying group-1 lengths from the longest leading digit run downwards finds the longest matching split, or proves that none matches |
| Version.AlphaBetaGroupUnique | SGE/NUMECA_launch_SGE_interactive.py:105-106 | Group 1 of the first pattern is unique: two longest matching splits are the same |
| Version.RcGroup | SGE/NUMECA_launch_SGE_interactive.py:110-112 | Group 1 of `([0-9]+)([a-zA-Z]+)` is the split the pattern's meaning defines, and None exactly when the pattern does not match |
| Version.ScanAlphaBeta | SGE/NUMECA_launch_SGE_interactive.py:105-107 | A one-pass loop over the version finds group 1 of the first pattern, agreeing with the regular expression's meaning and with the backtracking reference, and reports no match exactly when there is none |
| Version.MajorVersion | SGE/NUMECA_launch_SGE_interactive.py:86-114 | An all-digit version gives its value over ten. Otherwise it is group 1 of the first pattern over ten, else group 1 of the rc pattern over ten. None (the uncaught AttributeError) exactly when neither pattern matches |
| Version.ThreeLeadingDigitsMatchFirstPattern | SGE/NUMECA_launch_SGE_interactive.py:103-107 | With three or more leading digits the first pattern always matches, so the rc pattern is never consulted |
| Version.ReleaseCandidateGeneration | SGE/NUMECA_launch_SGE_interactive.py:103-114 | For digits followed by a digit-free tail that starts with a letter, the generation uses the whole number when there are at most two digits, and all but the last two digits when there are three or more |
| Version.IntendedMajorVersion | SGE/NUMECA_launch_SGE_interactive.py:96-112 | The generation the comments describe: the whole leading number over ten, defined on exactly the versions the code accepts |
| Version.IntendedReleaseCandidateGeneration | SGE/NUMECA_launch_SGE_interactive.py:108-112 | For a release candidate the intended generation is the whole leading number over ten |
| Version.MajorVersionMatchesIntentWhenWholeNumber | SGE/NUMECA_launch_SGE_interactive.py:99-112 | The code and the intent agree whenever the matched group is the whole leading number |
| Version.SuffixedGroup | SGE/NUMECA_launch_SGE_interactive.py:103-107 | In a beta or patch version (digits, a non-digit word character, a digit) group 1 of the first pattern is all the leading digits |
| Version.SuffixedGeneration | SGE/NUMECA_launch_SGE_interactive.py:103-107 | A beta or patch version has the whole leading number over ten as its generation, and there the code and the intent agree |
| Version.PlainVersionExample | SGE/NUMECA_launch_SGE_interactive.py:99-100 | "112" is generation 11 |
| Version.BetaVersionExample | SGE/NUMECA_launch_SGE_interactive.py:103-107 | "121b10" is generation 12 |
| Version.PatchVersionExample | SGE/NUMECA_launch_SGE_interactive.py:103-110 | "112_2" is generation 11 |
| Version.ReleaseCandidateExample | SGE/NUMECA_launch_SGE_interactive.py:105-112 | "112rc" is generation 0 as written, while 11 is intended |
| Version.NoLeadingDigitExample | SGE/NUMECA_launch_SGE_interactive.py:108-112 | A version without a leading digit ("rc1") crashes `major_version` |
| SgeScript.HeaderDirectives | SGE/NUMECA_launch_SGE_interactive.py:134-145 | The header asks for exactly the typed number of slots, names the job `<PACKAGE>_<index>`, and sends output to `<path>/<name>` for Hexpress/Hybrid and to `<path>/<name>/<name>` otherwise |
| SgeScript.HeaderSlots | SGE/NUMECA_launch_SGE_interactive.py:138 | The only `-pe orte` directive carries the typed core count |
| SgeScript.HeaderJobName | SGE/NUMECA_launch_SGE_interactive.py:140 | The only `-N` directive is the upper-cased package code and the computation's index |
| SgeScript.HeaderOutput | SGE/NUMECA_launch_SGE_interactive.py:141-144 | The only `-o` directive points to `<path>/<name>` for Hexpress/Hybrid and to `<path>/<name>/<name>` for FINE |
| SgeScript.SoftVersionSetting | SGE/NUMECA_launch_SGE_interactive.py:154-158 | NUMECA_SOFT_VERSION is set to the version for FINE/Turbo and to "open" + version otherwise, and to nothing else |
| SgeScript.NumecaSettingsLaunchesNothing | SGE/NUMECA_launch_SGE_interactive.py:117-168 | The NUMECA settings start no computation |
| SgeScript.MpiSettingsLaunchesNothing | SGE/NUMECA_launch_SGE_interactive.py:229-298 | The MPI settings start no computation and hold no scheduler directive |
| SgeScript.LdLibraryLaunchesNothing | SGE/NUMECA_launch_SGE_interactive.py:171-226 | The library-path section starts no computation and holds no scheduler directive |
| SgeScript.IntelMpiRoot | SGE/NUMECA_launch_SGE_interactive.py:244-259 | I_MPI_ROOT is set only for Intel MPI: to the 5.0.3 root in the old layout (FINE/Turbo below 12, FINE/Open below 7), to the 2017 root otherwise. The matching `bin` or `bin64` mpivars.sh is sourced |
| SgeScript.OpenMpiHome | SGE/NUMECA_launch_SGE_interactive.py:273-286 | MPIR_HOME is set for anything but Intel MPI, including Hexpress/Hybrid with no library. It is OpenMPI 1.10.4 exactly in the new layout and 1.6.5 otherwise |
| SgeScript.LdLibraryFacts | SGE/NUMECA_launch_SGE_interactive.py:187-213 | The Intel PATH list uses `bin64` iff the generation is at least 12, whatever the package. The Intel library list uses `lib64` iff the package is in the new layout. Other libraries use the MPIR_HOME lists |
| SgeScript.SolverBinary | SGE/NUMECA_launch_SGE_interactive.py:269-298 | A plain BIN is assigned exactly for Intel MPI (euranus for FINE/Turbo, hexstream otherwise) and for FINE on OpenMPI (the euranus build by generation, or hexstream for FINE/Open). Hexpress/Hybrid without Intel MPI assigns none |
| SgeScript.HexpressBinary | SGE/NUMECA_launch_SGE_interactive.py:294-298 | Only Hexpress/Hybrid without Intel MPI exports the hexpress BIN and unsets OMP_NUM_THREADS |
| SgeScript.MpiTitle | SGE/NUMECA_launch_SGE_interactive.py:244-277 | The MPI section is titled for Intel MPI exactly when the library is Intel MPI |
| SgeScript.ComputationHasNoDirective | SGE/NUMECA_launch_SGE_interactive.py:301-363 | The computation section holds no scheduler directive |
| SgeScript.ComputationMpiRun | SGE/NUMECA_launch_SGE_interactive.py:356-363 | A FINE job runs exactly one mpirun, the one `LauncherFor` picks from the library and layout, and no other. Hexpress/Hybrid runs none |
| SgeScript.ComputationHexpressRun | SGE/NUMECA_launch_SGE_interactive.py:326-333 | Hexpress/Hybrid runs `$BIN ${CONF_FILE} -numproc ${NSLOTS} -print` exactly once, and FINE jobs never do |
| SgeScript.ComputationFineBatch | SGE/NUMECA_launch_SGE_interactive.py:341-354 | FINE/Turbo alone runs one `fine -batch` step. It uses `-partition` iff the partitioner answer is "1", and passes the memory figures iff the memory answer is "1" |
| SgeScript.ComputationInputs | SGE/NUMECA_launch_SGE_interactive.py:326-338 | FINE jobs set RUNFILE and STEERINGFILE to `<path>/<name>/<name>.run` and `.steering`, and no CONF_FILE. Hexpress/Hybrid sets CONF_FILE to `<path>/<name>`, and neither of the others |
| SgeScript.ComputationInput | SGE/NUMECA_launch_SGE_interactive.py:326-338 | An input-file variable is assigned exactly the value the package calls for, or not at all |
| SgeScript.NumecaBanner | SGE/NUMECA_launch_SGE_interactive.py:147-151 | The NUMECA settings carry their banner once and no other |
| SgeScript.MpiBanner | SGE/NUMECA_launch_SGE_interactive.py:244-278 | The MPI settings carry their library's banner once and no other |
| SgeScript.LdBanner | SGE/NUMECA_launch_SGE_interactive.py:183-185 | The library-path section carries its banner once and no other |
| SgeScript.ComputationBanner | SGE/NUMECA_launch_SGE_interactive.py:321-325 | The computation section carries its banner exactly once |
| SgeScript.ComputationBannerOnly | SGE/NUMECA_launch_SGE_interactive.py:321-363 | The computation section carries no other banner |
| SgeScript.ScriptTitles | SGE/NUMECA_launch_SGE_interactive.py:485-490 | A script has four distinct section titles |
| SgeScript.ScriptSections | SGE/NUMECA_launch_SGE_interactive.py:412-417 | A job script is its four sections, in the order of its titles |
| SgeScript.ScriptBanners | SGE/NUMECA_launch_SGE_interactive.py:485-490 | Every section banner occurs in the script exactly once and no other banner does. They come in launch order: NUMECA, MPI, library paths, computation for FINE, and NUMECA, library paths, MPI, computation for Hexpress/Hybrid |
| SgeScript.PreambleLaunchesNothing | SGE/NUMECA_launch_SGE_interactive.py:412-417 | The computation section comes last, and nothing before it starts a computation |
| SgeScript.LaunchInScript | SGE/NUMECA_launch_SGE_interactive.py:412-417 | Every launch command of a script comes from its computation section, and one found once there is found once in the script |
| SgeScript.ScriptRuns | SGE/NUMECA_launch_SGE_interactive.py:326-363 | A FINE script runs its library's mpirun exactly once and no other mpirun. A Hexpress/Hybrid script runs Hexpress exactly once and no mpirun |
| SgeScript.ScriptFineBatch | SGE/NUMECA_launch_SGE_interactive.py:341-354 | Only a FINE/Turbo script has a `fine -batch` step: exactly one, with the answers given |
| SgeScript.MpiRunMatchesMpiSection | SGE/NUMECA_launch_SGE_interactive.py:357-363 | The mpirun of a FINE script starts from a variable its MPI section sets. For Intel MPI it lies in the directory whose mpivars.sh that section sources |
| SgeScript.LauncherSourced | SGE/NUMECA_launch_SGE_interactive.py:252-259 | For Intel MPI the mpirun's `bin` or `bin64` is the one the MPI section sources. For every FINE library the section sets the mpirun's home |
| SgeScript.MpiSectionHome | SGE/NUMECA_launch_SGE_interactive.py:281-286 | The MPI section sets and exports the variable the chosen mpirun starts from |
| SgeScript.HexpressIgnoresGeneration | SGE/NUMECA_launch_SGE_interactive.py:487-490 | A Hexpress/Hybrid script does not depend on the generation, so passing the version string in its place changes nothing |
| SgeScript.ScriptStartsWithShell | SGE/NUMECA_launch_SGE_interactive.py:134 | Every script text starts with `#!/bin/sh` |
| SgeScript.ScriptTail | SGE/NUMECA_launch_SGE_interactive.py:326-363 | The last writes of a script are its mpirun for FINE, and the Hexpress command, a newline and `$COMMAND` for Hexpress/Hybrid |
| SgeScript.ScriptEnding | SGE/NUMECA_launch_SGE_interactive.py:329-333 | The script text ends with the mpirun line for FINE. For Hexpress/Hybrid it ends with the Hexpress command, a newline and `$COMMAND`, with no final newline |
| SgeLaunch.ParsePackage | SGE/NUMECA_launch_SGE_interactive.py:510-513 | Only "ft", "fo" and "hh" are accepted, each as its package |
| SgeLaunch.ParsePackageCode | SGE/NUMECA_launch_SGE_interactive.py:510-513 | Every package's code is accepted as that package |
| SgeLaunch.ParseMpi | SGE/NUMECA_launch_SGE_interactive.py:579-583 | Only "impi" and "ompi" are accepted, each as its library |
| SgeLaunch.ParseMpiCode | SGE/NUMECA_launch_SGE_interactive.py:579-583 | Every library's code is accepted as that library |
| SgeLaunch.CoresCheck | SGE/NUMECA_launch_SGE_interactive.py:573-576 | The core check fails (ValueError) exactly when `int` rejects the answer, and passes only multiples of 24 |
| SgeLaunch.CoresCheckSpacedSign | SGE/NUMECA_launch_SGE_interactive.py:573-574 | An answer with a space after its sign, "+ 48" or "- 48", passes the check |
| SgeLaunch.CoresCheckOfNumber | SGE/NUMECA_launch_SGE_interactive.py:574 | A printed integer passes the check iff it is a multiple of 24, with Python's non-negative remainder |
| SgeLaunch.MemoryAnswers | SGE/NUMECA_launch_SGE_interactive.py:588-597 | The memory answers start with the yes/no answer and carry the ints and reals exactly after a yes |
| SgeLaunch.RunDirectories | SGE/NUMECA_launch_SGE_interactive.py:541-543 | The discovered FINE computations are exactly the subdirectories holding a `.run` file |
| SgeLaunch.ConfFiles | SGE/NUMECA_launch_SGE_interactive.py:533 | The discovered Hexpress/Hybrid computations are exactly the listed names ending in `.conf` |
| SgeLaunch.SelectComputations | SGE/NUMECA_launch_SGE_interactive.py:531-556 | Typed names are used as split. A typed Hexpress/Hybrid name without `.conf` stops the run, and so does a typed FINE name that is not a discovered computation. Both directions are stated. An accepted list is never empty |
| SgeLaunch.SelectAllByDefault | SGE/NUMECA_launch_SGE_interactive.py:531-556 | With nothing typed, every discovered computation is chosen, and an empty project stops the run |
| SgeLaunch.Skipped | SGE/NUMECA_launch_SGE_interactive.py:621-636 | The "Skipping" report lists exactly the chosen names whose `<path>/<name>/<name>.run` (FINE) or `<path>/<name>` (Hexpress/Hybrid) is not a file |
| SgeLaunch.CheckedFileIsInput | SGE/NUMECA_launch_SGE_interactive.py:621-636 | The file the skipping check looks for is the one the script hands to the solver: RUNFILE for FINE, CONF_FILE for Hexpress/Hybrid |
| SgeLaunch.ScriptLocation | SGE/NUMECA_launch_SGE_interactive.py:397-413 | The name a computation's script is opened and submitted under is `<path>/SGE_Scripts/launch_<name>.sge` |
| SgeLaunch.ScriptDirectoryAbsolute | SGE/NUMECA_launch_SGE_interactive.py:397 | The script directory `<path>/SGE_Scripts` is absolute exactly when the project path is, and does not end in a slash |
| SgeLaunch.OpenedDirectory | SGE/NUMECA_launch_SGE_interactive.py:406-413 | After the change into the script directory, `open` writes into the script directory for an absolute project path, and into `<path>/SGE_Scripts/<path>/SGE_Scripts` for a relative one |
| SgeLaunch.WrittenFile | SGE/NUMECA_launch_SGE_interactive.py:406-413 | The file actually written is `launch_<name>.sge` in that directory, which is the script's location when the project path is absolute |
| SgeLaunch.NameDirectoryHoldsScript | SGE/NUMECA_launch_SGE_interactive.py:413 | The written file lies directly in the computation's `NameDirectory`: no slash follows that directory in its name |
| SgeLaunch.AbsolutePathWritesAtLocation | SGE/NUMECA_launch_SGE_interactive.py:397-413 | With an absolute project path and a name without a slash, the open succeeds and writes the script at its location |
| SgeLaunch.RelativePathNestsDirectory | SGE/NUMECA_launch_SGE_interactive.py:397-413 | With a relative project path and a name without a slash, the open succeeds exactly when the nested directory `<path>/SGE_Scripts/<path>/SGE_Scripts` already exists |
| SgeLaunch.SlashedNameNeedsDirectory | SGE/NUMECA_launch_SGE_interactive.py:476-486 | For a name with a slash, the open succeeds exactly when `launch_<name up to its last slash>` already exists inside the opened directory |
| SgeLaunch.FirstFalse | SGE/NUMECA_launch_SGE_interactive.py:412-413 | The loop gets as far as the first computation whose open fails: every earlier one opens, and that one does not |
| SgeLaunch.FirstUnopenable | SGE/NUMECA_launch_SGE_interactive.py:412-413 | The loop stops early exactly when some chosen computation cannot be opened |
| SgeLaunch.ScriptLocationInjective | SGE/NUMECA_launch_SGE_interactive.py:413 | Different computations get different script files |
| SgeLaunch.LaunchScripts | SGE/NUMECA_launch_SGE_interactive.py:405-419 | One script per chosen computation, in order, each at its location with that computation's name and index. None exactly when `major_version` crashes |
| SgeLaunch.ScriptsShareSettings | SGE/NUMECA_launch_SGE_interactive.py:412-417 | The scripts of one launch differ only in the computation's name and index |
| SgeLaunch.LaunchGeneration | SGE/NUMECA_launch_SGE_interactive.py:409-417 | Every script carries the generation `major_version` returns, backtracking included, with the version as typed and the launch's package, path, MPI library and cores |
| SgeLaunch.IntendedLaunchScripts | SGE/NUMECA_launch_SGE_interactive.py:96-112 | The corrected launch: the same scripts, present exactly when the as-written ones are, with the whole leading number of the version over ten as the generation |
| SgeLaunch.ReleaseCandidateLaunch | SGE/NUMECA_launch_SGE_interactive.py:105-112 | For "112rc" on FINE/Open the as-written launch gives generation 0 and the old installation layout, and the corrected launch gives 11 and the new layout |
| SgeLaunch.Submissions | SGE/NUMECA_launch_SGE_interactive.py:366-384 | With submission on, one `qsub <script>` per script in order, and none otherwise |
| SgeLaunch.WriteScripts | SGE/NUMECA_launch_SGE_interactive.py:412-419 | The loop writes and submits the scripts of the computations in order, up to the first one whose open fails. It is interrupted exactly when some computation cannot be opened, and otherwise writes every script. The written scripts are the launch's own prefix, each in its `WrittenFile`, and each is submitted unless the answer was "n" |
| SgeLaunch.Launch | SGE/NUMECA_launch_SGE_interactive.py:397-419 | Once the checks before it pass, the launcher crashes exactly when the version has no generation. Otherwise its scripts are a prefix of `LaunchScripts` with the package's answers: all of them, or those before the first computation whose open fails, which is an interruption. It reports the `Skipped` names, records each `WrittenFile` and submits unless the answer was "n" |
| SgeLaunch.Session | SGE/NUMECA_launch_SGE_interactive.py:510-662 | The main block stops exactly when the project path is not a directory or the selection fails. After that it crashes on a core count `int` rejects (FINE), then on a version with no generation, each exactly in its case. Otherwise its scripts are a prefix of `LaunchScripts` with the package's settings (Hexpress/Hybrid: 24 cores, no MPI library): all of them, or up to the first computation whose open fails. It reports exactly the `Skipped` names, records each `WrittenFile`, and submits every written script unless the answer was "n" |
| EasyExpressions.NewFileName | FineDesign3D/create_easy_expressions_par.py:49 | The output name exists iff the input name has a dot, and then starts with the part before the first dot and `_new.` |
| EasyExpressions.NewFileNameFields | FineDesign3D/create_easy_expressions_par.py:49 | Only the first two dot-separated fields survive: `a.b.c` becomes `a_new.b` |
| EasyExpressions.NewFileNameOneDot | FineDesign3D/create_easy_expressions_par.py:49 | "stem.ext" becomes "stem_new.ext" |
| EasyExpressions.LastMatchingKey | FineDesign3D/create_easy_expressions_par.py:124-128 | A key is chosen iff some key's trigger occurs in the name, and it is the last such key in map order |
| EasyExpressions.ScanTriggersSpec | FineDesign3D/create_easy_expressions_par.py:125-128 | The loop over one key's triggers selects the key iff one of its triggers occurs in the name, and keeps the earlier choice otherwise |
| EasyExpressions.ScanKeysSelectsLastMatch | FineDesign3D/create_easy_expressions_par.py:124-128 | The nested loops select the last matching key of the map, and keep the earlier selection and key when nothing matches |
| EasyExpressions.ParameterBlock | FineDesign3D/create_easy_expressions_par.py:94-105 | A new parameter is a 12-line block |
| EasyExpressions.NewParameters | FineDesign3D/create_easy_expressions_par.py:93-106 | The new parameters are one 12-line block per key, in map order, each announcing its key |
| EasyExpressions.OtherLinesCopied | FineDesign3D/create_easy_expressions_par.py:156-157 | A line that does not split into two tokens is copied as read and changes no state |
| EasyExpressions.CountRaisedByKeys | FineDesign3D/create_easy_expressions_par.py:86-90 | The count inside USER_PARAMETERS becomes the old count plus the number of keys (empty-trigger keys included). A count `int` rejects stops the pass |
| EasyExpressions.CountLineReadsBack | FineDesign3D/create_easy_expressions_par.py:89 | The rewritten count line splits into the keyword and `+<n>`, which `int` reads back as n |
| EasyExpressions.TriggerWritesNewParameters | FineDesign3D/create_easy_expressions_par.py:91-109 | The trigger line writes all new parameters and then itself, and ends USER_PARAMETERS mode without touching the parameter-block state, so a trigger `NI_BEGIN PARAMETER` opens no block |
| EasyExpressions.OnlyTriggerWritesBlocks | FineDesign3D/create_easy_expressions_par.py:76-157 | Every other line writes at most two strings and leaves the insertion count alone |
| EasyExpressions.DroppedWhenNothingDue | FineDesign3D/create_easy_expressions_par.py:91-109 | With nothing due (already inserted, or an empty map) the other two-token lines of USER_PARAMETERS are dropped and the mode stays on |
| EasyExpressions.NameSelectsLastMatchingKey | FineDesign3D/create_easy_expressions_par.py:122-130 | A NAME line is always rewritten with a tab, and selects the last matching key while keeping an earlier selection |
| EasyExpressions.SelectedParameterRewritten | FineDesign3D/create_easy_expressions_par.py:131-151 | In a selected parameter VALUE is recorded and rewritten, QUANTITY_TYPE becomes EXPRESSION, and UNCERTAIN is followed by `EXPRESSION "<value>*<key>"` |
| EasyExpressions.UnselectedParameterCopied | FineDesign3D/create_easy_expressions_par.py:131-155 | In a parameter that is not selected every line but NAME is copied as read |
| EasyExpressions.BlockBoundaries | FineDesign3D/create_easy_expressions_par.py:111-120 | A parameter block starts with no recorded value, and its end clears the selection but keeps the key |
| EasyExpressions.StepKeepsInvariants | FineDesign3D/create_easy_expressions_par.py:76-157 | Each line keeps "selected implies a key is set" and "none or all parameters inserted". It fails only on a count `int` rejects |
| EasyExpressions.InsertedAtMostOnce | FineDesign3D/create_easy_expressions_par.py:92-109 | The new parameters are written at most once, and never once written |
| EasyExpressions.FailsOnlyOnBadCount | FineDesign3D/create_easy_expressions_par.py:86-88 | The only exception the pass can raise is the ValueError of a bad count. The NameError of an unset key cannot happen |
| EasyExpressions.PatchFileFacts | FineDesign3D/create_easy_expressions_par.py:67-159 | From the start at most one insertion happens, and a file without a bad count line is always patched |
| EasyExpressions.FailureEndsPass | FineDesign3D/create_easy_expressions_par.py:67-159 | Once the pass fails, later lines are never read: the output file keeps exactly what was written before the exception |
| UncertainResults.RowReadsBack | FineDesign3D/uncertain_results.py:81-83 | A written row splits back into the values it was written from |
| UncertainResults.NamesBegin | FineDesign3D/uncertain_results.py:56-58 | `NI_BEGIN STATISTICS_NAMES` opens a names block, sets the name to "" and writes nothing |
| UncertainResults.NamesEnd | FineDesign3D/uncertain_results.py:59-62 | `NI_END STATISTICS_NAMES` closes the block and writes a newline |
| UncertainResults.NamesStatistics | FineDesign3D/uncertain_results.py:63-67 | `STATISTICS <name>` in a names block records the name and writes it with a space |
| UncertainResults.NamesBody | FineDesign3D/uncertain_results.py:63-67 | A run of statistics lines writes their names, each followed by a space, and keeps the last |
| UncertainResults.NamesBlock | FineDesign3D/uncertain_results.py:55-67 | A whole names block writes the header row of its names and leaves the last name set |
| UncertainResults.SampleStep | FineDesign3D/uncertain_results.py:76-83 | In a sample a statistics line replaces the values with its tokens after the first. A SIMULATION_PATH through a design directory writes the current values as a row |
| UncertainResults.SampleBody | FineDesign3D/uncertain_results.py:76-83 | The lines of a sample write one row per design path, each holding the values of the latest statistics line before it |
| UncertainResults.SampleBegin | FineDesign3D/uncertain_results.py:71-73 | `NI_BEGIN DESIGN_SAMPLE` opens a sample and resets the values |
| UncertainResults.SampleEnd | FineDesign3D/uncertain_results.py:74-75 | `NI_END DESIGN_SAMPLE` closes the sample |
| UncertainResults.SampleBlock | FineDesign3D/uncertain_results.py:70-83 | A whole sample writes one row per design path, in order, starting from no values, so a sample without a statistics line writes empty rows |
| UncertainResults.OutsideBlocksSilent | FineDesign3D/uncertain_results.py:52-83 | Outside both kinds of block a line that opens or closes neither writes nothing |
| UncertainResults.NamedRunSucceeds | FineDesign3D/uncertain_results.py:59-60 | Once a name is set the pass cannot fail |
| UncertainResults.UnnamedRunFails | FineDesign3D/uncertain_results.py:56-62 | Before any name is set, the pass fails exactly when a names block ends before one begins |
| UncertainResults.ExtractOutcome | FineDesign3D/uncertain_results.py:46-87 | A missing input writes nothing. Otherwise the script fails with NameError exactly when a names block ends before any has begun, and on success the file holds everything the loop wrote |
| UncertainResults.PartialOfRun | FineDesign3D/uncertain_results.py:51-83 | When the loop runs through, what it has written is its whole output |
| UncertainResults.PartialAtFailure | FineDesign3D/uncertain_results.py:51-83 | When a line fails, what was written is exactly the output of the lines before it, whatever follows |
| UncertainResults.ExtractKeepsPrefix | FineDesign3D/uncertain_results.py:51-62 | On the NameError the output file keeps what the lines before the failing one wrote, and nothing after |
| OptimResults.ScanValueIsLast | FineDesign3D/optim_results.py:66-69 | The line loop raises IndexError exactly when some line is empty or a lone `VALUE`. Otherwise it ends with the second token of the last VALUE line, or the value from before |
| OptimResults.DesignFields | FineDesign3D/optim_results.py:75 | A path component containing `_design_` has at least three `_`-separated fields, so the design lookup never raises |
| OptimResults.ScanDesignIsLast | FineDesign3D/optim_results.py:72-75 | The component loop keeps the third field of the last component containing `_design_` |
| OptimResults.Quantities | FineDesign3D/optim_results.py:55-86 | The output files are created one per quantity, in order, named `<quantity>_global.dat`. All are created when the run finishes |
| OptimResults.UnselectedIgnored | FineDesign3D/optim_results.py:62 | A file whose name without extension is not the quantity is not read and changes nothing |
| OptimResults.SelectedFile | FineDesign3D/optim_results.py:62-82 | A selected file crashes iff it has a bad line. Otherwise it writes the row of its last VALUE and last design, each carried over from before when it lacks one, and exits when either was never set |
| OptimResults.HasValue | FineDesign3D/optim_results.py:66-69 | A file with a VALUE line gives a value that does not depend on what came before |
| OptimResults.HasDesign | FineDesign3D/optim_results.py:72-75 | A path with a design component gives a design that does not depend on what came before |
| OptimResults.CompleteFile | FineDesign3D/optim_results.py:62-78 | A complete file writes its own row whatever came before |
| OptimResults.QuantityRows | FineDesign3D/optim_results.py:59-82 | When every selected file is complete, a quantity's output is one row per selected file, in walk order, independent of earlier files and quantities |
| OptimResults.ValueCarriedOver | FineDesign3D/optim_results.py:66-82 | A selected file without a VALUE line writes the value an earlier file left |
| OptimResults.QuantitiesRows | FineDesign3D/optim_results.py:55-86 | When every selected file is complete, the run finishes and each quantity's file holds exactly its own rows |
| OptimResults.FirstFileUnset | FineDesign3D/optim_results.py:77-82 | The first selected file of the run, lacking a VALUE line or a design component, makes the script exit after creating only its quantity's file |
| CfviewBlocks.BlockIndex | CFView/cfview_sel_open_blocknames.py:141 | A name's index is 1 + its first position in the block list, and None (ValueError) exactly when it is absent |
| CfviewBlocks.IndexList | CFView/cfview_sel_open_blocknames.py:139-141 | One index per requested name, in request order, failing exactly when some name is absent |
| CfviewBlocks.Insert | CFView/cfview_sel_open_blocknames.py:144 | Insertion into a sorted list keeps it sorted and adds exactly the one element |
| CfviewBlocks.Sort | CFView/cfview_sel_open_blocknames.py:144 | The sort is ascending and a permutation of its input |
| CfviewBlocks.SortedUnique | CFView/cfview_sel_open_blocknames.py:144 | Two ascending permutations of the same list are equal, so any ascending sort gives Python's result |
| CfviewBlocks.NumberTexts | CFView/cfview_sel_open_blocknames.py:147 | Each index printed with `str`, in order |
| CfviewBlocks.Indices | CFView/cfview_sel_open_blocknames.py:136-159 | The quoted indices exist exactly when every requested name is a block |
| CfviewBlocks.QuotedReadsBack | CFView/cfview_sel_open_blocknames.py:147-150 | The quoted list is wrapped in single quotes and splits back, between them, into the printed numbers |
| CfviewBlocks.IndicesContent | CFView/cfview_sel_open_blocknames.py:139-150 | The indices text holds the requested names' positions in ascending order, one per requested name (duplicates kept) |
| CfviewBlocks.Command | CFView/cfview_sel_open_blocknames.py:259 | The command starts with `FileOpenProjectSelection` and ends with the indices and ` ,'loadqnt')` |
| CfviewBlocks.Filter | CFView/cfview_sel_open_blocknames.py:199-204 | The filtered macro lines are exactly the lines not starting with `FileOpenProjectSelection` |
| CfviewBlocks.FilterAppend | CFView/cfview_sel_open_blocknames.py:199-204 | Filtering works line by line: it distributes over concatenation |
| CfviewBlocks.FilterIdempotent | CFView/cfview_sel_open_blocknames.py:199-204 | Filtering twice is filtering once |
| CfviewBlocks.RunCfview | CFView/cfview_sel_open_blocknames.py:185-219 | Without a macro the script is `CFViewBackward(912)`, a newline, the command and a newline. A missing macro file writes nothing. Otherwise the script is the macro's first line as read, a newline, the command, a newline, and the remaining lines without those starting with the command name |
| CfviewBlocks.MacroHasOneCommand | CFView/cfview_sel_open_blocknames.py:191-204 | In a macro-based script the command written is the only line after the first that starts with `FileOpenProjectSelection` |
| CfviewBlocks.BuildScript | CFView/cfview_sel_open_blocknames.py:252-264 | The pipeline from names to script fails exactly when a requested name is not a block |
| PyStr.Split | FineDesign3D/create_easy_expressions_par.py:77 | `str.split()` gives tokens only: non-empty and free of whitespace |
| PyStr.SplitJoin | CFView/cfview_sel_open_blocknames.py:147 | Tokens joined by single spaces split back into the tokens |
| PyStr.SplitOn | FineDesign3D/optim_results.py:75 | `split("_")` gives at least one field, no field holds the separator, and joining them gives the string back |
| PyStr.SplitOnJoin | FineDesign3D/optim_results.py:75 | Fields free of the separator, joined and split again, come back unchanged |
| PyStr.PathJoin | SGE/NUMECA_launch_SGE_interactive.py:142-144 | `os.path.join` keeps an absolute second part alone, and otherwise starts with the first part and ends with the second |
| PyStr.SplitExtParts | FineDesign3D/optim_results.py:62 | The root and extension of `splitext` put together give the name back |
| PyStr.NatToString | FineDesign3D/create_easy_expressions_par.py:89 | `str(n)` is a digit string without a leading zero whose value is n |
| PyStr.ParseInt | SGE/NUMECA_launch_SGE_interactive.py:574 | Python 2's `int` accepts exactly the digit strings, optionally signed, with whitespace around them and between the sign and the digits |
| PyStr.SpaceAfterSign | SGE/NUMECA_launch_SGE_interactive.py:574 | `int("+ 48") == 48` and `int("- 48") == -48`, while a lone sign is a ValueError |
| PyStr.ParseIntToString | FineDesign3D/create_easy_expressions_par.py:87-89 | `int(str(i)) == i` |

## Left out

- User input: the `raw_input` prompts and re-prompting loops are not modelled. `SgeLaunch.Answers.Accepted` states what they guarantee once an answer is accepted.
- The memory re-prompt at SGE/NUMECA_launch_SGE_interactive.py:591-593 appends to `memFT` without changing `memFT[0]`, so it never ends on a bad answer. It is not modelled; `MemoryAnswers` covers the answers it accepts.
- File-system and process effects are not modelled as such: `os.walk`, `os.listdir`, `makedirs`, `remove`, file opening and closing, `qsub` through `os.system`, and the `cfview111`/`igg111` calls. Directory contents, file lines and the files and directories that exist are parameters. `qsub` is its command line. Of `chdir` and `open`, only their effect on which file the launcher writes (`WrittenFile`, `NameDirectory`, `Opens`) is modelled; a `makedirs` or `open` that fails for another reason (permissions, a file in the way) is not.
- The IGG script template and its run in `igg_get_block_names` (CFView/cfview_sel_open_blocknames.py:66-117) are not modelled: the block-name list is a parameter.
- The messages the scripts print are not modelled.
- Version.MajorVersion: `is_float` is taken to accept exactly the non-empty all-digit strings. Decimals, exponents, signs, surrounding whitespace and `inf`/`nan` are left out because they need Python's float parser. `int(float(x)/10)` is modelled as exact division of the digit value by ten: it differs from the source only for digit runs above 2^53 ("99999999999999999" gives 10000000000000000 through float rounding, and 9999999999999999 here), because double-precision rounding is not modelled.
- EasyExpressions.ParameterBlock: the contract states only that a new parameter is 12 lines. The lines themselves are the fixed text the source writes, and no lemma reads them back through `split()`.
- CfviewBlocks.Command: the contract states the command's start and its ending with the indices. The project file name and the block count in between are fixed text the function writes as the source does.
- Dictionary order: the patcher's `expressions_dict` is an ordered sequence of (key, triggers) entries, and results are stated relative to that order. The sequence may repeat a key, which a dict cannot; for distinct keys the results are those of the dict, and a repeated key is an extra input the script never receives.
- SgeScript.Render: the shell loops over `pathlist`/`libpath` and the Intel comment lines are fixed text blocks. Properties are stated over the typed writes, and paths built from the answers stay symbolic (`CasePath`) instead of being rendered character by character.
- The Python 2 comparison of a version string with an integer in the Hexpress/Hybrid launcher is not modelled. The launcher passes the version string where a generation is expected, and `HexpressIgnoresGeneration` shows no Hexpress/Hybrid output depends on it.
- Indentation of the SGE launcher: it mixes tabs and spaces, and at Python's 8-column tabs it does not compile. The `if` at :399 and the `print` at :400 are both at column 8, and the `with` at :413 (column 16) is followed by a line at column 12 (:414). The model reads the file at 4-column tabs. There `if submit:` (:418, :455, :492) is inside the loop over the computations, so each script is submitted right after it is written.
- The other scripts of the collection (the FineTurbo scripts and `delete_all_besides_par_optimization.py`) are not modelled. They are floating-point numerics, a proprietary scripting API, or file-system plumbing.

## Findings

| source | as written | input that shows it | evidently intended | confidence | as-written member | corrected member |
|---|---|---|---|---|---|---|
| SGE/NUMECA_launch_SGE_interactive.py:105-107 | `re.match("([0-9]+)\w+([0-9]+)", version)` backtracks. With three or more leading digits and no later digit, `\w+` takes all but one digit, and group 1 shrinks to the digits before the last two | "112rc" gives group 1 "1" and generation 0, so the launcher picks the old installation layout | The whole leading number over ten, as the comments describe release candidates: "112rc" gives 11 | not executed | Version.ReleaseCandidateExample | Version.IntendedMajorVersion |

=== FILE: cfview_blocks.dfy ===
/**
 The CFView selective-open builder: turns the requested block names into the
 sorted, quoted list of their 1-based positions in the mesh's block-name list,
 builds the `FileOpenProjectSelection` command from it, and writes the CFView
 macro `cfview_script.py` around that command.
 */
module CfviewBlocks {
  import opened PyStr

  // ---------------------------------------------------------------------------
  // Block indices

  /** `block_list.index(name) + 1`: the 1-based position of the first occurrence;
      None is the ValueError of an absent name. */
  function BlockIndex(blocks: seq<string>, name: string): (r: Option<nat>)
    ensures r.Some? <==> name in blocks
    ensures r.Some? ==> 1 <= r.value <= |blocks| && blocks[r.value - 1] == name && name !in blocks[..r.value - 1]
  {
    if |blocks| == 0 then None
    else if blocks[0] == name then Some(1)
    else match BlockIndex(blocks[1..], name)
      case None => None
      case Some(k) =>
        assert blocks[..k] == [blocks[0]] + blocks[1..][..k - 1];
        Some(k + 1)
  }

  /** The index of each requested name, in request order. */
  function IndexList(blocks: seq<string>, names: seq<string>): (r: Option<seq<nat>>)
    ensures r.Some? <==> forall k :: 0 <= k < |names| ==> names[k] in blocks
    ensures r.Some? ==> |r.value| == |names|
    ensures r.Some? ==> forall k :: 0 <= k < |names| ==> BlockIndex(blocks, names[k]) == Some(r.value[k])
  {
    if |names| == 0 then Some([])
    else match BlockIndex(blocks, names[0])
      case None => None
      case Some(i) =>
        match IndexList(blocks, names[1..])
        case None =>
          assert exists k :: 0 <= k < |names| && names[k] !in blocks by {
            var k :| 0 <= k < |names[1..]| && names[1..][k] !in blocks;
            assert names[k + 1] !in blocks;
          }
          None
        case Some(rest) =>
          var r := [i] + rest;
          assert forall k :: 1 <= k < |names| ==> names[k] == names[1..][k - 1] && r[k] == rest[k - 1];
          Some(r)
  }

  // ---------------------------------------------------------------------------
  // Sorting

  predicate Sorted(s: seq<nat>) {
    forall i, j :: 0 <= i < j < |s| ==> s[i] <= s[j]
  }

  /** A head no greater than any element of a sorted tail keeps it sorted. */
  lemma SortedCons(h: nat, t: seq<nat>)
    requires Sorted(t) && forall k :: 0 <= k < |t| ==> h <= t[k]
    ensures Sorted([h] + t)
  {
    var ht := [h] + t;
    forall i, j | 0 <= i < j < |ht| ensures ht[i] <= ht[j] {
      assert ht[j] == t[j - 1];
      if i > 0 {
        assert ht[i] == t[i - 1];
      }
    }
  }

  /** A bound on `x` and on every element of `s` bounds every element of a sequence
      holding exactly those. */
  lemma BoundByElements(m: nat, r: seq<nat>, s: seq<nat>, x: nat)
    requires multiset(r) == multiset(s) + multiset{x}
    requires m <= x && forall k :: 0 <= k < |s| ==> m <= s[k]
    ensures forall k :: 0 <= k < |r| ==> m <= r[k]
  {
    forall k | 0 <= k < |r| ensures m <= r[k] {
      assert r[k] in multiset(r);
      if r[k] != x {
        assert r[k] in multiset(s);
      }
    }
  }

  /** `x` placed before the first element not below it. */
  function Insert(x: nat, s: seq<nat>): (r: seq<nat>)
    requires Sorted(s)
    ensures Sorted(r) && multiset(r) == multiset(s) + multiset{x}
  {
    if |s| == 0 then [x]
    else if x <= s[0] then
      SortedCons(x, s);
      [x] + s
    else
      var rest := Insert(x, s[1..]);
      assert s == [s[0]] + s[1..];
      BoundByElements(s[0], rest, s[1..], x);
      SortedCons(s[0], rest);
      [s[0]] + rest
  }

  /** `list.sort()` on integers: ascending, the same elements with the same counts. */
  function Sort(s: seq<nat>): (r: seq<nat>)
    ensures Sorted(r) && multiset(r) == multiset(s)
  {
    if |s| == 0 then []
    else
      assert s == [s[0]] + s[1..];
      Insert(s[0], Sort(s[1..]))
  }

  /** Two sorted sequences with the same elements start with the same (least) one. */
  lemma SortedHeads(a: seq<nat>, b: seq<nat>)
    requires Sorted(a) && Sorted(b) && multiset(a) == multiset(b) && |a| > 0
    ensures |b| > 0 && a[0] == b[0]
  {
    assert a[0] in multiset(b);
    var i :| 0 <= i < |b| && b[i] == a[0];
    assert b[0] in multiset(a);
    var j :| 0 <= j < |a| && a[j] == b[0];
    assert b[0] <= b[i] && a[0] <= a[j];
  }

  /** Two sorted sequences with the same elements are equal: any ascending sort
      gives Python's result. */
  lemma {:induction false} SortedUnique(a: seq<nat>, b: seq<nat>)
    requires Sorted(a) && Sorted(b) && multiset(a) == multiset(b)
    ensures a == b
    decreases |a|
  {
    if |a| == 0 {
      assert |b| == |multiset(b)| == 0;
    } else {
      SortedHeads(a, b);
      assert a == [a[0]] + a[1..] && b == [b[0]] + b[1..];
      assert multiset(a[1..]) == multiset(a) - multiset{a[0]};
      assert multiset(b[1..]) == multiset(b) - multiset{b[0]};
      SortedUnique(a[1..], b[1..]);
    }
  }

  // ---------------------------------------------------------------------------
  // The quoted index list and the command

  function NumberTexts(s: seq<nat>): (r: seq<string>)
    ensures |r| == |s| && forall k :: 0 <= k < |s| ==> r[k] == NatToString(s[k])
  {
    if |s| == 0 then [] else [NatToString(s[0])] + NumberTexts(s[1..])
  }

  /** `"'" + ' '.join(str(x) for x in xs) + "'"`. */
  function Quoted(xs: seq<nat>): string {
    "'" + Join(" ", NumberTexts(xs)) + "'"
  }

  /** The requested names' indices, sorted and quoted; None is the ValueError. */
  function Indices(blocks: seq<string>, names: seq<string>): (r: Option<string>)
    ensures r.Some? <==> forall k :: 0 <= k < |names| ==> names[k] in blocks
  {
    match IndexList(blocks, names)
    case None => None
    case Some(list) => Some(Quoted(Sort(list)))
  }

  /** The quoted list reads back, between its quotes, as the numbers it was made from. */
  lemma QuotedReadsBack(xs: seq<nat>)
    ensures var q := Quoted(xs);
      |q| >= 2 && q[0] == '\'' && q[|q| - 1] == '\'' &&
      Split(q[1..|q| - 1]) == NumberTexts(xs)
  {
    var q := Quoted(xs);
    var inner := Join(" ", NumberTexts(xs));
    assert q[1..|q| - 1] == inner;
    forall k | 0 <= k < |xs|
      ensures IsToken(NumberTexts(xs)[k])
    {
      var t := NatToString(xs[k]);
      assert forall i :: 0 <= i < |t| ==> IsDigit(t[i]);
    }
    SplitJoin(NumberTexts(xs));
  }

  /** The indices text of the requested names: their positions in ascending order,
      one per requested name (duplicates kept), each `int`-readable. */
  lemma IndicesContent(blocks: seq<string>, names: seq<string>)
    requires forall k :: 0 <= k < |names| ==> names[k] in blocks
    ensures var list := IndexList(blocks, names).value;
      var q := Indices(blocks, names).value;
      q == Quoted(Sort(list)) && |Sort(list)| == |names| &&
      Split(q[1..|q| - 1]) == NumberTexts(Sort(list)) &&
      forall k :: 0 <= k < |names| ==> list[k] in multiset(Sort(list))
  {
    var list := IndexList(blocks, names).value;
    QuotedReadsBack(Sort(list));
    assert |multiset(Sort(list))| == |multiset(list)|;
    forall k | 0 <= k < |names|
      ensures list[k] in multiset(Sort(list))
    {
      assert list[k] in multiset(list);
    }
  }

  const ProjectFile := "DemoCase_8_000_FMMP.run"

  /** The selective-open command for `count` requested names and the quoted indices. */
  function Command(count: nat, indices: string): (r: string)
    ensures StartsWith(r, "FileOpenProjectSelection")
    ensures EndsWith(r, indices + " ,'loadqnt')")
  {
    var head := "FileOpenProjectSelection('" + ProjectFile + "' ,'blocklist'," + NatToString(count) + " ,";
    var r := head + (indices + " ,'loadqnt')");
    assert r[..24] == "FileOpenProjectSelection";
    assert r[|r| - |indices + " ,'loadqnt')"|..] == indices + " ,'loadqnt')";
    r
  }

  // ---------------------------------------------------------------------------
  // The macro

  const Prefix := "FileOpenProjectSelection"

  /** The macro lines after the first, minus those starting with the command name. */
  function Filter(lines: seq<string>): (r: seq<string>)
    ensures |r| <= |lines|
    ensures forall k :: 0 <= k < |r| ==> r[k] in lines && !StartsWith(r[k], Prefix)
    ensures forall k :: 0 <= k < |lines| && !StartsWith(lines[k], Prefix) ==> lines[k] in r
  {
    if |lines| == 0 then []
    else
      var rest := Filter(lines[1..]);
      assert forall k :: 1 <= k < |lines| ==> lines[k] == lines[1..][k - 1];
      if StartsWith(lines[0], Prefix) then rest else [lines[0]] + rest
  }

  /** Filtering works line by line, so it distributes over concatenation. */
  lemma {:induction false} FilterAppend(a: seq<string>, b: seq<string>)
    ensures Filter(a + b) == Filter(a) + Filter(b)
    decreases |a|
  {
    if |a| == 0 {
      assert a + b == b;
    } else {
      assert (a + b)[0] == a[0] && (a + b)[1..] == a[1..] + b;
      FilterAppend(a[1..], b);
    }
  }

  /** Filtering twice is filtering once. */
  lemma {:induction false} FilterIdempotent(lines: seq<string>)
    ensures Filter(Filter(lines)) == Filter(lines)
    decreases |lines|
  {
    if |lines| > 0 {
      FilterIdempotent(lines[1..]);
      if !StartsWith(lines[0], Prefix) {
        var rest := Filter(lines[1..]);
        assert ([lines[0]] + rest)[0] == lines[0] && ([lines[0]] + rest)[1..] == rest;
      }
    }
  }

  /** What `run_cfview` does: no macro file means exit before writing anything. */
  datatype Macro = MissingMacro | Written(text: seq<string>)

  /**
   The written `cfview_script.py`, as the strings written in order. `macro` is the
   macro path ("" for none) and `macroLines` the macro file's lines as read, or
   None when the path is not a file.
   */
  function RunCfview(command: string, macro: string, macroLines: Option<seq<string>>): (r: Macro)
    ensures macro == "" ==> r == Written(["CFViewBackward(912)", "\n", command, "\n"])
    ensures macro != "" && macroLines.None? ==> r == MissingMacro
    ensures macro != "" && macroLines.Some? ==>
      var ls := macroLines.value;
      r.Written? && |r.text| >= 4 && r.text[1..4] == ["\n", command, "\n"] &&
      r.text[0] == (if |ls| == 0 then "" else ls[0]) &&
      r.text[4..] == (if |ls| == 0 then [] else Filter(ls[1..]))
  {
    if macro == "" then Written(["CFViewBackward(912)", "\n", command, "\n"])
    else match macroLines
      case None => MissingMacro
      case Some(ls) =>
        var first := if |ls| == 0 then "" else ls[0];
        var rest := if |ls| == 0 then [] else Filter(ls[1..]);
        Written([first, "\n", command, "\n"] + rest)
  }

  /** In a macro-based script, the command written is the only line after the first
      that starts with `FileOpenProjectSelection`. */
  lemma MacroHasOneCommand(command: string, macro: string, ls: seq<string>)
    requires macro != "" && StartsWith(command, Prefix)
    ensures var t := RunCfview(command, macro, Some(ls)).text;
      StartsWith(t[2], Prefix) &&
      forall k :: 3 <= k < |t| && StartsWith(t[k], Prefix) ==> false
  {
    var t := RunCfview(command, macro, Some(ls)).text;
    assert !StartsWith(t[3], Prefix);
    forall k | 4 <= k < |t|
      ensures !StartsWith(t[k], Prefix)
    {
      assert t[k] == t[4..][k - 4];
    }
  }

  /** The whole pipeline from block names to the written script; None is the
      ValueError of a requested name that is not a block. */
  function BuildScript(blocks: seq<string>, names: seq<string>, macro: string,
                       macroLines: Option<seq<string>>): (r: Option<Macro>)
    ensures r.Some? <==> forall k :: 0 <= k < |names| ==> names[k] in blocks
  {
    match Indices(blocks, names)
    case None => None
    case Some(q) => Some(RunCfview(Command(|names|, q), macro, macroLines))
  }
}

=== FILE: easy_expressions.dfy ===
/**
 The `.par` expression patcher: copies a FINE/Design3D parameter file line by
 line, announces one new uncertain parameter per key of an ordered map
 (key -> trigger substrings), bumps the parameter count accordingly, and turns
 every parameter whose NAME contains a trigger into an expression
 `"<value>*<key>"` of the last matching key.

 Lines are the file's lines as read, terminators included; the output is the
 sequence of strings written, in order.
 */
module EasyExpressions {
  import opened PyStr

  /** One entry of the key map: a new parameter and the substrings that select the
      existing parameters it drives. The map is a sequence, in iteration order. */
  datatype Entry = Entry(key: string, triggers: seq<string>)

  /** The value, minimum and maximum given to every new parameter. */
  datatype Range = Range(value: string, min: string, max: string)

  /** `file_name.split(".")[0] + "_new." + file_name.split(".")[1]`; None is the
      IndexError of a name without a dot. */
  function NewFileName(fileName: string): (r: Option<string>)
    ensures r.Some? <==> '.' in fileName
    ensures r.Some? ==> StartsWith(r.value, SplitOn(fileName, '.')[0] + "_new.")
  {
    var parts := SplitOn(fileName, '.');
    if |parts| < 2 then
      assert '.' !in fileName by {
        assert parts == [fileName];
      }
      None
    else
      var r := parts[0] + "_new." + parts[1];
      assert r[..|parts[0] + "_new."|] == parts[0] + "_new.";
      Some(r)
  }

  /** A name with one dot keeps its extension: "sample.par" becomes "sample_new.par". */
  lemma NewFileNameOneDot(stem: string, ext: string)
    requires '.' !in stem && '.' !in ext
    ensures NewFileName(stem + "." + ext) == Some(stem + "_new." + ext)
  {
    SplitOnJoin([stem, ext], '.');
    assert Join(['.'], [stem, ext]) == stem + "." + ext;
  }

  /** Only the first two '.'-fields survive: "a.b.c" becomes "a_new.b" and the
      later fields are dropped. */
  lemma NewFileNameFields(fields: seq<string>)
    requires |fields| >= 2
    requires forall k :: 0 <= k < |fields| ==> '.' !in fields[k]
    ensures NewFileName(Join(".", fields)) == Some(fields[0] + "_new." + fields[1])
  {
    SplitOnJoin(fields, '.');
  }

  // ---------------------------------------------------------------------------
  // The state of the pass

  datatype PatchState = PatchState(
    inParamBlock: bool,      // between NI_BEGIN PARAMETER and NI_END PARAMETER
    required: bool,          // the current parameter's NAME contained a trigger
    inUserParams: bool,      // inside USER_PARAMETERS, before the new parameters went in
    count: nat,              // new parameters written so far
    value: string,           // the VALUE recorded in the current parameter block
    keyName: Option<string>) // the key of the last matching trigger (unset at first)

  const Start := PatchState(false, false, false, 0, "", None)

  // ---------------------------------------------------------------------------
  // Which key a parameter name selects

  /** The inner loop over one key's triggers: any trigger contained in the name
      selects the key. */
  function ScanTriggers(triggers: seq<string>, key: string, name: string,
                        required: bool, keyName: Option<string>): (r: (bool, Option<string>))
    decreases |triggers|
  {
    if |triggers| == 0 then (required, keyName)
    else if Contains(name, triggers[0]) then ScanTriggers(triggers[1..], key, name, true, Some(key))
    else ScanTriggers(triggers[1..], key, name, required, keyName)
  }

  /** Both loops of the NAME branch, over the map in iteration order. */
  function ScanKeys(es: seq<Entry>, name: string, required: bool, keyName: Option<string>): (r: (bool, Option<string>))
    decreases |es|
  {
    if |es| == 0 then (required, keyName)
    else
      var (req, key) := ScanTriggers(es[0].triggers, es[0].key, name, required, keyName);
      ScanKeys(es[1..], name, req, key)
  }

  predicate Selects(e: Entry, name: string) {
    exists t :: t in e.triggers && Contains(name, t)
  }

  /** The key of the last entry with a trigger contained in `name`. */
  function LastMatchingKey(es: seq<Entry>, name: string): (r: Option<string>)
    ensures r.Some? <==> exists i :: 0 <= i < |es| && Selects(es[i], name)
    ensures r.Some? ==> exists i :: 0 <= i < |es| && Selects(es[i], name) && es[i].key == r.value &&
                                    forall k :: i < k < |es| ==> !Selects(es[k], name)
  {
    if |es| == 0 then None
    else if Selects(es[|es| - 1], name) then Some(es[|es| - 1].key)
    else
      var r := LastMatchingKey(es[..|es| - 1], name);
      assert forall i :: 0 <= i < |es| - 1 ==> es[..|es| - 1][i] == es[i];
      r
  }

  lemma {:induction false} ScanTriggersSpec(triggers: seq<string>, key: string, name: string,
                                            required: bool, keyName: Option<string>)
    ensures var any := exists t :: t in triggers && Contains(name, t);
      ScanTriggers(triggers, key, name, required, keyName) ==
        (required || any, if any then Some(key) else keyName)
    decreases |triggers|
  {
    if |triggers| > 0 {
      assert forall t :: t in triggers <==> t == triggers[0] || t in triggers[1..];
      if Contains(name, triggers[0]) {
        ScanTriggersSpec(triggers[1..], key, name, true, Some(key));
      } else {
        ScanTriggersSpec(triggers[1..], key, name, required, keyName);
      }
    }
  }

  lemma {:induction false} ScanKeysAppend(es: seq<Entry>, e: Entry, name: string, required: bool, keyName: Option<string>)
    ensures var (req, key) := ScanKeys(es, name, required, keyName);
      ScanKeys(es + [e], name, required, keyName) == ScanTriggers(e.triggers, e.key, name, req, key)
    decreases |es|
  {
    if |es| == 0 {
      assert [e][1..] == [];
    } else {
      var (req, key) := ScanTriggers(es[0].triggers, es[0].key, name, required, keyName);
      assert (es + [e])[1..] == es[1..] + [e];
      ScanKeysAppend(es[1..], e, name, req, key);
    }
  }

  /** The nested loops select the key of the last matching (key, trigger) pair, and
      leave the previous choice when nothing matches. */
  lemma {:induction false} ScanKeysSelectsLastMatch(es: seq<Entry>, name: string, required: bool, keyName: Option<string>)
    ensures ScanKeys(es, name, required, keyName) ==
      (required || LastMatchingKey(es, name).Some?,
       if LastMatchingKey(es, name).Some? then LastMatchingKey(es, name) else keyName)
    decreases |es|
  {
    if |es| > 0 {
      var init := es[..|es| - 1];
      var e := es[|es| - 1];
      assert es == init + [e];
      ScanKeysAppend(init, e, name, required, keyName);
      ScanKeysSelectsLastMatch(init, name, required, keyName);
      var (req, key) := ScanKeys(init, name, required, keyName);
      ScanTriggersSpec(e.triggers, e.key, name, req, key);
    }
  }

  // ---------------------------------------------------------------------------
  // The new parameters

  /** The 12-line PARAMETER block announcing key `key`. */
  function ParameterBlock(key: string, rg: Range): (r: seq<string>)
    ensures |r| == 12
  {
    [ "NI_BEGIN\t PARAMETER\n",
      "NAME\t" + key + "\n",
      "LIMIT_MIN\t -1000000000\n",
      "LIMIT_MAX\t 1000000000\n",
      "VALUE\t" + rg.value + "\n",
      "VALUE_MIN\t" + rg.min + "\n",
      "VALUE_MAX\t" + rg.max + "\n",
      "VALUE_REF\t 1\n",
      "NB_LEVELS\t +2\n",
      "QUANTITY_TYPE\t VALUE\n",
      "UNCERTAIN\t FALSE\n",
      "NI_END\t PARAMETER\n" ]
  }

  /** One block per key, in the map's order. */
  function NewParameters(es: seq<Entry>, rg: Range): (r: seq<string>)
    ensures |r| == 12 * |es|
    ensures forall i :: 0 <= i < |es| ==> r[12 * i..12 * i + 12] == ParameterBlock(es[i].key, rg)
  {
    if |es| == 0 then []
    else
      var rest := NewParameters(es[1..], rg);
      var r := ParameterBlock(es[0].key, rg) + rest;
      assert forall i :: 1 <= i < |es| ==> r[12 * i..12 * i + 12] == rest[12 * (i - 1)..12 * (i - 1) + 12];
      r
  }

  // ---------------------------------------------------------------------------
  // One line

  /** The count line in USER_PARAMETERS: `NUMBER_OF_PARAMETERS\t+<n>`. */
  function CountLine(n: int): string {
    "NUMBER_OF_PARAMETERS\t+" + IntToString(n) + "\n"
  }

  /** The line that triggers the new parameters: the first two-token line inside
      USER_PARAMETERS that is not the count line, while parameters are still due. */
  predicate Inserts(es: seq<Entry>, st: PatchState, line: string) {
    var words := Split(line);
    |words| == 2 && st.inUserParams && st.count < |es| &&
    !IsPair(words, "NI_BEGIN", "USER_PARAMETERS") && !IsPair(words, "NI_END", "USER_PARAMETERS") &&
    words[0] != "NUMBER_OF_PARAMETERS"
  }

  /**
   One iteration of the loop: the new state and the strings written. None is the
   ValueError of a count that is not an integer, or the NameError of a key that
   was never chosen.
   */
  function Step(es: seq<Entry>, rg: Range, st: PatchState, line: string): (r: Option<(PatchState, seq<string>)>)
  {
    var words := Split(line);
    if |words| != 2 then Some((st, [line]))
    else if IsPair(words, "NI_BEGIN", "USER_PARAMETERS") then Some((st.(inUserParams := true), [line]))
    else if IsPair(words, "NI_END", "USER_PARAMETERS") then Some((st.(inUserParams := false), [line]))
    else if st.inUserParams then
      if words[0] == "NUMBER_OF_PARAMETERS" then
        match ParseInt(words[1])
        case None => None
        case Some(n) => Some((st, [CountLine(n + |es|)]))
      else if st.count < |es| then
        Some((st.(count := st.count + |es|, inUserParams := false), NewParameters(es, rg) + [line]))
      else Some((st, []))
    else if IsPair(words, "NI_BEGIN", "PARAMETER") then
      Some((st.(inParamBlock := true, value := ""), [line]))
    else if IsPair(words, "NI_END", "PARAMETER") then
      Some((st.(inParamBlock := false, required := false), [line]))
    else if !st.inParamBlock then Some((st, [line]))
    else if words[0] == "NAME" then
      var (req, key) := ScanKeys(es, words[1], st.required, st.keyName);
      Some((st.(required := req, keyName := key), ["NAME\t" + words[1] + "\n"]))
    else if words[0] == "VALUE" then
      if st.required then Some((st.(value := words[1]), ["VALUE\t" + words[1] + "\n"]))
      else Some((st, [line]))
    else if words[0] == "QUANTITY_TYPE" then
      if st.required then Some((st, ["QUANTITY_TYPE\tEXPRESSION\n"])) else Some((st, [line]))
    else if words[0] == "UNCERTAIN" then
      if !st.required then Some((st, [line]))
      else match st.keyName
        case None => None
        case Some(k) => Some((st, [line, "EXPRESSION\t \"" + st.value + "*" + k + "\"\n"]))
    else Some((st, [line]))
  }

  /**
   What the pass leaves in the output file: the strings written, in order, and
   whether it stopped with an exception. The output file is opened before the
   input is read, so what was written before an exception stays in it.
   */
  datatype Pass = Pass(out: seq<string>, failed: bool)

  /** The loop over the whole file. */
  function Patch(es: seq<Entry>, rg: Range, st: PatchState, lines: seq<string>): Pass
    decreases |lines|
  {
    if |lines| == 0 then Pass([], false)
    else match Step(es, rg, st, lines[0])
      case None => Pass([], true)
      case Some((st', out)) =>
        var rest := Patch(es, rg, st', lines[1..]);
        Pass(out + rest.out, rest.failed)
  }

  /** The patched file: the loop from the initial state. */
  function PatchFile(es: seq<Entry>, rg: Range, lines: seq<string>): Pass {
    Patch(es, rg, Start, lines)
  }

  /** Once the pass has failed, the lines after are never read: the file keeps
      exactly what was written before the exception. */
  lemma {:induction false} FailureEndsPass(es: seq<Entry>, rg: Range, st: PatchState, lines: seq<string>,
                                           more: seq<string>)
    requires Patch(es, rg, st, lines).failed
    ensures Patch(es, rg, st, lines + more) == Patch(es, rg, st, lines)
    decreases |lines|
  {
    assert (lines + more)[0] == lines[0];
    assert (lines + more)[1..] == lines[1..] + more;
    if Step(es, rg, st, lines[0]).Some? {
      FailureEndsPass(es, rg, Step(es, rg, st, lines[0]).value.0, lines[1..], more);
    }
  }

  // ---------------------------------------------------------------------------
  // What one line does

  /** A line that does not split into exactly two tokens is copied as read, wherever it is. */
  lemma OtherLinesCopied(es: seq<Entry>, rg: Range, st: PatchState, line: string)
    requires |Split(line)| != 2
    ensures Step(es, rg, st, line) == Some((st, [line]))
  {
  }

  /** The count inside USER_PARAMETERS is raised by the number of keys; a count that
      is not an integer stops the pass. */
  lemma CountRaisedByKeys(es: seq<Entry>, rg: Range, st: PatchState, line: string, v: string)
    requires st.inUserParams && Split(line) == ["NUMBER_OF_PARAMETERS", v]
    ensures Step(es, rg, st, line).None? <==> ParseInt(v).None?
    ensures ParseInt(v).Some? ==> Step(es, rg, st, line) == Some((st, [CountLine(ParseInt(v).value + |es|)]))
  {
  }

  /** The rewritten count line reads back as the count it announces: it splits into
      the keyword and `+<n>`, and `int` of the latter is n. */
  lemma CountLineReadsBack(n: nat)
    ensures Split(CountLine(n)) == ["NUMBER_OF_PARAMETERS", "+" + NatToString(n)]
    ensures ParseInt("+" + NatToString(n)) == Some(n)
  {
    var word := "NUMBER_OF_PARAMETERS";
    var digits := NatToString(n);
    var number := "+" + digits;
    assert IsToken(number);
    assert CountLine(n) == word + ("\t" + (number + "\n"));
    SplitOfTokenPrefixed(word, "\t" + (number + "\n"));
    SplitOfSpacePrefixed('\t', number + "\n");
    SplitOfTokenPrefixed(number, "\n");
    assert Split("\n") == [];
    assert Strip(number) == number;
    assert number[1..] == digits;
  }

  /** At the trigger line all new parameters are written, one block per key, followed
      by the trigger line itself; USER_PARAMETERS mode ends, but the parameter-block
      state is untouched, so a trigger `NI_BEGIN PARAMETER` opens no block. */
  lemma TriggerWritesNewParameters(es: seq<Entry>, rg: Range, st: PatchState, line: string)
    requires Inserts(es, st, line)
    ensures Step(es, rg, st, line) ==
      Some((st.(count := st.count + |es|, inUserParams := false), NewParameters(es, rg) + [line]))
  {
  }

  /** Any other line writes at most two strings, so the new parameters come from the
      trigger line alone. */
  lemma OnlyTriggerWritesBlocks(es: seq<Entry>, rg: Range, st: PatchState, line: string)
    requires !Inserts(es, st, line) && Step(es, rg, st, line).Some?
    ensures |Step(es, rg, st, line).value.1| <= 2
    ensures Step(es, rg, st, line).value.0.count == st.count
  {
  }

  /** With no parameters due (all written, or an empty map), the other two-token lines
      of USER_PARAMETERS are dropped and the pass stays in USER_PARAMETERS mode. */
  lemma DroppedWhenNothingDue(es: seq<Entry>, rg: Range, st: PatchState, line: string)
    requires st.inUserParams && st.count >= |es|
    requires var words := Split(line);
      |words| == 2 && !IsPair(words, "NI_BEGIN", "USER_PARAMETERS") &&
      !IsPair(words, "NI_END", "USER_PARAMETERS") && words[0] != "NUMBER_OF_PARAMETERS"
    ensures Step(es, rg, st, line) == Some((st, []))
  {
  }

  /** Outside USER_PARAMETERS mode, a parameter's NAME line is rewritten with a tab and
      selects the key of the last matching trigger, keeping the previous selection
      (and the previous key) when no trigger matches. */
  lemma NameSelectsLastMatchingKey(es: seq<Entry>, rg: Range, st: PatchState, line: string, name: string)
    requires !st.inUserParams && st.inParamBlock && Split(line) == ["NAME", name]
    ensures var m := LastMatchingKey(es, name);
      Step(es, rg, st, line) ==
        Some((st.(required := st.required || m.Some?, keyName := if m.Some? then m else st.keyName),
              ["NAME\t" + name + "\n"]))
  {
    ScanKeysSelectsLastMatch(es, name, st.required, st.keyName);
  }

  /** In a selected parameter, VALUE is recorded and rewritten, QUANTITY_TYPE becomes
      EXPRESSION, and UNCERTAIN is followed by the expression `"<value>*<key>"`. */
  lemma SelectedParameterRewritten(es: seq<Entry>, rg: Range, st: PatchState, line: string, w: string)
    requires !st.inUserParams && st.inParamBlock && st.required && st.keyName.Some?
    requires |Split(line)| == 2 && Split(line)[1] == w
    ensures Split(line)[0] == "VALUE" ==>
      Step(es, rg, st, line) == Some((st.(value := w), ["VALUE\t" + w + "\n"]))
    ensures Split(line)[0] == "QUANTITY_TYPE" ==>
      Step(es, rg, st, line) == Some((st, ["QUANTITY_TYPE\tEXPRESSION\n"]))
    ensures Split(line)[0] == "UNCERTAIN" ==>
      Step(es, rg, st, line) == Some((st, [line, "EXPRESSION\t \"" + st.value + "*" + st.keyName.value + "\"\n"]))
  {
  }

  /** In a parameter that is not selected, every line but NAME is copied as read and
      no VALUE is recorded. */
  lemma UnselectedParameterCopied(es: seq<Entry>, rg: Range, st: PatchState, line: string)
    requires !st.inUserParams && st.inParamBlock && !st.required
    requires var words := Split(line);
      |words| == 2 && words[0] != "NAME" &&
      !IsPair(words, "NI_BEGIN", "USER_PARAMETERS") && !IsPair(words, "NI_END", "USER_PARAMETERS") &&
      !IsPair(words, "NI_BEGIN", "PARAMETER") && !IsPair(words, "NI_END", "PARAMETER")
    ensures Step(es, rg, st, line) == Some((st, [line]))
  {
  }

  /** A parameter block starts with no recorded value, and its end clears the selection
      (the chosen key itself is kept). */
  lemma BlockBoundaries(es: seq<Entry>, rg: Range, st: PatchState, line: string)
    requires !st.inUserParams
    ensures IsPair(Split(line), "NI_BEGIN", "PARAMETER") ==>
      Step(es, rg, st, line) == Some((st.(inParamBlock := true, value := ""), [line]))
    ensures IsPair(Split(line), "NI_END", "PARAMETER") ==>
      Step(es, rg, st, line) == Some((st.(inParamBlock := false, required := false), [line]))
  {
  }

  // ---------------------------------------------------------------------------
  // The whole pass

  /** A selected parameter always has a key. */
  predicate Keyed(st: PatchState) {
    st.required ==> st.keyName.Some?
  }

  /** No parameters written, or all of them. */
  predicate CountSettled(es: seq<Entry>, st: PatchState) {
    st.count == 0 || st.count >= |es|
  }

  /** A count line inside USER_PARAMETERS whose value `int` rejects. */
  predicate BadCount(line: string) {
    var words := Split(line);
    |words| == 2 && words[0] == "NUMBER_OF_PARAMETERS" && ParseInt(words[1]).None?
  }

  /** One step keeps both invariants, and fails only on a bad count. */
  lemma StepKeepsInvariants(es: seq<Entry>, rg: Range, st: PatchState, line: string)
    requires Keyed(st) && CountSettled(es, st)
    ensures Step(es, rg, st, line).None? ==> st.inUserParams && BadCount(line)
    ensures Step(es, rg, st, line).Some? ==>
      var st' := Step(es, rg, st, line).value.0;
      Keyed(st') && CountSettled(es, st') &&
      st'.count == if Inserts(es, st, line) then st.count + |es| else st.count
  {
    var words := Split(line);
    if |words| == 2 && !st.inUserParams && st.inParamBlock && words[0] == "NAME" &&
       !IsPair(words, "NI_BEGIN", "USER_PARAMETERS") && !IsPair(words, "NI_END", "USER_PARAMETERS") {
      NameSelectsLastMatchingKey(es, rg, st, line, words[1]);
    }
  }

  /** How many lines of the pass trigger the new parameters. */
  function Insertions(es: seq<Entry>, rg: Range, st: PatchState, lines: seq<string>): nat
    decreases |lines|
  {
    if |lines| == 0 then 0
    else match Step(es, rg, st, lines[0])
      case None => 0
      case Some((st', _)) =>
        (if Inserts(es, st, lines[0]) then 1 else 0) + Insertions(es, rg, st', lines[1..])
  }

  /** The new parameters are written at most once, and never again once written. */
  lemma {:induction false} InsertedAtMostOnce(es: seq<Entry>, rg: Range, st: PatchState, lines: seq<string>)
    requires Keyed(st) && CountSettled(es, st)
    ensures Insertions(es, rg, st, lines) <= if st.count < |es| then 1 else 0
    decreases |lines|
  {
    if |lines| > 0 {
      StepKeepsInvariants(es, rg, st, lines[0]);
      if Step(es, rg, st, lines[0]).Some? {
        InsertedAtMostOnce(es, rg, Step(es, rg, st, lines[0]).value.0, lines[1..]);
      }
    }
  }

  /** The only exception the pass can raise is the ValueError of a bad count: the
      NameError of an unset key cannot happen. */
  lemma {:induction false} FailsOnlyOnBadCount(es: seq<Entry>, rg: Range, st: PatchState, lines: seq<string>)
    requires Keyed(st) && CountSettled(es, st)
    requires Patch(es, rg, st, lines).failed
    ensures exists i :: 0 <= i < |lines| && BadCount(lines[i])
    decreases |lines|
  {
    StepKeepsInvariants(es, rg, st, lines[0]);
    if Step(es, rg, st, lines[0]).Some? {
      FailsOnlyOnBadCount(es, rg, Step(es, rg, st, lines[0]).value.0, lines[1..]);
      var i :| 0 <= i < |lines[1..]| && BadCount(lines[1..][i]);
      assert BadCount(lines[i + 1]);
    } else {
      assert BadCount(lines[0]);
    }
  }

  /** From the initial state: at most one insertion, and a file without a bad count
      line is always patched. */
  lemma PatchFileFacts(es: seq<Entry>, rg: Range, lines: seq<string>)
    ensures Insertions(es, rg, Start, lines) <= 1
    ensures (forall i :: 0 <= i < |lines| ==> !BadCount(lines[i])) ==> !PatchFile(es, rg, lines).failed
  {
    InsertedAtMostOnce(es, rg, Start, lines);
    if PatchFile(es, rg, lines).failed {
      FailsOnlyOnBadCount(es, rg, Start, lines);
    }
  }
}

=== FILE: optim_results.dfy ===
/**
 The results extractor of a FINE/Design3D optimisation: for each quantity it
 walks the computation directory, reads every file whose name without extension
 is the quantity, takes its last `VALUE` and the design number of its path, and
 writes one `"<design> <value>"` row per such file to `<quantity>_global.dat`.

 The directory walk is given as data: the folders in walk order, each with its
 files in listing order and each file with its lines.
 */
module OptimResults {
  import opened PyStr

  /** The path component that marks a design directory. */
  const DesignDir := "_design_"

  datatype File = File(name: string, lines: seq<string>)
  datatype Folder = Folder(path: string, files: seq<File>)

  /** A file as the loops meet it: the folder it is in, and the file. */
  datatype Entry = Entry(folder: string, file: File)

  /** The nested loops over the walk, as one sequence in walk order. */
  function Entries(walk: seq<Folder>): seq<Entry> {
    if |walk| == 0 then []
    else seq(|walk[0].files|, i requires 0 <= i < |walk[0].files| => Entry(walk[0].path, walk[0].files[i])) + Entries(walk[1..])
  }

  /** `os.path.splitext(filename)[0] == quantity`. */
  predicate Selected(quantity: string, e: Entry) {
    SplitExtRoot(e.file.name) == quantity
  }

  // ---------------------------------------------------------------------------
  // The value of a file

  /** A line on which `words[0]` or `words[1]` raises IndexError. */
  predicate Bad(line: string) {
    var words := Split(line);
    |words| == 0 || (words[0] == "VALUE" && |words| < 2)
  }

  predicate IsValueLine(line: string) {
    var words := Split(line);
    |words| >= 2 && words[0] == "VALUE"
  }

  /** The loop over a file's lines: the value after it, or None for IndexError. */
  function ScanValue(lines: seq<string>, value: Option<string>): Option<Option<string>>
    decreases |lines|
  {
    if |lines| == 0 then Some(value)
    else
      var words := Split(lines[0]);
      if |words| == 0 then None
      else if words[0] == "VALUE" then
        if |words| < 2 then None else ScanValue(lines[1..], Some(words[1]))
      else ScanValue(lines[1..], value)
  }

  /** The second token of the last VALUE line, or `v0` when there is none. */
  function LastValue(lines: seq<string>, v0: Option<string>): Option<string> {
    if |lines| == 0 then v0
    else if IsValueLine(lines[|lines| - 1]) then Some(Split(lines[|lines| - 1])[1])
    else LastValue(lines[..|lines| - 1], v0)
  }

  lemma {:induction false} LastValueCons(line: string, rest: seq<string>, v0: Option<string>)
    ensures LastValue([line] + rest, v0) ==
      LastValue(rest, if IsValueLine(line) then Some(Split(line)[1]) else v0)
    decreases |rest|
  {
    if |rest| > 0 {
      var init := rest[..|rest| - 1];
      assert ([line] + rest)[..|rest|] == [line] + init;
      LastValueCons(line, init, v0);
    }
  }

  /** The loop fails exactly when some line is bad, and otherwise ends with the last
      VALUE, keeping the value it started with when there is none. */
  lemma {:induction false} ScanValueIsLast(lines: seq<string>, v0: Option<string>)
    ensures ScanValue(lines, v0).None? <==> exists i :: 0 <= i < |lines| && Bad(lines[i])
    ensures ScanValue(lines, v0).Some? ==> ScanValue(lines, v0).value == LastValue(lines, v0)
    decreases |lines|
  {
    if |lines| > 0 {
      var v1 := if IsValueLine(lines[0]) then Some(Split(lines[0])[1]) else v0;
      ScanValueIsLast(lines[1..], v1);
      LastValueCons(lines[0], lines[1..], v0);
      assert lines == [lines[0]] + lines[1..];
      assert forall i :: 1 <= i < |lines| ==> lines[i] == lines[1..][i - 1];
      if !Bad(lines[0]) && exists i :: 0 <= i < |lines| && Bad(lines[i]) {
        var i :| 0 <= i < |lines| && Bad(lines[i]);
        assert Bad(lines[1..][i - 1]);
      }
    }
  }

  // ---------------------------------------------------------------------------
  // The design number of a path

  lemma SplitOnHasTwo(s: string, c: char)
    requires c in s
    ensures |SplitOn(s, c)| >= 2
  {
  }

  /** The first separator splits off the first field. */
  lemma SplitOnFirst(s: string, c: char) returns (i: nat)
    requires c in s
    ensures i < |s| && s[i] == c && c !in s[..i]
    ensures |SplitOn(s, c)| == 1 + |SplitOn(s[i + 1..], c)|
  {
    i := IndexOf(s, c);
  }

  /** A component containing `_design_` has at least three `_`-separated fields, so
      `item.split("_")[2]` never raises: after the first `_` at or before the
      marker, at least one more `_` is left. */
  lemma DesignFields(s: string, p: nat)
    requires OccursAt(s, DesignDir, p)
    ensures |SplitOn(s, '_')| >= 3
  {
    assert |DesignDir| == 8 && DesignDir[0] == '_' && DesignDir[7] == '_';
    assert s[p] == '_' && s[p + 7] == '_' by {
      assert s[p..p + 8][0] == s[p] && s[p..p + 8][7] == s[p + 7];
    }
    var i := SplitOnFirst(s, '_');
    assert i <= p;
    var rest := s[i + 1..];
    assert '_' in rest by {
      if i < p {
        assert rest[p - i - 1] == s[p];
      } else {
        assert rest[6] == s[p + 7];
      }
    }
    SplitOnHasTwo(rest, '_');
  }

  /** The third `_`-separated field of a design component. */
  function DesignField(item: string): string
    requires Contains(item, DesignDir)
  {
    var p: nat :| p <= |item| && OccursAt(item, DesignDir, p);
    DesignFields(item, p);
    SplitOn(item, '_')[2]
  }

  /** The loop over the path's components: the design number after it. */
  function ScanDesign(items: seq<string>, design: Option<string>): Option<string>
    decreases |items|
  {
    if |items| == 0 then design
    else if Contains(items[0], DesignDir) then ScanDesign(items[1..], Some(DesignField(items[0])))
    else ScanDesign(items[1..], design)
  }

  /** The design field of the last component containing `_design_`, or `d0`. */
  function LastDesign(items: seq<string>, d0: Option<string>): Option<string> {
    if |items| == 0 then d0
    else if Contains(items[|items| - 1], DesignDir) then Some(DesignField(items[|items| - 1]))
    else LastDesign(items[..|items| - 1], d0)
  }

  lemma {:induction false} LastDesignCons(item: string, rest: seq<string>, d0: Option<string>)
    ensures LastDesign([item] + rest, d0) ==
      LastDesign(rest, if Contains(item, DesignDir) then Some(DesignField(item)) else d0)
    decreases |rest|
  {
    if |rest| > 0 {
      var init := rest[..|rest| - 1];
      assert ([item] + rest)[..|rest|] == [item] + init;
      LastDesignCons(item, init, d0);
    }
  }

  /** The loop keeps the design number of the last design component. */
  lemma {:induction false} ScanDesignIsLast(items: seq<string>, d0: Option<string>)
    ensures ScanDesign(items, d0) == LastDesign(items, d0)
    decreases |items|
  {
    if |items| > 0 {
      var d1 := if Contains(items[0], DesignDir) then Some(DesignField(items[0])) else d0;
      ScanDesignIsLast(items[1..], d1);
      LastDesignCons(items[0], items[1..], d0);
      assert items == [items[0]] + items[1..];
    }
  }

  /** The components of the file's path, split at the POSIX separator. */
  function PathItems(e: Entry): seq<string> {
    SplitOn(PathJoin(e.folder, e.file.name), '/')
  }

  // ---------------------------------------------------------------------------
  // One file, one quantity, the whole script

  /** The module-level variables, which no file or quantity resets. */
  datatype Globals = Globals(value: Option<string>, design: Option<string>)

  const Unset := Globals(None, None)

  /** How a stretch of the loop ended, with the rows it wrote: still going, stopped by
      `sys.exit()` after the NameError message, or stopped by an IndexError. */
  datatype Outcome = Continue(globals: Globals, rows: string) | Exit(rows: string) | Crash(rows: string)

  /** `"%s %s\n" % (design_nr, value)`. */
  function Row(design: string, value: string): string {
    design + " " + value + "\n"
  }

  function ProcessFile(quantity: string, e: Entry, g: Globals): Outcome {
    if !Selected(quantity, e) then Continue(g, "")
    else match ScanValue(e.file.lines, g.value)
      case None => Crash("")
      case Some(v) =>
        var d := ScanDesign(PathItems(e), g.design);
        if v.None? || d.None? then Exit("") else Continue(Globals(v, d), Row(d.value, v.value))
  }

  /** `rows` written before an outcome. */
  function After(rows: string, o: Outcome): Outcome {
    match o
    case Continue(g, r) => Continue(g, rows + r)
    case Exit(r) => Exit(rows + r)
    case Crash(r) => Crash(rows + r)
  }

  /** The walk for one quantity. */
  function Quantity(quantity: string, es: seq<Entry>, g: Globals): Outcome
    decreases |es|
  {
    if |es| == 0 then Continue(g, "")
    else match ProcessFile(quantity, es[0], g)
      case Continue(g1, r1) => After(r1, Quantity(quantity, es[1..], g1))
      case Exit(r) => Exit(r)
      case Crash(r) => Crash(r)
  }

  datatype Ending = Finished | Exited | Crashed

  /** The output files written, in order, each with its contents, and how the script
      ended. Every quantity's file is created before its walk starts. */
  datatype Report = Report(files: seq<(string, string)>, ending: Ending)

  function OutputName(quantity: string): string {
    quantity + "_global.dat"
  }

  function Quantities(quantities: seq<string>, es: seq<Entry>, g: Globals): (r: Report)
    ensures |r.files| <= |quantities|
    ensures forall i :: 0 <= i < |r.files| ==> r.files[i].0 == OutputName(quantities[i])
    ensures r.ending == Finished ==> |r.files| == |quantities|
    decreases |quantities|
  {
    if |quantities| == 0 then Report([], Finished)
    else
      var file := OutputName(quantities[0]);
      match Quantity(quantities[0], es, g)
      case Exit(r) => Report([(file, r)], Exited)
      case Crash(r) => Report([(file, r)], Crashed)
      case Continue(g1, r) =>
        var rest := Quantities(quantities[1..], es, g1);
        Report([(file, r)] + rest.files, rest.ending)
  }

  /** The script: every quantity over the same walk, starting with nothing set. */
  function Script(quantities: seq<string>, walk: seq<Folder>): Report {
    Quantities(quantities, Entries(walk), Unset)
  }

  // ---------------------------------------------------------------------------
  // Properties

  /** Files whose name without extension is not the quantity are not read. */
  lemma UnselectedIgnored(quantity: string, e: Entry, g: Globals)
    requires !Selected(quantity, e)
    ensures ProcessFile(quantity, e, g) == Continue(g, "")
  {
  }

  /** A selected file writes the row of its last VALUE and its last design component;
      what it lacks is taken from the previous file, and the script exits (NameError)
      only when something was never set; a bad line crashes it. */
  lemma SelectedFile(quantity: string, e: Entry, g: Globals)
    requires Selected(quantity, e)
    ensures (exists i :: 0 <= i < |e.file.lines| && Bad(e.file.lines[i])) <==> ProcessFile(quantity, e, g) == Crash("")
    ensures var v := LastValue(e.file.lines, g.value);
      var d := LastDesign(PathItems(e), g.design);
      !ProcessFile(quantity, e, g).Crash? ==>
        if v.Some? && d.Some? then ProcessFile(quantity, e, g) == Continue(Globals(v, d), Row(d.value, v.value))
        else ProcessFile(quantity, e, g) == Exit("")
  {
    ScanValueIsLast(e.file.lines, g.value);
    ScanDesignIsLast(PathItems(e), g.design);
  }

  /** A file that sets both on its own: no bad line, a VALUE line, a design component. */
  predicate Complete(e: Entry) {
    (forall i :: 0 <= i < |e.file.lines| ==> !Bad(e.file.lines[i])) &&
    (exists i :: 0 <= i < |e.file.lines| && IsValueLine(e.file.lines[i])) &&
    (exists i :: 0 <= i < |PathItems(e)| && Contains(PathItems(e)[i], DesignDir))
  }

  /** A VALUE line makes the last value independent of the one before the file. */
  lemma HasValue(lines: seq<string>, v0: Option<string>)
    requires exists i :: 0 <= i < |lines| && IsValueLine(lines[i])
    ensures LastValue(lines, v0).Some? && LastValue(lines, v0) == LastValue(lines, None)
  {
    var i :| 0 <= i < |lines| && IsValueLine(lines[i]);
    LastValueFrom(lines, v0, i);
  }

  lemma {:induction false} LastValueFrom(lines: seq<string>, v0: Option<string>, i: nat)
    requires i < |lines| && IsValueLine(lines[i])
    ensures LastValue(lines, v0).Some? && LastValue(lines, v0) == LastValue(lines, None)
    decreases |lines|
  {
    if i < |lines| - 1 && !IsValueLine(lines[|lines| - 1]) {
      LastValueFrom(lines[..|lines| - 1], v0, i);
    }
  }

  /** A design component makes the last design independent of the one before. */
  lemma HasDesign(items: seq<string>, d0: Option<string>)
    requires exists i :: 0 <= i < |items| && Contains(items[i], DesignDir)
    ensures LastDesign(items, d0).Some? && LastDesign(items, d0) == LastDesign(items, None)
  {
    var i :| 0 <= i < |items| && Contains(items[i], DesignDir);
    LastDesignFrom(items, d0, i);
  }

  lemma {:induction false} LastDesignFrom(items: seq<string>, d0: Option<string>, i: nat)
    requires i < |items| && Contains(items[i], DesignDir)
    ensures LastDesign(items, d0).Some? && LastDesign(items, d0) == LastDesign(items, None)
    decreases |items|
  {
    if i < |items| - 1 && !Contains(items[|items| - 1], DesignDir) {
      LastDesignFrom(items[..|items| - 1], d0, i);
    }
  }

  /** The row of a complete file, whatever came before it. */
  function RowOf(e: Entry): string
    requires Complete(e)
  {
    HasValue(e.file.lines, None);
    HasDesign(PathItems(e), None);
    Row(LastDesign(PathItems(e), None).value, LastValue(e.file.lines, None).value)
  }

  lemma CompleteFile(quantity: string, e: Entry, g: Globals)
    requires Selected(quantity, e) && Complete(e)
    ensures ProcessFile(quantity, e, g).Continue? && ProcessFile(quantity, e, g).rows == RowOf(e)
  {
    SelectedFile(quantity, e, g);
    HasValue(e.file.lines, g.value);
    HasDesign(PathItems(e), g.design);
  }

  /** The rows a quantity should get: one per selected file, in walk order. */
  function ExpectedRows(quantity: string, es: seq<Entry>): string
    requires forall i :: 0 <= i < |es| && Selected(quantity, es[i]) ==> Complete(es[i])
  {
    if |es| == 0 then ""
    else (if Selected(quantity, es[0]) then RowOf(es[0]) else "") + ExpectedRows(quantity, es[1..])
  }

  /** When every selected file is complete, the quantity's output is one row per
      selected file in walk order, and does not depend on what earlier files or
      quantities left in the variables. */
  lemma {:induction false} QuantityRows(quantity: string, es: seq<Entry>, g: Globals)
    requires forall i :: 0 <= i < |es| && Selected(quantity, es[i]) ==> Complete(es[i])
    ensures Quantity(quantity, es, g).Continue?
    ensures Quantity(quantity, es, g).rows == ExpectedRows(quantity, es)
    decreases |es|
  {
    if |es| > 0 {
      if Selected(quantity, es[0]) {
        CompleteFile(quantity, es[0], g);
      }
      var g1 := ProcessFile(quantity, es[0], g).globals;
      QuantityRows(quantity, es[1..], g1);
    }
  }

  /** A selected file without any VALUE line, in a run where an earlier file set the
      value, writes that earlier value. */
  lemma ValueCarriedOver(quantity: string, e: Entry, g: Globals)
    requires Selected(quantity, e) && g.value.Some? && g.design.Some?
    requires forall i :: 0 <= i < |e.file.lines| ==> !Bad(e.file.lines[i]) && !IsValueLine(e.file.lines[i])
    ensures ProcessFile(quantity, e, g).Continue?
    ensures ProcessFile(quantity, e, g).globals.value == g.value
  {
    SelectedFile(quantity, e, g);
    LastValueNone(e.file.lines, g.value);
    LastDesignSome(PathItems(e), g.design);
  }

  lemma LastValueNone(lines: seq<string>, v0: Option<string>)
    requires forall i :: 0 <= i < |lines| ==> !IsValueLine(lines[i])
    ensures LastValue(lines, v0) == v0
  {
    if |lines| > 0 {
      LastValueNone(lines[..|lines| - 1], v0);
    }
  }

  lemma LastDesignSome(items: seq<string>, d0: Option<string>)
    requires d0.Some?
    ensures LastDesign(items, d0).Some?
  {
    if |items| > 0 && !Contains(items[|items| - 1], DesignDir) {
      LastDesignSome(items[..|items| - 1], d0);
    }
  }

  /** Every selected file of every quantity is complete. */
  predicate AllComplete(quantities: seq<string>, es: seq<Entry>) {
    forall j, i :: 0 <= j < |quantities| && 0 <= i < |es| && Selected(quantities[j], es[i]) ==> Complete(es[i])
  }

  /** When every selected file is complete, the script finishes and each quantity's
      file holds exactly its own rows, whatever the other quantities left behind. */
  lemma {:induction false} QuantitiesRows(quantities: seq<string>, es: seq<Entry>, g: Globals)
    requires AllComplete(quantities, es)
    ensures var r := Quantities(quantities, es, g);
      r.ending == Finished && |r.files| == |quantities| &&
      forall j :: 0 <= j < |quantities| ==> r.files[j] == (OutputName(quantities[j]), ExpectedRows(quantities[j], es))
    decreases |quantities|
  {
    if |quantities| > 0 {
      QuantityRows(quantities[0], es, g);
      var g1 := Quantity(quantities[0], es, g).globals;
      assert AllComplete(quantities[1..], es) by {
        forall j, i | 0 <= j < |quantities| - 1 && 0 <= i < |es| && Selected(quantities[1..][j], es[i])
          ensures Complete(es[i])
        {
          assert quantities[1..][j] == quantities[j + 1];
        }
      }
      QuantitiesRows(quantities[1..], es, g1);
      var rest := Quantities(quantities[1..], es, g1);
      var r := Quantities(quantities, es, g);
      assert r.files == [(OutputName(quantities[0]), ExpectedRows(quantities[0], es))] + rest.files;
      forall j | 1 <= j < |quantities|
        ensures r.files[j] == (OutputName(quantities[j]), ExpectedRows(quantities[j], es))
      {
        assert r.files[j] == rest.files[j - 1];
        assert quantities[1..][j - 1] == quantities[j];
      }
    }
  }

  /** The first selected file of the script, lacking a VALUE line or a design
      component, makes the script exit after creating only that quantity's file. */
  lemma FirstFileUnset(quantity: string, e: Entry, es: seq<Entry>, more: seq<string>)
    requires Selected(quantity, e)
    requires forall i :: 0 <= i < |e.file.lines| ==> !Bad(e.file.lines[i])
    requires (forall i :: 0 <= i < |e.file.lines| ==> !IsValueLine(e.file.lines[i])) ||
             (forall i :: 0 <= i < |PathItems(e)| ==> !Contains(PathItems(e)[i], DesignDir))
    ensures Quantities([quantity] + more, [e] + es, Unset) == Report([(OutputName(quantity), "")], Exited)
  {
    SelectedFile(quantity, e, Unset);
    if forall i :: 0 <= i < |e.file.lines| ==> !IsValueLine(e.file.lines[i]) {
      LastValueNone(e.file.lines, None);
    } else {
      LastDesignNone(PathItems(e), None);
    }
    assert ([e] + es)[0] == e;
  }

  lemma LastDesignNone(items: seq<string>, d0: Option<string>)
    requires forall i :: 0 <= i < |items| ==> !Contains(items[i], DesignDir)
    ensures LastDesign(items, d0) == d0
  {
    if |items| > 0 {
      LastDesignNone(items[..|items| - 1], d0);
    }
  }
}

=== FILE: pystr.dfy ===
/**
 The Python 2 string operations the scripts are built from, over `string` (a
 sequence of characters): `str.split()`, `str.split(c)`, `sep.join`, substring
 `in`, `startswith`/`endswith`, `os.path.join`, `os.path.splitext`, `str(n)`
 and `int(s)`.
 */
module PyStr {

  datatype Option<T> = None | Some(value: T)

  /** Whitespace as Python 2 `str.split()` sees it: space, \t, \n, \v, \f, \r. */
  predicate IsSpace(c: char) {
    c == ' ' || c == '\t' || c == '\n' || c == '\r' || c == 11 as char || c == 12 as char
  }

  predicate IsDigit(c: char) { '0' <= c <= '9' }

  predicate AllDigits(s: string) {
    forall i :: 0 <= i < |s| ==> IsDigit(s[i])
  }

  /** A token of `str.split()`: a non-empty run of non-whitespace characters. */
  predicate IsToken(t: string) {
    |t| > 0 && forall i :: 0 <= i < |t| ==> !IsSpace(t[i])
  }

  // ---------------------------------------------------------------------------
  // str.split()

  /** Length of the leading run of non-whitespace characters. */
  function TokenEnd(s: string): (n: nat)
    ensures n <= |s|
    ensures forall i :: 0 <= i < n ==> !IsSpace(s[i])
    ensures n == |s| || IsSpace(s[n])
  {
    if |s| == 0 || IsSpace(s[0]) then 0 else 1 + TokenEnd(s[1..])
  }

  /** Python's `s.split()`: the maximal runs of non-whitespace characters, in order. */
  function Split(s: string): (r: seq<string>)
    ensures forall k :: 0 <= k < |r| ==> IsToken(r[k])
    decreases |s|
  {
    if |s| == 0 then []
    else if IsSpace(s[0]) then Split(s[1..])
    else
      var n := TokenEnd(s);
      [s[..n]] + Split(s[n..])
  }

  /** A line that splits into exactly the two tokens `first second`. */
  predicate IsPair(words: seq<string>, first: string, second: string) {
    |words| == 2 && words[0] == first && words[1] == second
  }

  /** Python's `sep.join(parts)`. */
  function Join(sep: string, parts: seq<string>): string {
    if |parts| == 0 then ""
    else if |parts| == 1 then parts[0]
    else parts[0] + sep + Join(sep, parts[1..])
  }

  lemma SplitOfSpacePrefixed(w: char, s: string)
    requires IsSpace(w)
    ensures Split([w] + s) == Split(s)
  {
    assert ([w] + s)[1..] == s;
  }

  lemma SplitOfTokenPrefixed(t: string, s: string)
    requires IsToken(t)
    requires |s| == 0 || IsSpace(s[0])
    ensures Split(t + s) == [t] + Split(s)
  {
    var ts := t + s;
    TokenEndOfTokenPrefixed(t, s);
    assert ts[..|t|] == t;
    assert ts[|t|..] == s;
  }

  lemma {:induction false} TokenEndOfTokenPrefixed(t: string, s: string)
    requires forall i :: 0 <= i < |t| ==> !IsSpace(t[i])
    requires |s| == 0 || IsSpace(s[0])
    ensures TokenEnd(t + s) == |t|
    decreases |t|
  {
    if |t| > 0 {
      var ts := t + s;
      assert ts[0] == t[0] && ts[1..] == t[1..] + s;
      assert forall i :: 0 <= i < |t| - 1 ==> t[1..][i] == t[i + 1];
      TokenEndOfTokenPrefixed(t[1..], s);
    } else {
      EmptyConcat(s);
    }
  }

  lemma ConcatAssociative(a: string, b: string, c: string)
    ensures a + (b + c) == (a + b) + c
  {
  }

  /** Concatenating the empty string changes nothing. */
  lemma EmptyConcat(x: string)
    ensures "" + x == x && x + "" == x
  {
  }

  /** Splitting tokens joined by single spaces gives the tokens back. */
  lemma {:induction false} SplitJoin(toks: seq<string>)
    requires forall k :: 0 <= k < |toks| ==> IsToken(toks[k])
    ensures Split(Join(" ", toks)) == toks
  {
    if |toks| == 0 {
    } else if |toks| == 1 {
      assert toks[0] + "" == toks[0];
      SplitOfTokenPrefixed(toks[0], "");
    } else {
      var rest := Join(" ", toks[1..]);
      assert Join(" ", toks) == toks[0] + (" " + rest);
      SplitOfTokenPrefixed(toks[0], " " + rest);
      SplitOfSpacePrefixed(' ', rest);
      SplitJoin(toks[1..]);
      assert toks == [toks[0]] + toks[1..];
    }
  }

  // ---------------------------------------------------------------------------
  // str.split(c) with an explicit one-character separator

  /** Index of the first occurrence of `c` in `s`, which must occur. */
  function IndexOf(s: string, c: char): (i: nat)
    requires c in s
    ensures i < |s| && s[i] == c && c !in s[..i]
  {
    if s[0] == c then 0 else 1 + IndexOf(s[1..], c)
  }

  /** Python's `s.split(c)`: the fields between occurrences of `c`, empty ones included. */
  function SplitOn(s: string, c: char): (r: seq<string>)
    ensures |r| >= 1
    ensures forall k :: 0 <= k < |r| ==> c !in r[k]
    ensures Join([c], r) == s
    decreases |s|
  {
    if c !in s then [s]
    else
      var i := IndexOf(s, c);
      var rest := SplitOn(s[i + 1..], c);
      assert s == s[..i] + [c] + s[i + 1..];
      [s[..i]] + rest
  }

  /** Splitting at the first separator peels off the first field. */
  lemma SplitOnCons(field: string, c: char, rest: string)
    requires c !in field
    ensures SplitOn(field + [c] + rest, c) == [field] + SplitOn(rest, c)
  {
    var s := field + [c] + rest;
    assert s[|field|] == c;
    assert s[..|field|] == field;
    assert IndexOf(s, c) == |field|;
    assert s[|field| + 1..] == rest;
  }

  /** Joining fields that do not contain the separator and splitting again gives the fields back. */
  lemma {:induction false} SplitOnJoin(fields: seq<string>, c: char)
    requires |fields| >= 1
    requires forall k :: 0 <= k < |fields| ==> c !in fields[k]
    ensures SplitOn(Join([c], fields), c) == fields
  {
    if |fields| > 1 {
      var rest := Join([c], fields[1..]);
      assert Join([c], fields) == fields[0] + [c] + rest;
      SplitOnCons(fields[0], c, rest);
      SplitOnJoin(fields[1..], c);
      assert fields == [fields[0]] + fields[1..];
    }
  }

  // ---------------------------------------------------------------------------
  // substring tests

  /** `sub` occurs in `s` starting at index `i`. */
  predicate OccursAt(s: string, sub: string, i: nat) {
    i + |sub| <= |s| && s[i..i + |sub|] == sub
  }

  /** Python's `sub in s`. */
  predicate Contains(s: string, sub: string) {
    exists i: nat | i <= |s| :: OccursAt(s, sub, i)
  }

  predicate StartsWith(s: string, prefix: string) {
    |prefix| <= |s| && s[..|prefix|] == prefix
  }

  predicate EndsWith(s: string, suffix: string) {
    |suffix| <= |s| && s[|s| - |suffix|..] == suffix
  }

  lemma EndsWithTransitive(s: string, t: string, u: string)
    requires EndsWith(s, t) && EndsWith(t, u)
    ensures EndsWith(s, u)
  {
    assert s[|s| - |u|..] == s[|s| - |t|..][|t| - |u|..];
  }

  // ---------------------------------------------------------------------------
  // os.path (POSIX)

  /** `os.path.join(a, b)`: an absolute `b` replaces `a`; otherwise one '/' separates them. */
  function PathJoin(a: string, b: string): (r: string)
    ensures StartsWith(b, "/") ==> r == b
    ensures !StartsWith(b, "/") ==> EndsWith(r, b) && StartsWith(r, a)
  {
    if StartsWith(b, "/") then b
    else if a == "" || EndsWith(a, "/") then a + b
    else a + "/" + b
  }

  /** Index of the last occurrence of `c` in `s`, or -1. */
  function LastIndexOf(s: string, c: char): (i: int)
    ensures -1 <= i < |s|
    ensures i >= 0 ==> s[i] == c
    ensures forall j :: i < j < |s| ==> s[j] != c
  {
    if |s| == 0 then -1
    else if s[|s| - 1] == c then |s| - 1
    else LastIndexOf(s[..|s| - 1], c)
  }

  /**
   Where `os.path.splitext` cuts `p`: at its last '.', provided that dot lies in
   the last path component and something other than dots precedes it there;
   otherwise at the end (no extension).
   */
  function ExtStart(p: string): (d: nat)
    ensures d <= |p|
  {
    var sep := LastIndexOf(p, '/');
    var dot := LastIndexOf(p, '.');
    if dot > sep && exists k :: sep < k < dot && p[k] != '.' then dot else |p|
  }

  /** `os.path.splitext(p)[0]`. */
  function SplitExtRoot(p: string): string {
    p[..ExtStart(p)]
  }

  /** `os.path.splitext(p)[1]`. */
  function SplitExtExt(p: string): string {
    p[ExtStart(p)..]
  }

  /** The two halves of `splitext` put back together give the path; the extension is
      empty or one dot followed by no dot or '/'. */
  lemma SplitExtParts(p: string)
    ensures SplitExtRoot(p) + SplitExtExt(p) == p
    ensures var e := SplitExtExt(p);
      e == "" || (e[0] == '.' && '.' !in e[1..] && '/' !in e[1..])
  {
    var e := SplitExtExt(p);
    if e != "" {
      var d := ExtStart(p);
      assert forall j :: 0 <= j < |e| - 1 ==> e[1..][j] == p[d + 1 + j];
    }
  }

  // ---------------------------------------------------------------------------
  // decimal numbers: str(n) and int(s)

  function DigitChar(d: nat): (c: char)
    requires d < 10
    ensures IsDigit(c)
  {
    ['0', '1', '2', '3', '4', '5', '6', '7', '8', '9'][d]
  }

  function DigitValue(c: char): (d: nat)
    requires IsDigit(c)
    ensures d < 10
  {
    (c as int - '0' as int)
  }

  /** The value of a string of decimal digits (0 for the empty string). */
  function DigitsValue(s: string): nat
    requires AllDigits(s)
  {
    if |s| == 0 then 0 else 10 * DigitsValue(s[..|s| - 1]) + DigitValue(s[|s| - 1])
  }

  /** Python's `str(n)` for a natural number. */
  function NatToString(n: nat): (r: string)
    ensures |r| > 0 && AllDigits(r)
    ensures DigitsValue(r) == n
    ensures |r| > 1 ==> r[0] != '0'
  {
    if n < 10 then [DigitChar(n)]
    else
      var r := NatToString(n / 10) + [DigitChar(n % 10)];
      assert r[..|r| - 1] == NatToString(n / 10);
      assert DigitValue(DigitChar(n % 10)) == n % 10 by {
        assert n % 10 < 10;
      }
      r
  }

  /** Python's `str(i)` for an integer. */
  function IntToString(i: int): (r: string)
    ensures i >= 0 ==> r == NatToString(i)
    ensures i < 0 ==> r == "-" + NatToString(-i)
  {
    if i < 0 then "-" + NatToString(-i) else NatToString(i)
  }

  /** `s` with leading and trailing whitespace removed (what `int()` ignores). */
  function Strip(s: string): (r: string)
    ensures |r| == 0 || (!IsSpace(r[0]) && !IsSpace(r[|r| - 1]))
    decreases |s|
  {
    if |s| == 0 then s
    else if IsSpace(s[0]) then Strip(s[1..])
    else if IsSpace(s[|s| - 1]) then Strip(s[..|s| - 1])
    else s
  }

  /** Python 2's `int(s)` on a string: optional surrounding whitespace, an optional
      sign, more optional whitespace after the sign (`PyOS_strtoul` skips it again)
      and at least one decimal digit; anything else raises ValueError (None). */
  function ParseInt(s: string): (r: Option<int>)
    ensures r.Some? <==>
      var t := Strip(s);
      (|t| > 0 && AllDigits(t)) ||
      (|t| > 1 && (t[0] == '+' || t[0] == '-') && |Strip(t[1..])| > 0 && AllDigits(Strip(t[1..])))
  {
    var t := Strip(s);
    if |t| > 0 && AllDigits(t) then Some(DigitsValue(t))
    else if |t| > 1 && (t[0] == '+' || t[0] == '-') then
      var u := Strip(t[1..]);
      if |u| > 0 && AllDigits(u) then
        if t[0] == '+' then Some(DigitsValue(u)) else Some(0 - DigitsValue(u) as int)
      else None
    else None
  }

  /** Whitespace between the sign and the digits is skipped: `int("+ 48") == 48`
      and `int("- 48") == -48`, while a sign alone is still a ValueError. */
  lemma SpaceAfterSign()
    ensures ParseInt("+ 48") == Some(48)
    ensures ParseInt("- 48") == Some(-48)
    ensures ParseInt("+ ") == None
  {
    assert Strip("+ 48") == "+ 48";
    assert "+ 48"[1..] == " 48";
    assert Strip(" 48") == "48";
    assert "48"[..1] == "4";
    assert DigitsValue("48") == 48;
    assert Strip("- 48") == "- 48";
    assert "- 48"[1..] == " 48";
    assert Strip("+ ") == "+";
  }

  /** `int(str(i)) == i`. */
  lemma ParseIntToString(i: int)
    ensures ParseInt(IntToString(i)) == Some(i)
  {
    var r := IntToString(i);
    assert Strip(r) == r;
    if i < 0 {
      assert r[1..] == NatToString(-i);
    }
  }
}

=== FILE: sge_launch.dfy ===
/**
 The driver of the batch-job generator: the checks the main block applies to the
 user's answers, the choice of computations, and the `launch_*` functions that
 write one script per computation into `<path>/SGE_Scripts` and optionally submit
 it with `qsub`. The file system is a parameter: the project directory's listing,
 its subdirectories with their listings, and the set of existing files.
 */
module SgeLaunch {
  import opened PyStr
  import opened Version
  import opened SgeScript

  // ---------------------------------------------------------------------------
  // Answers

  /** The code the user types for a package. */
  function PackageCode(p: Package): string {
    match p
    case FineTurbo => "ft"
    case FineOpen => "fo"
    case HexpressHybrid => "hh"
  }

  /** The package prompt accepts "ft", "fo" and "hh" and nothing else. */
  function ParsePackage(s: string): (r: Option<Package>)
    ensures r.Some? ==> PackageCode(r.value) == s
  {
    if s == "ft" then Some(FineTurbo)
    else if s == "fo" then Some(FineOpen)
    else if s == "hh" then Some(HexpressHybrid)
    else None
  }

  lemma ParsePackageCode(p: Package)
    ensures ParsePackage(PackageCode(p)) == Some(p)
  {
  }

  function MpiCode(m: MpiLibrary): string {
    match m
    case IntelMpi => "impi"
    case OpenMpi => "ompi"
  }

  /** The MPI prompt (FINE only) accepts "impi" and "ompi" and nothing else. */
  function ParseMpi(s: string): (r: Option<MpiLibrary>)
    ensures r.Some? ==> MpiCode(r.value) == s
  {
    if s == "impi" then Some(IntelMpi) else if s == "ompi" then Some(OpenMpi) else None
  }

  lemma ParseMpiCode(m: MpiLibrary)
    ensures ParseMpi(MpiCode(m)) == Some(m)
  {
  }

  /**
   The core-count check `int(nCores) % 24 != 0`: None when `int` raises ValueError
   (the script stops), otherwise whether the count is a multiple of 24. Python's `%`
   by a positive number is never negative, like Dafny's, so "-24" and "0" pass.
   */
  function CoresCheck(s: string): (r: Option<bool>)
    ensures r.None? <==> ParseInt(s).None?
    ensures r == Some(true) ==> exists k :: ParseInt(s) == Some(24 * k)
  {
    match ParseInt(s)
    case None => None
    case Some(n) =>
      assert n == 24 * (n / 24) + n % 24;
      Some(n % 24 == 0)
  }

  /** The number printed in decimal passes the check iff it is a multiple of 24. */
  lemma CoresCheckOfNumber(n: int)
    ensures CoresCheck(IntToString(n)) == Some(n % 24 == 0)
  {
    ParseIntToString(n);
  }

  /** A count typed with a space after its sign passes: `int` skips that space. */
  lemma CoresCheckSpacedSign()
    ensures CoresCheck("+ 48") == Some(true)
    ensures CoresCheck("- 48") == Some(true)
  {
    SpaceAfterSign();
  }

  /** The yes/no prompts for the memory estimate and the partitioner accept "0" and "1". */
  predicate YesNo(s: string) {
    s == "0" || s == "1"
  }

  /** `memFT`: the yes/no answer, followed by the ints and reals after a yes. */
  function MemoryAnswers(answer: string, ints: string, reals: string): (mem: seq<string>)
    ensures MemoryAnswered(mem) && mem[0] == answer
    ensures MemoryOf(mem) == (if answer == "1" then Some(MemoryRequest(ints, reals)) else None)
  {
    if answer == "1" then [answer, ints, reals] else [answer]
  }

  // ---------------------------------------------------------------------------
  // Choosing the computations

  /** A subdirectory of the project, with the names of the entries in it. */
  datatype Subdir = Subdir(name: string, entries: seq<string>)

  predicate HasRunFile(d: Subdir) {
    exists f :: f in d.entries && EndsWith(f, ".run")
  }

  /** `all_computations`: the subdirectories holding a `.run` file, in listing order. */
  function RunDirectories(subdirs: seq<Subdir>): (r: seq<string>)
    ensures |r| <= |subdirs|
    ensures forall n :: n in r <==> exists d :: d in subdirs && d.name == n && HasRunFile(d)
  {
    if |subdirs| == 0 then []
    else
      var rest := RunDirectories(subdirs[1..]);
      assert forall d :: d in subdirs <==> d == subdirs[0] || d in subdirs[1..];
      if HasRunFile(subdirs[0]) then [subdirs[0].name] + rest else rest
  }

  /** The `.conf` files of the project directory, in listing order. */
  function ConfFiles(listing: seq<string>): (r: seq<string>)
    ensures |r| <= |listing|
    ensures forall f :: f in r <==> f in listing && EndsWith(f, ".conf")
  {
    if |listing| == 0 then []
    else
      var rest := ConfFiles(listing[1..]);
      assert forall f :: f in listing <==> f == listing[0] || f in listing[1..];
      if EndsWith(listing[0], ".conf") then [listing[0]] + rest else rest
  }

  /** Why the main block stops before writing anything. */
  datatype Exit = NoDirectory | NotConf | NotInProject | NoComputation

  /**
   The computation list: the names typed (split on whitespace) or, when nothing
   is typed, every `.conf` file (Hexpress/Hybrid) or every subdirectory holding a
   `.run` file (FINE). A typed Hexpress/Hybrid name must end in `.conf`, a typed
   FINE name must be such a subdirectory, and the list must not be empty.
   */
  function SelectComputations(pkg: Package, typed: string, listing: seq<string>,
                              subdirs: seq<Subdir>): (r: Result<seq<string>>)
    ensures r.Ok? ==> |r.value| > 0
    ensures r.Ok? && pkg == HexpressHybrid ==> forall n :: n in r.value ==> EndsWith(n, ".conf")
    ensures r.Ok? && pkg != HexpressHybrid ==> forall n :: n in r.value ==> n in RunDirectories(subdirs)
    ensures r.Ok? && typed != "" ==> r.value == Split(typed)
    ensures r == Fail(NotConf) ==>
      pkg == HexpressHybrid && typed != "" && exists n :: n in Split(typed) && !EndsWith(n, ".conf")
    ensures pkg == HexpressHybrid && typed != "" && (exists n :: n in Split(typed) && !EndsWith(n, ".conf")) ==>
      r == Fail(NotConf)
    ensures r == Fail(NotInProject) ==>
      pkg != HexpressHybrid && typed != "" && exists n :: n in Split(typed) && n !in RunDirectories(subdirs)
    ensures pkg != HexpressHybrid && typed != "" && (exists n :: n in Split(typed) && n !in RunDirectories(subdirs)) ==>
      r == Fail(NotInProject)
  {
    var chosen :=
      if pkg == HexpressHybrid then
        if typed == "" then Ok(ConfFiles(listing))
        else if forall n :: n in Split(typed) ==> EndsWith(n, ".conf") then Ok(Split(typed))
        else Fail(NotConf)
      else if typed == "" then Ok(RunDirectories(subdirs))
      else if exists n :: n in Split(typed) && n !in RunDirectories(subdirs) then Fail(NotInProject)
      else Ok(Split(typed));
    if chosen.Ok? && |chosen.value| == 0 then Fail(NoComputation) else chosen
  }

  datatype Result<T> = Ok(value: T) | Fail(reason: Exit)

  /** With nothing typed, every discovered computation is chosen, if there is any. */
  lemma SelectAllByDefault(pkg: Package, listing: seq<string>, subdirs: seq<Subdir>)
    ensures var all := if pkg == HexpressHybrid then ConfFiles(listing) else RunDirectories(subdirs);
      SelectComputations(pkg, "", listing, subdirs) == if |all| == 0 then Fail(NoComputation) else Ok(all)
  {
  }

  /**
   The names the "Skipping computation" report lists: FINE names without
   `<path>/<name>/<name>.run`, Hexpress/Hybrid names that are not files. The
   report is all the check does: these names are launched like the others.
   */
  function Skipped(pkg: Package, path: string, names: seq<string>, files: set<string>): (r: seq<string>)
    ensures forall n :: n in r <==> n in names && CheckFile(pkg, path, n) !in files
  {
    if |names| == 0 then []
    else
      var rest := Skipped(pkg, path, names[1..], files);
      assert forall n :: n in names <==> n == names[0] || n in names[1..];
      if CheckFile(pkg, path, names[0]) in files then rest else [names[0]] + rest
  }

  function CheckFile(pkg: Package, path: string, name: string): string {
    if pkg == HexpressHybrid then PathJoin(path, name) else PathJoin(PathJoin(path, name), name) + ".run"
  }

  /** The file the check looks for is the input the script hands to the solver: RUNFILE
      for FINE jobs, CONF_FILE for Hexpress/Hybrid. */
  lemma CheckedFileIsInput(pkg: Package, path: string, name: string, mpi: Option<MpiLibrary>, gen: nat,
                           mem: seq<string>, parpar: string)
    requires pkg == FineTurbo ==> MemoryAnswered(mem)
    ensures var c := ComputationSettings(path, name, mpi, gen, pkg, mem, parpar);
      var input := if pkg == HexpressHybrid then ConfFile else RunFile;
      exists v :: Assign(input, v) in c && ValueText(v) == CheckFile(pkg, path, name)
  {
    var input := if pkg == HexpressHybrid then ConfFile else RunFile;
    ComputationInput(path, name, mpi, gen, pkg, mem, parpar, input);
    var v := InputValue(path, name, pkg, input).value;
    assert Assign(input, v) in ComputationSettings(path, name, mpi, gen, pkg, mem, parpar);
    assert ValueText(v) == CheckFile(pkg, path, name);
  }

  // ---------------------------------------------------------------------------
  // Writing and submitting the scripts

  /** `os.path.join(path, "SGE_Scripts")`. */
  function ScriptDirectory(path: string): string {
    PathJoin(path, "SGE_Scripts")
  }

  /** A name starts with a slash iff its first character is one. */
  lemma SlashStart(s: string)
    ensures StartsWith(s, "/") <==> |s| > 0 && s[0] == '/'
  {
    if |s| > 0 {
      assert s[..1][0] == s[0];
    }
  }

  /** Joining a relative name under a directory that does not end in a slash puts
      one slash between them. */
  lemma JoinUnder(a: string, b: string)
    requires |a| > 0 && a[|a| - 1] != '/'
    requires |b| == 0 || b[0] != '/'
    ensures PathJoin(a, b) == a + "/" + b
  {
    SlashStart(b);
    assert a[|a| - 1..][0] == a[|a| - 1];
  }

  /** The script directory ends in `SGE_Scripts`, so it is never empty and never
      ends in a slash, and it is absolute exactly when the project path is. */
  lemma ScriptDirectoryAbsolute(path: string)
    ensures var d := ScriptDirectory(path);
      |d| > 0 && d[|d| - 1] == 's' && (d[0] == '/' <==> StartsWith(path, "/"))
  {
    SlashStart("SGE_Scripts");
    SlashStart(path);
    var d := ScriptDirectory(path);
    if path == "" {
      assert d == "SGE_Scripts";
    } else if EndsWith(path, "/") {
      assert d == path + "SGE_Scripts";
      assert d[0] == path[0];
    } else {
      assert d == path + "/SGE_Scripts";
      assert d[0] == path[0];
    }
  }

  /** The file name of the script of computation `name`. */
  function ScriptName(name: string): string {
    "launch_" + name + ".sge"
  }

  lemma ScriptNameInjective(a: string, b: string)
    requires ScriptName(a) == ScriptName(b)
    ensures a == b
  {
    var pre := "launch_";
    assert ScriptName(a) == pre + (a + ".sge");
    assert ScriptName(b) == pre + (b + ".sge");
    assert a == ScriptName(a)[|pre|..|pre| + |a|];
    assert b == ScriptName(b)[|pre|..|pre| + |b|];
  }

  /** The name the launcher gives the script of computation `name`, both to `open`
      and to `qsub`: `os.path.join(script_path, "launch_<name>.sge")`. */
  function ScriptLocation(path: string, name: string): (r: string)
    ensures r == ScriptDirectory(path) + "/" + ScriptName(name)
  {
    ScriptDirectoryAbsolute(path);
    assert ScriptName(name)[0] == 'l';
    JoinUnder(ScriptDirectory(path), ScriptName(name));
    PathJoin(ScriptDirectory(path), ScriptName(name))
  }

  /** Different computations get different script files. */
  lemma ScriptLocationInjective(path: string, a: string, b: string)
    requires ScriptLocation(path, a) == ScriptLocation(path, b)
    ensures a == b
  {
    var d := ScriptDirectory(path) + "/";
    assert ScriptLocation(path, a)[|d|..] == ScriptName(a);
    assert ScriptLocation(path, b)[|d|..] == ScriptName(b);
    ScriptNameInjective(a, b);
  }

  /**
   The directory `open` writes into, named from the directory the main block
   started in. The launcher has already changed into the script directory
   (`os.chdir(script_path)`), so a relative script directory is resolved a
   second time from inside itself.
   */
  function OpenedDirectory(path: string): (r: string)
    ensures StartsWith(path, "/") ==> r == ScriptDirectory(path)
    ensures !StartsWith(path, "/") ==> r == ScriptDirectory(path) + "/" + ScriptDirectory(path)
  {
    var d := ScriptDirectory(path);
    ScriptDirectoryAbsolute(path);
    SlashStart(d);
    if d[0] == '/' then PathJoin(d, d)
    else
      JoinUnder(d, d);
      PathJoin(d, d)
  }

  /** The file the script of computation `name` is written to, named from the
      directory the main block started in; `qsub`, run from the same directory as
      `open`, is handed the same file. */
  function WrittenFile(path: string, name: string): (r: string)
    ensures r == OpenedDirectory(path) + "/" + ScriptName(name)
    ensures StartsWith(path, "/") ==> r == ScriptLocation(path, name)
  {
    var d := ScriptDirectory(path);
    var loc := ScriptLocation(path, name);
    ScriptDirectoryAbsolute(path);
    SlashStart(loc);
    assert loc[0] == d[0];
    if d[0] == '/' then PathJoin(d, loc)
    else
      JoinUnder(d, loc);
      assert d + "/" + loc == (d + "/" + d) + "/" + ScriptName(name);
      PathJoin(d, loc)
  }

  /**
   The directory `open` creates the script of computation `name` in, named from
   the starting directory. A name containing '/' (a typed Hexpress/Hybrid name
   such as "sub/a.conf" passes the `.conf` check) reaches below the opened
   directory, into `launch_` followed by the name up to its last slash.
   */
  function NameDirectory(path: string, name: string): string {
    if '/' in name then OpenedDirectory(path) + "/launch_" + name[..LastIndexOf(name, '/')]
    else OpenedDirectory(path)
  }

  /** The script is created directly inside NameDirectory: what follows it in the
      written file's name holds no further slash. */
  lemma NameDirectoryHoldsScript(path: string, name: string)
    ensures exists rest :: '/' !in rest && WrittenFile(path, name) == NameDirectory(path, name) + "/" + rest
  {
    var w := WrittenFile(path, name);
    if '/' in name {
      var rest := SlashedNameTail(path, name);
      assert '/' !in rest && w == NameDirectory(path, name) + "/" + rest;
    } else {
      NoSlashInScriptName(name);
      assert w == NameDirectory(path, name) + "/" + ScriptName(name);
    }
  }

  /** For a name with a slash, the part of the written file's name after its directory. */
  lemma SlashedNameTail(path: string, name: string) returns (rest: string)
    requires '/' in name
    ensures '/' !in rest && WrittenFile(path, name) == NameDirectory(path, name) + "/" + rest
  {
    var m := LastIndexOf(name, '/');
    NoSlashAfterLast(name);
    NoSlashAfterSuffix(name[m + 1..]);
    Regroup(OpenedDirectory(path), name, m);
    rest := name[m + 1..] + ".sge";
  }

  /** Splitting a script's name at a slash of the computation's name. */
  lemma Regroup(od: string, name: string, m: nat)
    requires m < |name| && name[m] == '/'
    ensures od + "/" + ScriptName(name) == (od + "/launch_" + name[..m]) + "/" + (name[m + 1..] + ".sge")
  {
    assert name == name[..m] + "/" + name[m + 1..];
    assert "/" + "launch_" == "/launch_";
  }

  lemma NoSlashAfterSuffix(tail: string)
    requires '/' !in tail
    ensures '/' !in tail + ".sge"
  {
    var t := tail + ".sge";
    forall j | 0 <= j < |t|
      ensures t[j] != '/'
    {
      if j < |tail| {
        assert t[j] == tail[j];
      }
    }
  }

  lemma NoSlashAfterLast(name: string)
    requires '/' in name
    ensures '/' !in name[LastIndexOf(name, '/') + 1..]
  {
    var m := LastIndexOf(name, '/');
    var t := name[m + 1..];
    forall j | 0 <= j < |t|
      ensures t[j] != '/'
    {
      assert t[j] == name[m + 1 + j];
    }
  }

  lemma NoSlashInScriptName(name: string)
    requires '/' !in name
    ensures '/' !in ScriptName(name)
  {
    var s := ScriptName(name);
    forall j | 0 <= j < |s|
      ensures s[j] != '/'
    {
      if 7 <= j < 7 + |name| {
        assert s[j] == name[j - 7];
      }
    }
  }

  /**
   Whether `open` can create the script of computation `name`: after
   `os.makedirs` the script directory exists, so the open succeeds iff the
   directory it writes into is that one or already existed. `directories` holds
   the names `os.path.isdir` accepts from the starting directory.
   */
  predicate Opens(path: string, name: string, directories: set<string>) {
    NameDirectory(path, name) == ScriptDirectory(path) || NameDirectory(path, name) in directories
  }

  /** An absolute project path writes the script of a plain name at its location. */
  lemma AbsolutePathWritesAtLocation(path: string, name: string, directories: set<string>)
    requires StartsWith(path, "/") && '/' !in name
    ensures Opens(path, name, directories) && WrittenFile(path, name) == ScriptLocation(path, name)
  {
  }

  /** A relative project path makes `open` look for the script directory inside
      itself: the script of a plain name is written only if that nested directory
      already exists. */
  lemma RelativePathNestsDirectory(path: string, name: string, directories: set<string>)
    requires !StartsWith(path, "/") && '/' !in name
    ensures Opens(path, name, directories) <==> ScriptDirectory(path) + "/" + ScriptDirectory(path) in directories
  {
    var d := ScriptDirectory(path);
    assert |d + "/" + d| > |d|;
  }

  /** A name with a slash is written only if its subdirectory `launch_<dir>` already
      exists inside the opened directory; `makedirs` never creates it. */
  lemma SlashedNameNeedsDirectory(path: string, name: string, directories: set<string>)
    requires '/' in name
    ensures Opens(path, name, directories) <==>
      OpenedDirectory(path) + "/launch_" + name[..LastIndexOf(name, '/')] in directories
  {
    var od := OpenedDirectory(path);
    var sd := ScriptDirectory(path);
    var sub := od + "/launch_" + name[..LastIndexOf(name, '/')];
    assert NameDirectory(path, name) == sub;
    assert |od| >= |sd| by {
      if !StartsWith(path, "/") {
        assert od == sd + "/" + sd;
      }
    }
    assert |sub| > |sd|;
  }

  /** The position of the first false entry, or the length when there is none. */
  function FirstFalse(ok: seq<bool>): (k: nat)
    ensures k <= |ok|
    ensures forall j :: 0 <= j < k ==> ok[j]
    ensures k < |ok| ==> !ok[k]
  {
    if |ok| == 0 || !ok[0] then 0 else 1 + FirstFalse(ok[1..])
  }

  /** Which of the computations' scripts `open` can create, in order. */
  function Openable(path: string, names: seq<string>, directories: set<string>): (ok: seq<bool>)
    ensures |ok| == |names|
    ensures forall i :: 0 <= i < |names| ==> ok[i] == Opens(path, names[i], directories)
  {
    seq(|names|, i requires 0 <= i < |names| => Opens(path, names[i], directories))
  }

  /** One script file: the name the launcher gives it and the job it describes. */
  datatype SgeFile = SgeFile(location: string, job: Job)

  /** The scripts of one launch for a given generation (None: no generation). */
  function LaunchWith(gen: Option<nat>, pkg: Package, path: string, names: seq<string>, mpi: Option<MpiLibrary>,
                      version: string, cores: string, mem: seq<string>, parpar: string): Option<seq<SgeFile>> {
    match gen
    case None => None
    case Some(g) =>
      Some(seq(|names|, i requires 0 <= i < |names| =>
        SgeFile(ScriptLocation(path, names[i]), Job(pkg, path, names[i], i, mpi, version, g, cores, mem, parpar))))
  }

  /**
   `launch_fine_turbo`, `launch_fine_open` and `launch_hexpress_hybrid`: compute
   the generation of the version once with `major_version`, then write, for every
   computation in order, the script of the job with that computation's name and
   position. None is the uncaught exception `major_version` raises for a version
   that starts with no digit.
   */
  function LaunchScripts(pkg: Package, path: string, names: seq<string>, mpi: Option<MpiLibrary>,
                         version: string, cores: string, mem: seq<string>, parpar: string): (r: Option<seq<SgeFile>>)
    requires pkg == HexpressHybrid <==> mpi.None?
    requires pkg == FineTurbo ==> MemoryAnswered(mem)
    ensures r.Some? <==> MajorVersion(version).Some?
    ensures r.Some? ==> |r.value| == |names|
    ensures r.Some? ==> forall i :: 0 <= i < |names| ==>
      r.value[i].location == ScriptLocation(path, names[i]) &&
      r.value[i].job.Valid() && r.value[i].job.name == names[i] && r.value[i].job.index == i
  {
    LaunchWith(MajorVersion(version), pkg, path, names, mpi, version, cores, mem, parpar)
  }

  /** The scripts differ only in the computation: every other field of the job is shared. */
  lemma ScriptsShareSettings(pkg: Package, path: string, names: seq<string>, mpi: Option<MpiLibrary>,
                             version: string, cores: string, mem: seq<string>, parpar: string, i: nat, k: nat)
    requires pkg == HexpressHybrid <==> mpi.None?
    requires pkg == FineTurbo ==> MemoryAnswered(mem)
    requires LaunchScripts(pkg, path, names, mpi, version, cores, mem, parpar).Some?
    requires i < |names| && k < |names|
    ensures var fs := LaunchScripts(pkg, path, names, mpi, version, cores, mem, parpar).value;
      fs[i].job == fs[k].job.(name := names[i], index := i)
  {
  }

  /** Every job carries the generation `major_version` computes, backtracking included,
      together with the version as typed. */
  lemma LaunchGeneration(pkg: Package, path: string, names: seq<string>, mpi: Option<MpiLibrary>,
                         version: string, cores: string, mem: seq<string>, parpar: string)
    requires pkg == HexpressHybrid <==> mpi.None?
    requires pkg == FineTurbo ==> MemoryAnswered(mem)
    ensures var r := LaunchScripts(pkg, path, names, mpi, version, cores, mem, parpar);
      r.Some? ==> forall f :: f in r.value ==>
        f.job.gen == MajorVersion(version).value && f.job.version == version &&
        f.job.pkg == pkg && f.job.path == path && f.job.mpi == mpi && f.job.cores == cores
  {
  }

  /** The launch as the comments intend it: the same scripts, with the whole leading
      number of the version over ten as the generation. */
  function IntendedLaunchScripts(pkg: Package, path: string, names: seq<string>, mpi: Option<MpiLibrary>,
                                 version: string, cores: string, mem: seq<string>, parpar: string): (r: Option<seq<SgeFile>>)
    requires pkg == HexpressHybrid <==> mpi.None?
    requires pkg == FineTurbo ==> MemoryAnswered(mem)
    ensures r.Some? <==> LaunchScripts(pkg, path, names, mpi, version, cores, mem, parpar).Some?
    ensures r.Some? ==> |r.value| == |names| && forall i :: 0 <= i < |names| ==>
      r.value[i] == LaunchScripts(pkg, path, names, mpi, version, cores, mem, parpar).value[i].(
        job := LaunchScripts(pkg, path, names, mpi, version, cores, mem, parpar).value[i].job.(
          gen := DigitsValue(version[..DigitRun(version)]) / 10)) &&
      r.value[i].job.gen == DigitsValue(version[..DigitRun(version)]) / 10
  {
    LaunchWith(IntendedMajorVersion(version), pkg, path, names, mpi, version, cores, mem, parpar)
  }

  /** "112rc" on FINE/Open: as written every script gets generation 0 and the old
      installation layout; as intended, generation 11 and the new one. */
  lemma ReleaseCandidateLaunch(path: string, names: seq<string>, m: MpiLibrary, cores: string)
    requires |names| > 0
    ensures var written := LaunchScripts(FineOpen, path, names, Some(m), "112rc", cores, [], "");
      var intended := IntendedLaunchScripts(FineOpen, path, names, Some(m), "112rc", cores, [], "");
      written.Some? && intended.Some? &&
      written.value[0].job.gen == 0 && OldLayout(FineOpen, written.value[0].job.gen) &&
      intended.value[0].job.gen == 11 && NewLayout(FineOpen, intended.value[0].job.gen)
  {
    ReleaseCandidateExample();
  }

  /** The `qsub` command lines, one per script in order, when the user asked for submission. */
  function Submissions(files: seq<SgeFile>, submit: bool): (r: seq<string>)
    ensures submit ==> |r| == |files| && forall i :: 0 <= i < |r| ==> r[i] == "qsub " + files[i].location
    ensures !submit ==> r == []
  {
    if submit then seq(|files|, i requires 0 <= i < |files| => "qsub " + files[i].location) else []
  }

  // ---------------------------------------------------------------------------
  // The main block

  /** The project directory as the main block sees it. Paths are named as the
      main block names them from the directory it started in. */
  datatype Project = Project(cwd: string, directories: set<string>, listing: seq<string>,
                             subdirs: seq<Subdir>, files: set<string>)

  /**
   The answers once every re-prompting loop has stopped: a package, a non-empty
   version and, for FINE, a core count the check either passes or crashes on
   (`int` raising ValueError). Hexpress/Hybrid always uses "24". The later prompts
   are only reached when the count passes: then FINE has an MPI library, and
   FINE/Turbo the memory and partitioner answers.
   */
  datatype Answers = Answers(pkg: Package, path: string, names: string, version: string, cores: string,
                             mpi: Option<MpiLibrary>, mem: seq<string>, parpar: string, submit: string)
  {
    predicate Accepted() {
      version != "" &&
      (pkg != HexpressHybrid ==> CoresCheck(cores) != Some(false)) &&
      (pkg != HexpressHybrid && CoresCheck(cores) == Some(true) ==> mpi.Some?) &&
      (pkg == FineTurbo && CoresCheck(cores) == Some(true) ==> MemoryAnswered(mem) && YesNo(mem[0]) && YesNo(parpar))
    }

    /** The core count passed its check: always for Hexpress/Hybrid, which asks none. */
    predicate CoresPassed() {
      pkg != HexpressHybrid ==> CoresCheck(cores) == Some(true)
    }

    /** What the main block hands its package's launcher: Hexpress/Hybrid gets no
        MPI library and 24 cores, and only FINE/Turbo gets the memory and
        partitioner answers. */
    function LaunchMpi(): Option<MpiLibrary> { if pkg == HexpressHybrid then None else mpi }
    function LaunchCores(): string { if pkg == HexpressHybrid then "24" else cores }
    function LaunchMem(): seq<string> { if pkg == FineTurbo then mem else [] }
    function LaunchParpar(): string { if pkg == FineTurbo then parpar else "" }

    /** The scripts the package's launcher writes for `names` under `path`. */
    function Scripts(path: string, names: seq<string>): Option<seq<SgeFile>>
      requires Accepted() && CoresPassed()
    {
      LaunchScripts(pkg, path, names, LaunchMpi(), version, LaunchCores(), LaunchMem(), LaunchParpar())
    }
  }

  /** The uncaught exceptions of the main block before any script is written. */
  datatype Crash =
    | BadCores     // ValueError of `int(nCores)`
    | NoGeneration // AttributeError in major_version

  /**
   How the main block ends. `Launched` wrote (and submitted) every script;
   `Interrupted` is the IOError of an `open` that failed after the scripts in
   `files` were written and submitted.
   */
  datatype Outcome =
    | Stopped(reason: Exit)
    | Crashed(error: Crash)
    | Launched(skipped: seq<string>, files: seq<SgeFile>, written: seq<string>, commands: seq<string>)
    | Interrupted(skipped: seq<string>, files: seq<SgeFile>, written: seq<string>, commands: seq<string>)
  {
    predicate Wrote() {
      Launched? || Interrupted?
    }
  }

  /** The project path: the working directory when nothing is typed. */
  function ProjectPath(typed: string, cwd: string): string {
    if typed == "" then cwd else typed
  }

  /** Some computation's script cannot be opened iff the first failing position
      lies inside the list. */
  lemma FirstUnopenable(path: string, names: seq<string>, directories: set<string>)
    ensures FirstFalse(Openable(path, names, directories)) < |names| <==>
      exists n :: n in names && !Opens(path, n, directories)
  {
    var ok := Openable(path, names, directories);
    var k := FirstFalse(ok);
    if k < |names| {
      assert names[k] in names && !Opens(path, names[k], directories);
    } else {
      forall n | n in names
        ensures Opens(path, n, directories)
      {
        var i :| 0 <= i < |names| && names[i] == n;
        assert ok[i];
      }
    }
  }

  /**
   The loop over the computations once the scripts are known: for each in order,
   the open in the script directory, the script and its `qsub`, until an open fails.
   */
  function WriteScripts(a: Answers, p: Project, path: string, names: seq<string>, files: seq<SgeFile>): (o: Outcome)
    requires |files| == |names|
    ensures o.Wrote()
    ensures var k := |o.files|;
      k <= |names| && o.files == files[..k] &&
      o.skipped == Skipped(a.pkg, path, names, p.files) &&
      |o.written| == k && (forall i :: 0 <= i < k ==> o.written[i] == WrittenFile(path, names[i])) &&
      o.commands == Submissions(o.files, a.submit != "n")
    ensures o.Launched? <==> |o.files| == |names|
    ensures o.Interrupted? ==> !Opens(path, names[|o.files|], p.directories)
    ensures o.Interrupted? <==> exists n :: n in names && !Opens(path, n, p.directories)
  {
    var ok := Openable(path, names, p.directories);
    var k := FirstFalse(ok);
    FirstUnopenable(path, names, p.directories);
    var skipped := Skipped(a.pkg, path, names, p.files);
    var written := seq(k, i requires 0 <= i < k => WrittenFile(path, names[i]));
    var commands := Submissions(files[..k], a.submit != "n");
    if k < |names| then
      Interrupted(skipped, files[..k], written, commands)
    else
      assert files[..k] == files;
      Launched(skipped, files, written, commands)
  }

  /**
   The launcher once the checks before it have passed: `major_version`, then for
   each computation in order the open in the script directory, the script and its
   `qsub`, until an open fails.
   */
  function Launch(a: Answers, p: Project, path: string, names: seq<string>): (o: Outcome)
    requires a.Accepted() && a.CoresPassed() && |names| > 0
    ensures !o.Stopped? && (o.Crashed? ==> o.error == NoGeneration)
    ensures o.Crashed? <==> MajorVersion(a.version).None?
    ensures o.Interrupted? <==>
      MajorVersion(a.version).Some? && exists n :: n in names && !Opens(path, n, p.directories)
    ensures o.Wrote() ==>
      var k := |o.files|;
      k <= |names| && a.Scripts(path, names).Some? && o.files == a.Scripts(path, names).value[..k] &&
      o.skipped == Skipped(a.pkg, path, names, p.files) &&
      |o.written| == k && (forall i :: 0 <= i < k ==> o.written[i] == WrittenFile(path, names[i])) &&
      o.commands == Submissions(o.files, a.submit != "n")
    ensures o.Launched? ==> |o.files| == |names|
    ensures o.Interrupted? ==> |o.files| < |names| && !Opens(path, names[|o.files|], p.directories)
  {
    match a.Scripts(path, names)
    case None => Crashed(NoGeneration)
    case Some(files) => WriteScripts(a, p, path, names, files)
  }

  /**
   The main block: check the project path, choose the computations, check the
   core count, report the ones that look missing, then write and submit a script
   for every chosen computation with the launcher of the package.
   */
  function Session(a: Answers, p: Project): (o: Outcome)
    requires a.Accepted()
    ensures o.Stopped? <==>
      ProjectPath(a.path, p.cwd) !in p.directories || SelectComputations(a.pkg, a.names, p.listing, p.subdirs).Fail?
    ensures o == Crashed(BadCores) <==> !o.Stopped? && !a.CoresPassed()
    ensures o == Crashed(NoGeneration) <==> !o.Stopped? && a.CoresPassed() && MajorVersion(a.version).None?
    ensures o.Wrote() ==>
      var path := ProjectPath(a.path, p.cwd);
      var names := SelectComputations(a.pkg, a.names, p.listing, p.subdirs).value;
      var k := |o.files|;
      a.CoresPassed() && 0 < |names| && k <= |names| && a.Scripts(path, names).Some? &&
      o.files == a.Scripts(path, names).value[..k] &&
      o.skipped == Skipped(a.pkg, path, names, p.files) &&
      |o.written| == k && (forall i :: 0 <= i < k ==> o.written[i] == WrittenFile(path, names[i])) &&
      o.commands == Submissions(o.files, a.submit != "n") &&
      (o.Launched? <==> k == |names|) &&
      (o.Interrupted? ==> !Opens(path, names[k], p.directories))
  {
    var path := ProjectPath(a.path, p.cwd);
    if path !in p.directories then Stopped(NoDirectory)
    else match SelectComputations(a.pkg, a.names, p.listing, p.subdirs)
      case Fail(reason) => Stopped(reason)
      case Ok(names) =>
        if !a.CoresPassed() then Crashed(BadCores)
        else Launch(a, p, path, names)
  }
}

=== FILE: sge_script.dfy ===
/**
 The SGE batch scripts of the job launcher: one `launch_<name>.sge` per
 computation, written by four emitters: NUMECA settings, MPI settings,
 PATH/LD_LIBRARY_PATH, and computation settings.

 A script is modelled as the sequence of the writes that produce it. Each
 write is typed: a scheduler directive, a shell assignment, an export, a launch
 command, or fixed text. `Render` turns the writes into the exact text of the
 file. Properties of the scripts are stated over the writes.
 */
module SgeScript {
  import opened PyStr

  /** The three packages the launcher accepts: "ft", "fo" and "hh". */
  datatype Package = FineTurbo | FineOpen | HexpressHybrid

  /** "impi" and "ompi". Hexpress/Hybrid jobs pass Python's None (`Option.None`). */
  datatype MpiLibrary = IntelMpi | OpenMpi

  /** The shell variables the scripts set. */
  datatype Var =
    | NiVersionsDir | NumecaSoftVersion | NumecaDir | NumecaBin | ShellPath | TmpDir
    | NumecaLicenseFile | IMpiRoot | IMpiFabrics | IMpiMpirunCleanup | MpirHome
    | OpalPrefix | OmpiOptions | Bin | PathList | LibPath | RunFile | SteeringFile
    | NbBalance | ConfFile

  function VarName(v: Var): string {
    match v
    case NiVersionsDir => "NI_VERSIONS_DIR"
    case NumecaSoftVersion => "NUMECA_SOFT_VERSION"
    case NumecaDir => "NUMECA_DIR"
    case NumecaBin => "NUMECA_BIN"
    case ShellPath => "PATH"
    case TmpDir => "TMP_DIR"
    case NumecaLicenseFile => "NUMECA_LICENSE_FILE"
    case IMpiRoot => "I_MPI_ROOT"
    case IMpiFabrics => "I_MPI_FABRICS"
    case IMpiMpirunCleanup => "I_MPI_MPIRUN_CLEANUP"
    case MpirHome => "MPIR_HOME"
    case OpalPrefix => "OPAL_PREFIX"
    case OmpiOptions => "ompi_options"
    case Bin => "BIN"
    case PathList => "pathlist"
    case LibPath => "libpath"
    case RunFile => "RUNFILE"
    case SteeringFile => "STEERINGFILE"
    case NbBalance => "NB_BALANCE"
    case ConfFile => "CONF_FILE"
  }

  /** The fixed values the scripts assign, named by what they are. */
  datatype Constant =
    | SharedSoftware | FineInstall | LinuxBin | UserPath | NumecaTmp | License
    | Impi503Root | Impi2017Root | Infiniband | Enabled
    | FineTurboIntelBin | FineOpenIntelBin | FineTurboOpenIccBin | FineTurboOpenBin
    | FineOpenOpenBin | HexpressBin
    | Ompi1104Home | Ompi165Home | MpirHomeRef | NoOptions
    | IntelBin64List | IntelBinList | OpenBinList
    | IntelLib64List | IntelLibList | OpenLibList
    | SlotsMinusOne

  /** The `libpath` value whose first entry is `first`, followed by the NUMECA libraries. */
  function LibPathValue(first: string): string {
    "\"" + first + " ${NUMECA_BIN}/_lib_sicc15 ${NUMECA_BIN}/_lib_sx86_64 ${NUMECA_BIN}/_lib_sx86_64dtk ${NUMECA_BIN}/install/flex64\""
  }

  function ConstantText(c: Constant): string {
    match c
    case SharedSoftware => "/home/SHARED/numeca_software"
    case FineInstall => "${NI_VERSIONS_DIR}/fine${NUMECA_SOFT_VERSION}"
    case LinuxBin => "${NUMECA_DIR}/LINUX"
    case UserPath => "/usr/bin:${PATH}:${NI_VERSIONS_DIR}/bin"
    case NumecaTmp => "~/.numeca/tmp/"
    case License => "${NI_VERSIONS_DIR}/COMMON/license.dat"
    case Impi503Root => "$NUMECA_BIN/_mpi/_impi5.0.3/intel64"
    case Impi2017Root => "/XF/Mpi/Intelmpi/2017.3-196/Installed/impi/2017.3.196"
    case Infiniband => "ofa"
    case Enabled => "1"
    case FineTurboIntelBin => "$NUMECA_DIR/LINUX/euranus/euranusTurbodpx86_64_impi_icc"
    case FineOpenIntelBin => "$NUMECA_DIR/LINUX/hexa/hexstreamdpx86_64_impi_icc"
    case FineTurboOpenIccBin => "${NUMECA_BIN}/euranus/euranusTurbodpx86_64_ompi_icc"
    case FineTurboOpenBin => "${NUMECA_BIN}/euranus/euranusTurbodpx86_64_ompi"
    case FineOpenOpenBin => "${NUMECA_BIN}/hexa/hexstreamdpx86_64_ompi"
    case HexpressBin => "${NUMECA_BIN}/hexpress/hexpresshybridx86_64"
    case Ompi1104Home => "/XF/Mpi/Openmpi/1.10.4.gcc-4.8.5/Installed/"
    case Ompi165Home => "/XF/Mpi/Openmpi/1.6.5/Installed/"
    case MpirHomeRef => "$MPIR_HOME"
    case NoOptions => ""
    case IntelBin64List => "\"${I_MPI_ROOT}/bin64\""
    case IntelBinList => "\"${I_MPI_ROOT}/bin\""
    case OpenBinList => "\"${MPIR_HOME}/bin ${NI_VERSIONS_DIR}/bin\""
    case IntelLib64List => LibPathValue("${I_MPI_ROOT}/lib64")
    case IntelLibList => LibPathValue("${I_MPI_ROOT}/lib")
    case OpenLibList => LibPathValue("${MPIR_HOME}/lib")
    case SlotsMinusOne => "`expr $NSLOTS - 1`"
  }

  /** A path into the case directory, kept as the parts `os.path.join` puts together:
      `<path>/<name>` (the Hexpress/Hybrid .conf file), or `<path>/<name>/<name>`
      followed by an extension (the FINE input files and output stem). */
  datatype CasePath = ConfPath(path: string, name: string) | FinePath(path: string, name: string, ext: string)

  function PathText(p: CasePath): string {
    match p
    case ConfPath(path, name) => PathJoin(path, name)
    case FinePath(path, name, ext) => PathJoin(PathJoin(path, name), name) + ext
  }

  /** An assigned value: a fixed one, one typed by the user, or a path built from the answers. */
  datatype Value = Fixed(c: Constant) | Given(text: string) | At(location: CasePath)

  function ValueText(v: Value): string {
    match v
    case Fixed(c) => ConstantText(c)
    case Given(t) => t
    case At(p) => PathText(p)
  }

  /** The titles of the four sections (the library-path title has no closing '#'). */
  datatype Title = NumecaTitle | IntelTitle | OpenTitle | LdTitle | ComputationTitle

  function TitleText(t: Title): string {
    match t
    case NumecaTitle => "# NUMECA Settings                                                       #\n"
    case IntelTitle => "# INTELMPI Library Settings                                             #\n"
    case OpenTitle => "# OPENMPI Library Settings                                              #\n"
    case LdTitle => "# PATH - LD_LIBRARY_PATH\n"
    case ComputationTitle => "# Computation Settings & Start                                          #\n"
  }

  /** Fixed blocks of text. */
  datatype Block = Shebang | Blank | PathLoop | LibLoop | FabricsComment | UnsetOmpThreads | RunCommand

  function BlockText(b: Block): string {
    match b
    case Shebang => "#!/bin/sh\n"
    case Blank => "\n"
    case PathLoop =>
      "for item in ${pathlist} ; do\n" +
      "\tif [ -n \"$PATH\" ] ; then\n" +
      "\t\tfound=`echo :${PATH}: | grep :${item}:`\n" +
      "\t\tif [ \"X$found\" == \"X\" ] ; then\n" +
      "\t\t\tPATH=\"${item}:${PATH}\"\n" +
      "\t\tfi\n" +
      "\telse\n" +
      "\t\tPATH=${item}\n" +
      "\tfi\n" +
      "done\n" +
      "export PATH\n"
    case LibLoop =>
      "for item in ${libpath} ; do\n" +
      "\tif [ -n \"$LD_LIBRARY_PATH\" ] ; then\n" +
      "\t\tfound=`echo :${LD_LIBRARY_PATH}: | grep :${item}:`\n" +
      "\t\tif [ \"X$found\" == \"X\" ] ; then\n" +
      "\t\t\tLD_LIBRARY_PATH=\"${item}:${LD_LIBRARY_PATH}\"\n" +
      "\t\tfi\n" +
      "\telse\n" +
      "\t\tLD_LIBRARY_PATH=${item}\n" +
      "\tfi\n" +
      "done\n" +
      "export LD_LIBRARY_PATH\n"
    case FabricsComment =>
      "# IntelMPI allows support for different interconnects\n" +
      "# tcp = standard ethernet\n" +
      "# ofa = Infiniband\n" +
      "# I_MPI_FABRICS=tcp\n\n"
    case UnsetOmpThreads => "unset OMP_NUM_THREADS\n"
    case RunCommand => "$COMMAND"
  }

  /** The scheduler options of the header. */
  datatype SgeOption =
    | Shell | Notify | Queue | ParallelEnv(slots: string) | Exclusive
    | JobName(tag: string, index: nat) | Output(stem: CasePath)

  function OptionText(o: SgeOption): string {
    match o
    case Shell => "-S /bin/sh"
    case Notify => "-notify"
    case Queue => "-q compute.q"
    case ParallelEnv(n) => "-pe orte " + n
    case Exclusive => "-l exclusive=1"
    case JobName(t, i) => "-N " + t + "_" + NatToString(i)
    case Output(stem) => "-o " + PathText(stem) + ".std -j y"
  }

  /** The mpirun a FINE job starts its solver with. */
  datatype Launcher = OpenMpiRun | IntelBin64Run | IntelBinRun

  function LauncherText(l: Launcher): string {
    match l
    case OpenMpiRun => "${MPIR_HOME}/bin/mpirun"
    case IntelBin64Run => "${I_MPI_ROOT}/bin64/mpirun"
    case IntelBinRun => "${I_MPI_ROOT}/bin/mpirun"
  }

  /** The `-nbint`/`-nbreal` memory figures of a FINE/Turbo run. */
  datatype MemoryRequest = MemoryRequest(nbint: string, nbreal: string)

  /** One `sge.write` (or a few consecutive ones that form one shell line). */
  datatype Write =
    | Text(block: Block)
    | Banner(title: Title)                        // the title between two rules of '#'
    | Directive(option: SgeOption)                // "#$ <option>"
    | Assign(name: Var, value: Value)             // "NAME=value"
    | Setting(name: Var, value: Value)            // "NAME=value", "export NAME" and a blank line
    | ExportAssign(name: Var, value: Value)       // "export NAME=value"
    | Source(bin64: bool)                         // "source $I_MPI_ROOT/bin[64]/mpivars.sh"
    | FineBatch(partition: bool, memory: Option<MemoryRequest>)
    | MpiRun(launcher: Launcher)                  // "<mpirun> -np $NSLOTS ... -print"
    | HexpressRun                                 // the Hexpress/Hybrid command, no newline

  const Rule := "#########################################################################\n"

  // ---------------------------------------------------------------------------
  // Rendering

  function RenderWrite(w: Write): string {
    match w
    case Text(b) => BlockText(b)
    case Banner(t) => Rule + TitleText(t) + Rule
    case Directive(o) => "#$ " + OptionText(o) + "\n"
    case Assign(n, v) => VarName(n) + "=" + ValueText(v) + "\n"
    case Setting(n, v) => VarName(n) + "=" + ValueText(v) + "\n" + "export " + VarName(n) + "\n\n"
    case ExportAssign(n, v) => "export " + VarName(n) + "=" + ValueText(v) + "\n"
    case Source(b) => "source $I_MPI_ROOT/" + (if b then "bin64" else "bin") + "/mpivars.sh\n"
    case FineBatch(p, m) =>
      "fine${NUMECA_SOFT_VERSION} -print -batch " + (if p then "-partition" else "-parallel") +
      " -computation $RUNFILE -nproc $NB_BALANCE" +
      (match m
       case None => ""
       case Some(r) => " -nbint " + r.nbint + " -nbreal " + r.nbreal) + "\n"
    case MpiRun(l) => LauncherText(l) + " -np $NSLOTS $BIN $RUNFILE -steering $STEERINGFILE -print\n"
    case HexpressRun => "$BIN ${CONF_FILE} -numproc ${NSLOTS} -print"
  }

  /** The text of the file: the writes in order. */
  function Render(ws: seq<Write>): string {
    if |ws| == 0 then "" else RenderWrite(ws[0]) + Render(ws[1..])
  }

  /** Rendering distributes over concatenation. */
  lemma {:induction false} RenderAppend(a: seq<Write>, b: seq<Write>)
    ensures Render(a + b) == Render(a) + Render(b)
    decreases |a|
  {
    if |a| == 0 {
      assert a + b == b;
    } else {
      assert (a + b)[1..] == a[1..] + b;
      RenderAppend(a[1..], b);
    }
  }

  // ---------------------------------------------------------------------------
  // Version-dependent layout

  /** FINE/Turbo 12.x and FINE/Open 7.x on: Intel MPI 2017, OpenMPI 1.10.4, `lib64`, `bin64`. */
  predicate NewLayout(pkg: Package, gen: nat) {
    (pkg == FineTurbo && gen >= 12) || (pkg == FineOpen && gen >= 7)
  }

  /** The older FINE/Turbo and FINE/Open releases. Hexpress/Hybrid is in neither layout. */
  predicate OldLayout(pkg: Package, gen: nat) {
    (pkg == FineTurbo && gen < 12) || (pkg == FineOpen && gen < 7)
  }

  function PackageTag(pkg: Package): string {
    match pkg
    case FineTurbo => "FT"
    case FineOpen => "FO"
    case HexpressHybrid => "HH"
  }

  /** The value of NUMECA_SOFT_VERSION: FINE/Open and Hexpress/Hybrid are "open" builds. */
  function SoftVersion(pkg: Package, version: string): string {
    if pkg == FineTurbo then version else "open" + version
  }

  /** The job's output file stem: the .conf file for Hexpress/Hybrid, `<path>/<name>/<name>` otherwise. */
  function OutputStem(pkg: Package, path: string, name: string): CasePath {
    if pkg == HexpressHybrid then ConfPath(path, name) else FinePath(path, name, "")
  }

  /** The FINE/Turbo memory answers: a yes/no first, then ints and reals after a yes. */
  predicate MemoryAnswered(mem: seq<string>) {
    |mem| >= 1 && (mem[0] == "1" ==> |mem| >= 3)
  }

  function MemoryOf(mem: seq<string>): Option<MemoryRequest>
    requires MemoryAnswered(mem)
  {
    if mem[0] == "1" then Some(MemoryRequest(mem[1], mem[2])) else None
  }

  /**
   Everything one script depends on: the package, the project path, the
   computation's name and position in the list, the MPI library, the version
   string and its generation, the core count as typed, and (FINE/Turbo only) the
   memory answers and the partitioner answer.
   */
  datatype Job = Job(pkg: Package, path: string, name: string, index: nat, mpi: Option<MpiLibrary>,
                     version: string, gen: nat, cores: string, mem: seq<string>, parpar: string)
  {
    /** What the main block guarantees: a FINE job has an MPI library, Hexpress/Hybrid
        none; FINE/Turbo has its memory answers. */
    predicate Valid() {
      (pkg == HexpressHybrid <==> mpi.None?) &&
      (pkg == FineTurbo ==> MemoryAnswered(mem))
    }
  }

  // ---------------------------------------------------------------------------
  // The four emitters

  /** The job header: the shell, the scheduler directives and a blank line. */
  function JobHeader(path: string, name: string, index: nat, pkg: Package, cores: string): seq<Write> {
    [ Text(Shebang),
      Directive(Shell),
      Directive(Notify),
      Directive(Queue),
      Directive(ParallelEnv(cores)),
      Directive(Exclusive),
      Directive(JobName(PackageTag(pkg), index)),
      Directive(Output(OutputStem(pkg, path, name))),
      Text(Blank) ]
  }

  /** `write_numeca_settings`: the job header and the NUMECA installation. */
  function NumecaSettings(path: string, name: string, index: nat, version: string,
                          pkg: Package, cores: string): seq<Write>
  {
    JobHeader(path, name, index, pkg, cores) +
    [ Banner(NumecaTitle),
      Text(Blank),
      Setting(NiVersionsDir, Fixed(SharedSoftware)),
      Setting(NumecaSoftVersion, Given(SoftVersion(pkg, version))),
      Setting(NumecaDir, Fixed(FineInstall)),
      Setting(NumecaBin, Fixed(LinuxBin)),
      Setting(ShellPath, Fixed(UserPath)),
      Setting(TmpDir, Fixed(NumecaTmp)),
      ExportAssign(NumecaLicenseFile, Fixed(License)),
      Text(Blank) ]
  }

  /** The BIN line of the OpenMPI section. */
  function OpenMpiBinary(pkg: Package, gen: nat): seq<Write> {
    if gen >= 12 && pkg == FineTurbo then [Assign(Bin, Fixed(FineTurboOpenIccBin)), Text(Blank)]
    else if gen < 12 && pkg == FineTurbo then [Assign(Bin, Fixed(FineTurboOpenBin)), Text(Blank)]
    else if pkg == FineOpen then [Assign(Bin, Fixed(FineOpenOpenBin)), Text(Blank)]
    else [ExportAssign(Bin, Fixed(HexpressBin)), Text(Blank), Text(UnsetOmpThreads)]
  }

  /** `write_mpi_settings`: the Intel MPI section for "impi", the OpenMPI section otherwise. */
  function MpiSettings(mpi: Option<MpiLibrary>, gen: nat, pkg: Package): seq<Write> {
    if mpi == Some(IntelMpi) then
      [Banner(IntelTitle), Text(Blank)] +
      (if OldLayout(pkg, gen) then [Setting(IMpiRoot, Fixed(Impi503Root)), Source(false)]
       else [Setting(IMpiRoot, Fixed(Impi2017Root)), Source(true)]) +
      [ Text(FabricsComment),
        Setting(IMpiFabrics, Fixed(Infiniband)),
        ExportAssign(IMpiMpirunCleanup, Fixed(Enabled)), Text(Blank),
        Assign(Bin, Fixed(if pkg == FineTurbo then FineTurboIntelBin else FineOpenIntelBin)), Text(Blank) ]
    else
      [ Banner(OpenTitle), Text(Blank),
        Setting(MpirHome, Fixed(if NewLayout(pkg, gen) then Ompi1104Home else Ompi165Home)),
        ExportAssign(OpalPrefix, Fixed(MpirHomeRef)),
        Assign(OmpiOptions, Fixed(NoOptions)) ] +
      OpenMpiBinary(pkg, gen)
  }

  /** The `libpath` assignment: none for Intel MPI outside both layouts (Hexpress/Hybrid). */
  function LibPathLines(mpi: Option<MpiLibrary>, gen: nat, pkg: Package): seq<Write> {
    if mpi == Some(IntelMpi) then
      if NewLayout(pkg, gen) then [Assign(LibPath, Fixed(IntelLib64List)), Text(Blank)]
      else if OldLayout(pkg, gen) then [Assign(LibPath, Fixed(IntelLibList)), Text(Blank)]
      else []
    else [Assign(LibPath, Fixed(OpenLibList)), Text(Blank)]
  }

  /** `write_ld_library`: extend PATH and LD_LIBRARY_PATH with the MPI and NUMECA directories. */
  function LdLibrary(mpi: Option<MpiLibrary>, gen: nat, pkg: Package): seq<Write> {
    [ Banner(LdTitle), Text(Blank), Text(Blank),
      Assign(PathList, Fixed(
        if mpi == Some(IntelMpi) then (if gen >= 12 then IntelBin64List else IntelBinList)
        else OpenBinList)),
      Text(PathLoop) ] +
    LibPathLines(mpi, gen, pkg) +
    [Text(LibLoop), Text(Blank)]
  }

  /** The mpirun of a FINE job: OpenMPI's for "ompi", otherwise Intel's, from `bin64` in the new layout. */
  function LauncherFor(mpi: Option<MpiLibrary>, pkg: Package, gen: nat): Launcher {
    if mpi == Some(OpenMpi) then OpenMpiRun
    else if NewLayout(pkg, gen) then IntelBin64Run
    else IntelBinRun
  }

  /** `write_computation_settings`: the input files and the launch command(s). */
  function ComputationSettings(path: string, name: string, mpi: Option<MpiLibrary>, gen: nat,
                               pkg: Package, mem: seq<string>, parpar: string): seq<Write>
    requires pkg == FineTurbo ==> MemoryAnswered(mem)
  {
    [Banner(ComputationTitle), Text(Blank)] +
    if pkg == HexpressHybrid then
      [Assign(ConfFile, At(ConfPath(path, name))), HexpressRun, Text(Blank), Text(RunCommand)]
    else
      [ Assign(RunFile, At(FinePath(path, name, ".run"))), Text(Blank),
        Assign(SteeringFile, At(FinePath(path, name, ".steering"))), Text(Blank) ] +
      (if pkg == FineTurbo then
         [ Assign(NbBalance, Fixed(SlotsMinusOne)), Text(Blank),
           FineBatch(parpar == "1", MemoryOf(mem)), Text(Blank) ]
       else []) +
      [MpiRun(LauncherFor(mpi, pkg, gen))]
  }

  /**
   The whole script of a job. FINE/Turbo and FINE/Open write the MPI section
   before the library paths; the Hexpress/Hybrid launcher writes them the other
   way round.
   */
  function JobScript(j: Job): seq<Write>
    requires j.Valid()
  {
    var settings := NumecaSettings(j.path, j.name, j.index, j.version, j.pkg, j.cores);
    var mpi := MpiSettings(j.mpi, j.gen, j.pkg);
    var ld := LdLibrary(j.mpi, j.gen, j.pkg);
    var computation := ComputationSettings(j.path, j.name, j.mpi, j.gen, j.pkg, j.mem, j.parpar);
    if j.pkg == HexpressHybrid then settings + ld + mpi + computation
    else settings + mpi + ld + computation
  }

  // ---------------------------------------------------------------------------
  // Occurrence and order of writes

  /** `x` occurs in `ws` exactly once. */
  ghost predicate Once(ws: seq<Write>, x: Write) {
    exists i :: 0 <= i < |ws| && ws[i] == x && x !in ws[..i] && x !in ws[i + 1..]
  }

  /** Some occurrence of `x` precedes some occurrence of `y`. */
  ghost predicate Before(ws: seq<Write>, x: Write, y: Write) {
    exists i, k :: 0 <= i < k < |ws| && ws[i] == x && ws[k] == y
  }

  lemma OnceAppendLeft(a: seq<Write>, b: seq<Write>, x: Write)
    requires Once(a, x) && x !in b
    ensures Once(a + b, x)
  {
    var i :| 0 <= i < |a| && a[i] == x && x !in a[..i] && x !in a[i + 1..];
    assert (a + b)[..i] == a[..i] && (a + b)[i + 1..] == a[i + 1..] + b;
    assert (a + b)[i] == x;
  }

  lemma OnceAppendRight(a: seq<Write>, b: seq<Write>, x: Write)
    requires x !in a && Once(b, x)
    ensures Once(a + b, x)
  {
    var i :| 0 <= i < |b| && b[i] == x && x !in b[..i] && x !in b[i + 1..];
    assert (a + b)[..|a| + i] == a + b[..i] && (a + b)[|a| + i + 1..] == b[i + 1..];
    assert (a + b)[|a| + i] == x;
  }

  lemma OnceAppend(a: seq<Write>, b: seq<Write>, x: Write)
    requires (Once(a, x) && x !in b) || (x !in a && Once(b, x))
    ensures Once(a + b, x)
  {
    if x in b {
      OnceAppendRight(a, b, x);
    } else {
      OnceAppendLeft(a, b, x);
    }
  }

  /** An element found neither before nor after index `i` occurs exactly once. */
  lemma OnceAt(ws: seq<Write>, i: nat)
    requires i < |ws|
    requires ws[i] !in ws[..i] && ws[i] !in ws[i + 1..]
    ensures Once(ws, ws[i])
  {
  }

  lemma BeforeAppend(a: seq<Write>, b: seq<Write>, x: Write, y: Write)
    requires Before(a, x, y) || Before(b, x, y) || (x in a && y in b)
    ensures Before(a + b, x, y)
  {
    var ab := a + b;
    if Before(a, x, y) {
      var i, k :| 0 <= i < k < |a| && a[i] == x && a[k] == y;
      assert ab[i] == x && ab[k] == y;
    } else if Before(b, x, y) {
      var i, k :| 0 <= i < k < |b| && b[i] == x && b[k] == y;
      assert ab[|a| + i] == x && ab[|a| + k] == y;
    } else {
      var i :| 0 <= i < |a| && a[i] == x;
      var k :| 0 <= k < |b| && b[k] == y;
      assert ab[i] == x && ab[|a| + k] == y;
    }
  }

  // ---------------------------------------------------------------------------
  // Properties of the emitters

  /** The commands that start a computation. */
  predicate IsLaunch(w: Write) {
    w.FineBatch? || w.MpiRun? || w.HexpressRun?
  }

  /** The header asks for `cores` slots, names the job after the package and the
      computation's position, and sends the job's output next to the computation;
      each of these options is given once. */
  lemma HeaderDirectives(path: string, name: string, index: nat, pkg: Package, cores: string)
    ensures forall n :: Directive(ParallelEnv(n)) in JobHeader(path, name, index, pkg, cores) <==> n == cores
    ensures forall t, i :: Directive(JobName(t, i)) in JobHeader(path, name, index, pkg, cores) <==>
      t == PackageTag(pkg) && i == index
    ensures forall st :: Directive(Output(st)) in JobHeader(path, name, index, pkg, cores) <==>
      st == (if pkg == HexpressHybrid then ConfPath(path, name) else FinePath(path, name, ""))
  {
    HeaderSlots(path, name, index, pkg, cores);
    HeaderJobName(path, name, index, pkg, cores);
    HeaderOutput(path, name, index, pkg, cores);
  }

  lemma HeaderSlots(path: string, name: string, index: nat, pkg: Package, cores: string)
    ensures forall n :: Directive(ParallelEnv(n)) in JobHeader(path, name, index, pkg, cores) <==> n == cores
  {
  }

  lemma HeaderJobName(path: string, name: string, index: nat, pkg: Package, cores: string)
    ensures forall t, i :: Directive(JobName(t, i)) in JobHeader(path, name, index, pkg, cores) <==>
      t == PackageTag(pkg) && i == index
  {
  }

  lemma HeaderOutput(path: string, name: string, index: nat, pkg: Package, cores: string)
    ensures forall st :: Directive(Output(st)) in JobHeader(path, name, index, pkg, cores) <==>
      st == (if pkg == HexpressHybrid then ConfPath(path, name) else FinePath(path, name, ""))
  {
  }

  /** NUMECA_SOFT_VERSION is set once: the version for FINE/Turbo, "open" + version otherwise. */
  lemma SoftVersionSetting(path: string, name: string, index: nat, version: string,
                           pkg: Package, cores: string)
    ensures forall v :: Setting(NumecaSoftVersion, v) in NumecaSettings(path, name, index, version, pkg, cores) <==>
      v == Given(if pkg == FineTurbo then version else "open" + version)
  {
    var ws := NumecaSettings(path, name, index, version, pkg, cores);
    assert ws[12] == Setting(NumecaSoftVersion, Given(SoftVersion(pkg, version)));
    forall v | Setting(NumecaSoftVersion, v) in ws
      ensures v == Given(SoftVersion(pkg, version))
    {
      var i :| 0 <= i < |ws| && ws[i] == Setting(NumecaSoftVersion, v);
      assert i == 12;
    }
  }

  /** No launch command and no directive outside the sections that write them. */
  lemma NumecaSettingsLaunchesNothing(path: string, name: string, index: nat, version: string,
                                      pkg: Package, cores: string)
    ensures forall w :: w in NumecaSettings(path, name, index, version, pkg, cores) ==> !IsLaunch(w)
  {
  }

  lemma MpiSettingsLaunchesNothing(mpi: Option<MpiLibrary>, gen: nat, pkg: Package)
    ensures forall w :: w in MpiSettings(mpi, gen, pkg) ==> !IsLaunch(w) && !w.Directive?
  {
  }

  lemma LdLibraryLaunchesNothing(mpi: Option<MpiLibrary>, gen: nat, pkg: Package)
    ensures forall w :: w in LdLibrary(mpi, gen, pkg) ==> !IsLaunch(w) && !w.Directive?
  {
  }

  /** I_MPI_ROOT is set only for Intel MPI, to the 2017 installation unless the package
      is in the old layout; the matching `mpivars.sh` is sourced. */
  lemma IntelMpiRoot(mpi: Option<MpiLibrary>, gen: nat, pkg: Package)
    ensures forall v :: Setting(IMpiRoot, v) in MpiSettings(mpi, gen, pkg) <==>
      mpi == Some(IntelMpi) && v == Fixed(if OldLayout(pkg, gen) then Impi503Root else Impi2017Root)
    ensures forall b :: Source(b) in MpiSettings(mpi, gen, pkg) <==>
      mpi == Some(IntelMpi) && b == !OldLayout(pkg, gen)
  {
  }

  /** MPIR_HOME is set for anything but Intel MPI, to OpenMPI 1.10.4 iff the package is
      in the new layout. */
  lemma OpenMpiHome(mpi: Option<MpiLibrary>, gen: nat, pkg: Package)
    ensures forall v :: Setting(MpirHome, v) in MpiSettings(mpi, gen, pkg) <==>
      mpi != Some(IntelMpi) && v == Fixed(if NewLayout(pkg, gen) then Ompi1104Home else Ompi165Home)
  {
  }

  /** The PATH list uses Intel's `bin64` iff the generation is at least 12, whatever the
      package; the library list uses Intel's `lib64` iff the package is in the new layout. */
  lemma LdLibraryFacts(mpi: Option<MpiLibrary>, gen: nat, pkg: Package)
    ensures forall v :: Assign(PathList, v) in LdLibrary(mpi, gen, pkg) <==>
      v == Fixed(if mpi != Some(IntelMpi) then OpenBinList else if gen >= 12 then IntelBin64List else IntelBinList)
    ensures Assign(LibPath, Fixed(IntelLib64List)) in LdLibrary(mpi, gen, pkg) <==>
      mpi == Some(IntelMpi) && NewLayout(pkg, gen)
    ensures Assign(LibPath, Fixed(IntelLibList)) in LdLibrary(mpi, gen, pkg) <==>
      mpi == Some(IntelMpi) && OldLayout(pkg, gen)
    ensures Assign(LibPath, Fixed(OpenLibList)) in LdLibrary(mpi, gen, pkg) <==> mpi != Some(IntelMpi)
  {
  }

  /** The BIN line names the solver of the package and library. */
  lemma SolverBinary(mpi: Option<MpiLibrary>, gen: nat, pkg: Package)
    ensures forall v :: Assign(Bin, v) in MpiSettings(mpi, gen, pkg) <==>
      (mpi == Some(IntelMpi) && v == Fixed(if pkg == FineTurbo then FineTurboIntelBin else FineOpenIntelBin)) ||
      (mpi != Some(IntelMpi) && pkg == FineTurbo && v == Fixed(if gen >= 12 then FineTurboOpenIccBin else FineTurboOpenBin)) ||
      (mpi != Some(IntelMpi) && pkg == FineOpen && v == Fixed(FineOpenOpenBin))
  {
  }

  /** Hexpress/Hybrid on OpenMPI exports its BIN and unsets OMP_NUM_THREADS; nothing else does. */
  lemma HexpressBinary(mpi: Option<MpiLibrary>, gen: nat, pkg: Package)
    ensures forall v :: ExportAssign(Bin, v) in MpiSettings(mpi, gen, pkg) <==>
      mpi != Some(IntelMpi) && pkg == HexpressHybrid && v == Fixed(HexpressBin)
    ensures Text(UnsetOmpThreads) in MpiSettings(mpi, gen, pkg) <==> mpi != Some(IntelMpi) && pkg == HexpressHybrid
  {
  }

  lemma ComputationHasNoDirective(path: string, name: string, mpi: Option<MpiLibrary>, gen: nat,
                                  pkg: Package, mem: seq<string>, parpar: string)
    requires pkg == FineTurbo ==> MemoryAnswered(mem)
    ensures forall w :: w in ComputationSettings(path, name, mpi, gen, pkg, mem, parpar) ==> !w.Directive?
  {
  }

  /** A FINE job runs exactly one mpirun, `LauncherFor`'s; Hexpress/Hybrid runs none. */
  lemma ComputationMpiRun(path: string, name: string, mpi: Option<MpiLibrary>, gen: nat,
                          pkg: Package, mem: seq<string>, parpar: string)
    requires pkg == FineTurbo ==> MemoryAnswered(mem)
    ensures pkg != HexpressHybrid ==>
      Once(ComputationSettings(path, name, mpi, gen, pkg, mem, parpar), MpiRun(LauncherFor(mpi, pkg, gen)))
    ensures forall w :: w in ComputationSettings(path, name, mpi, gen, pkg, mem, parpar) && w.MpiRun? ==>
      pkg != HexpressHybrid && w == MpiRun(LauncherFor(mpi, pkg, gen))
  {
    var c := ComputationSettings(path, name, mpi, gen, pkg, mem, parpar);
    if pkg != HexpressHybrid {
      OnceAt(c, |c| - 1);
    }
  }

  /** Hexpress/Hybrid runs `$BIN ${CONF_FILE} -numproc ${NSLOTS} -print` exactly once; FINE jobs never. */
  lemma ComputationHexpressRun(path: string, name: string, mpi: Option<MpiLibrary>, gen: nat,
                               pkg: Package, mem: seq<string>, parpar: string)
    requires pkg == FineTurbo ==> MemoryAnswered(mem)
    ensures pkg == HexpressHybrid ==> Once(ComputationSettings(path, name, mpi, gen, pkg, mem, parpar), HexpressRun)
    ensures HexpressRun in ComputationSettings(path, name, mpi, gen, pkg, mem, parpar) ==> pkg == HexpressHybrid
  {
    var c := ComputationSettings(path, name, mpi, gen, pkg, mem, parpar);
    if pkg == HexpressHybrid {
      OnceAt(c, 3);
    }
  }

  /** FINE/Turbo alone runs one `fine -batch` step before the solver, with `-partition` iff
      the partitioner answer is "1" and the memory figures iff the memory answer is "1". */
  lemma ComputationFineBatch(path: string, name: string, mpi: Option<MpiLibrary>, gen: nat,
                             pkg: Package, mem: seq<string>, parpar: string)
    requires pkg == FineTurbo ==> MemoryAnswered(mem)
    ensures pkg == FineTurbo ==>
      Once(ComputationSettings(path, name, mpi, gen, pkg, mem, parpar),
           FineBatch(parpar == "1", if mem[0] == "1" then Some(MemoryRequest(mem[1], mem[2])) else None))
    ensures forall w :: w in ComputationSettings(path, name, mpi, gen, pkg, mem, parpar) && w.FineBatch? ==>
      pkg == FineTurbo && w.partition == (parpar == "1") &&
      w.memory == (if mem[0] == "1" then Some(MemoryRequest(mem[1], mem[2])) else None)
  {
    var c := ComputationSettings(path, name, mpi, gen, pkg, mem, parpar);
    if pkg == FineTurbo {
      OnceAt(c, 8);
    }
  }

  /** FINE jobs read `<path>/<name>/<name>.run` and `.steering`; Hexpress/Hybrid reads the
      .conf file `<path>/<name>`. */
  lemma ComputationInputs(path: string, name: string, mpi: Option<MpiLibrary>, gen: nat,
                          pkg: Package, mem: seq<string>, parpar: string)
    requires pkg == FineTurbo ==> MemoryAnswered(mem)
    ensures forall v :: Assign(RunFile, v) in ComputationSettings(path, name, mpi, gen, pkg, mem, parpar) <==>
      pkg != HexpressHybrid && v == At(FinePath(path, name, ".run"))
    ensures forall v :: Assign(SteeringFile, v) in ComputationSettings(path, name, mpi, gen, pkg, mem, parpar) <==>
      pkg != HexpressHybrid && v == At(FinePath(path, name, ".steering"))
    ensures forall v :: Assign(ConfFile, v) in ComputationSettings(path, name, mpi, gen, pkg, mem, parpar) <==>
      pkg == HexpressHybrid && v == At(ConfPath(path, name))
  {
    ComputationInput(path, name, mpi, gen, pkg, mem, parpar, RunFile);
    ComputationInput(path, name, mpi, gen, pkg, mem, parpar, SteeringFile);
    ComputationInput(path, name, mpi, gen, pkg, mem, parpar, ConfFile);
  }

  /** The value the computation section assigns to an input-file variable, if any. */
  function InputValue(path: string, name: string, pkg: Package, n: Var): Option<Value> {
    if pkg == HexpressHybrid then
      if n == ConfFile then Some(At(ConfPath(path, name))) else None
    else if n == RunFile then Some(At(FinePath(path, name, ".run")))
    else if n == SteeringFile then Some(At(FinePath(path, name, ".steering")))
    else None
  }

  lemma ComputationInput(path: string, name: string, mpi: Option<MpiLibrary>, gen: nat,
                         pkg: Package, mem: seq<string>, parpar: string, n: Var)
    requires pkg == FineTurbo ==> MemoryAnswered(mem)
    requires n == RunFile || n == SteeringFile || n == ConfFile
    ensures forall v :: Assign(n, v) in ComputationSettings(path, name, mpi, gen, pkg, mem, parpar) <==>
      InputValue(path, name, pkg, n) == Some(v)
  {
  }

  // ---------------------------------------------------------------------------
  // Section banners

  /** The title of the MPI section: Intel's for "impi", OpenMPI's otherwise. */
  function MpiTitle(mpi: Option<MpiLibrary>): (t: Title)
    ensures t == IntelTitle <==> mpi == Some(IntelMpi)
    ensures t != NumecaTitle && t != LdTitle && t != ComputationTitle
  {
    if mpi == Some(IntelMpi) then IntelTitle else OpenTitle
  }

  /** Each section opens with one banner, its own, and has no other. */
  lemma NumecaBanner(path: string, name: string, index: nat, version: string, pkg: Package, cores: string)
    ensures Once(NumecaSettings(path, name, index, version, pkg, cores), Banner(NumecaTitle))
    ensures forall w :: w in NumecaSettings(path, name, index, version, pkg, cores) && w.Banner? ==>
      w.title == NumecaTitle
  {
    OnceAt(NumecaSettings(path, name, index, version, pkg, cores), 9);
  }

  lemma MpiBanner(mpi: Option<MpiLibrary>, gen: nat, pkg: Package)
    ensures Once(MpiSettings(mpi, gen, pkg), Banner(MpiTitle(mpi)))
    ensures forall w :: w in MpiSettings(mpi, gen, pkg) && w.Banner? ==> w.title == MpiTitle(mpi)
  {
    OnceAt(MpiSettings(mpi, gen, pkg), 0);
  }

  lemma LdBanner(mpi: Option<MpiLibrary>, gen: nat, pkg: Package)
    ensures Once(LdLibrary(mpi, gen, pkg), Banner(LdTitle))
    ensures forall w :: w in LdLibrary(mpi, gen, pkg) && w.Banner? ==> w.title == LdTitle
  {
    OnceAt(LdLibrary(mpi, gen, pkg), 0);
  }

  lemma ComputationBanner(path: string, name: string, mpi: Option<MpiLibrary>, gen: nat,
                          pkg: Package, mem: seq<string>, parpar: string)
    requires pkg == FineTurbo ==> MemoryAnswered(mem)
    ensures Once(ComputationSettings(path, name, mpi, gen, pkg, mem, parpar), Banner(ComputationTitle))
  {
    var c := ComputationSettings(path, name, mpi, gen, pkg, mem, parpar);
    assert c[0] == Banner(ComputationTitle);
    ComputationBannerOnly(path, name, mpi, gen, pkg, mem, parpar);
    assert Banner(ComputationTitle) !in c[1..] by {
      forall w | w in c[1..] ensures w != Banner(ComputationTitle) {
        if w.Banner? {
          assert w in c[2..];
        }
      }
    }
    OnceAt(c, 0);
  }

  lemma ComputationBannerOnly(path: string, name: string, mpi: Option<MpiLibrary>, gen: nat,
                              pkg: Package, mem: seq<string>, parpar: string)
    requires pkg == FineTurbo ==> MemoryAnswered(mem)
    ensures forall w :: w in ComputationSettings(path, name, mpi, gen, pkg, mem, parpar) && w.Banner? ==>
      w.title == ComputationTitle
  {
  }

  /** An element found once in one of four sections and in none of the others occurs once
      in the four put together. */
  lemma OnceAmong(a: seq<Write>, b: seq<Write>, c: seq<Write>, d: seq<Write>, x: Write)
    requires (Once(a, x) && x !in b && x !in c && x !in d) || (x !in a && Once(b, x) && x !in c && x !in d) ||
             (x !in a && x !in b && Once(c, x) && x !in d) || (x !in a && x !in b && x !in c && Once(d, x))
    ensures Once(a + b + c + d, x)
  {
    if Once(a, x) || Once(b, x) {
      OnceAppend(a, b, x);
      OnceAppend(a + b, c, x);
    } else if Once(c, x) {
      OnceAppend(a + b, c, x);
    }
    OnceAppend(a + b + c, d, x);
  }

  /** An element of one section precedes any element of the next. */
  lemma BeforeAmong(a: seq<Write>, b: seq<Write>, c: seq<Write>, d: seq<Write>, x: Write, y: Write)
    requires (x in a && y in b) || (x in b && y in c) || (x in c && y in d)
    ensures Before(a + b + c + d, x, y)
  {
    if x in c && y in d {
    } else {
      if x in b && y in c {
      } else {
        BeforeAppend(a, b, x, y);
      }
      BeforeAppend(a + b, c, x, y);
    }
    BeforeAppend(a + b + c, d, x, y);
  }

  /** The section of a job script that opens with the banner `t`. */
  function Section(j: Job, t: Title): seq<Write>
    requires j.Valid()
  {
    match t
    case NumecaTitle => NumecaSettings(j.path, j.name, j.index, j.version, j.pkg, j.cores)
    case IntelTitle | OpenTitle => MpiSettings(j.mpi, j.gen, j.pkg)
    case LdTitle => LdLibrary(j.mpi, j.gen, j.pkg)
    case ComputationTitle => ComputationSettings(j.path, j.name, j.mpi, j.gen, j.pkg, j.mem, j.parpar)
  }

  /** The banners of a job script, in order: four distinct titles. */
  function ScriptTitles(j: Job): (ts: seq<Title>)
    ensures |ts| == 4 && forall k, l :: 0 <= k < l < 4 ==> ts[k] != ts[l]
  {
    if j.pkg == HexpressHybrid then [NumecaTitle, LdTitle, MpiTitle(j.mpi), ComputationTitle]
    else [NumecaTitle, MpiTitle(j.mpi), LdTitle, ComputationTitle]
  }

  /** A section whose banners all carry `own` holds no other banner. */
  lemma OnlyOwnBanner(ws: seq<Write>, own: Title, t: Title)
    requires forall w :: w in ws && w.Banner? ==> w.title == own
    ensures Banner(t) in ws ==> t == own
  {
  }

  /** Four sections, each opening with its own banner and no other, with four distinct
      titles: put together they hold each banner once, no other, in section order. */
  lemma ConcatBanners(a: seq<Write>, b: seq<Write>, c: seq<Write>, d: seq<Write>, ts: seq<Title>)
    requires |ts| == 4 && forall k, l :: 0 <= k < l < 4 ==> ts[k] != ts[l]
    requires Once(a, Banner(ts[0])) && Once(b, Banner(ts[1])) && Once(c, Banner(ts[2])) && Once(d, Banner(ts[3]))
    requires forall w :: w in a && w.Banner? ==> w.title == ts[0]
    requires forall w :: w in b && w.Banner? ==> w.title == ts[1]
    requires forall w :: w in c && w.Banner? ==> w.title == ts[2]
    requires forall w :: w in d && w.Banner? ==> w.title == ts[3]
    ensures forall k :: 0 <= k < 4 ==> Once(a + b + c + d, Banner(ts[k]))
    ensures forall w :: w in a + b + c + d && w.Banner? ==> w.title in ts
    ensures forall k :: 0 <= k < 3 ==> Before(a + b + c + d, Banner(ts[k]), Banner(ts[k + 1]))
  {
    var r := [a, b, c, d];
    assert forall k :: 0 <= k < 4 ==> Once(r[k], Banner(ts[k]));
    forall k | 0 <= k < 4 ensures Once(a + b + c + d, Banner(ts[k])) {
      OnlyOwnBanner(a, ts[0], ts[k]);
      OnlyOwnBanner(b, ts[1], ts[k]);
      OnlyOwnBanner(c, ts[2], ts[k]);
      OnlyOwnBanner(d, ts[3], ts[k]);
      OnceAmong(a, b, c, d, Banner(ts[k]));
    }
    forall k | 0 <= k < 3 ensures Before(a + b + c + d, Banner(ts[k]), Banner(ts[k + 1])) {
      var i :| 0 <= i < |r[k]| && r[k][i] == Banner(ts[k]);
      var i' :| 0 <= i' < |r[k + 1]| && r[k + 1][i'] == Banner(ts[k + 1]);
      BeforeAmong(a, b, c, d, Banner(ts[k]), Banner(ts[k + 1]));
    }
  }

  /** A job script is its four sections in the order of their banners. */
  lemma ScriptSections(j: Job)
    requires j.Valid()
    ensures var ts := ScriptTitles(j);
      JobScript(j) == Section(j, ts[0]) + Section(j, ts[1]) + Section(j, ts[2]) + Section(j, ts[3])
  {
  }

  /** The section a script banner opens holds that banner once and no other. */
  lemma SectionBanner(j: Job, t: Title)
    requires j.Valid() && t in ScriptTitles(j)
    ensures Once(Section(j, t), Banner(t))
    ensures forall w :: w in Section(j, t) && w.Banner? ==> w.title == t
  {
    match t
    case NumecaTitle => NumecaBanner(j.path, j.name, j.index, j.version, j.pkg, j.cores);
    case IntelTitle => MpiBanner(j.mpi, j.gen, j.pkg);
    case OpenTitle => MpiBanner(j.mpi, j.gen, j.pkg);
    case LdTitle => LdBanner(j.mpi, j.gen, j.pkg);
    case ComputationTitle =>
      ComputationBanner(j.path, j.name, j.mpi, j.gen, j.pkg, j.mem, j.parpar);
      ComputationBannerOnly(j.path, j.name, j.mpi, j.gen, j.pkg, j.mem, j.parpar);
  }

  /** Every section's banner is in the script exactly once, no other banner is, and they
      come in the order of `ScriptTitles`. */
  lemma ScriptBanners(j: Job)
    requires j.Valid()
    ensures forall k :: 0 <= k < 4 ==> Once(JobScript(j), Banner(ScriptTitles(j)[k]))
    ensures forall w :: w in JobScript(j) && w.Banner? ==> w.title in ScriptTitles(j)
    ensures forall k :: 0 <= k < 3 ==> Before(JobScript(j), Banner(ScriptTitles(j)[k]), Banner(ScriptTitles(j)[k + 1]))
  {
    var ts := ScriptTitles(j);
    SectionBanner(j, ts[0]);
    SectionBanner(j, ts[1]);
    SectionBanner(j, ts[2]);
    SectionBanner(j, ts[3]);
    ScriptSections(j);
    ConcatBanners(Section(j, ts[0]), Section(j, ts[1]), Section(j, ts[2]), Section(j, ts[3]), ts);
  }

  // ---------------------------------------------------------------------------
  // Launch commands in the whole script

  /** Everything a job script writes before its computation section. */
  function Preamble(j: Job): seq<Write>
    requires j.Valid()
  {
    var ts := ScriptTitles(j);
    Section(j, ts[0]) + Section(j, ts[1]) + Section(j, ts[2])
  }

  /** The preamble starts no computation, and the computation section ends the script. */
  lemma PreambleLaunchesNothing(j: Job)
    requires j.Valid()
    ensures JobScript(j) == Preamble(j) + Section(j, ComputationTitle)
    ensures forall w :: w in Preamble(j) ==> !IsLaunch(w)
  {
    ScriptSections(j);
    NumecaSettingsLaunchesNothing(j.path, j.name, j.index, j.version, j.pkg, j.cores);
    MpiSettingsLaunchesNothing(j.mpi, j.gen, j.pkg);
    LdLibraryLaunchesNothing(j.mpi, j.gen, j.pkg);
  }

  /** A launch command found once in the computation section is found once in the script,
      and every launch command of the script comes from the computation section. */
  lemma LaunchInScript(j: Job, x: Write)
    requires j.Valid() && IsLaunch(x)
    ensures Once(Section(j, ComputationTitle), x) ==> Once(JobScript(j), x)
    ensures forall w :: w in JobScript(j) && IsLaunch(w) ==> w in Section(j, ComputationTitle)
  {
    PreambleLaunchesNothing(j);
    if Once(Section(j, ComputationTitle), x) {
      OnceAppend(Preamble(j), Section(j, ComputationTitle), x);
    }
  }

  /** A FINE script runs `LauncherFor`'s mpirun exactly once and no other; a Hexpress/Hybrid
      script runs Hexpress exactly once and no mpirun. */
  lemma ScriptRuns(j: Job)
    requires j.Valid()
    ensures j.pkg != HexpressHybrid ==> Once(JobScript(j), MpiRun(LauncherFor(j.mpi, j.pkg, j.gen)))
    ensures forall w :: w in JobScript(j) && w.MpiRun? ==>
      j.pkg != HexpressHybrid && w == MpiRun(LauncherFor(j.mpi, j.pkg, j.gen))
    ensures j.pkg == HexpressHybrid ==> Once(JobScript(j), HexpressRun)
    ensures HexpressRun in JobScript(j) ==> j.pkg == HexpressHybrid
  {
    ComputationMpiRun(j.path, j.name, j.mpi, j.gen, j.pkg, j.mem, j.parpar);
    ComputationHexpressRun(j.path, j.name, j.mpi, j.gen, j.pkg, j.mem, j.parpar);
    LaunchInScript(j, MpiRun(LauncherFor(j.mpi, j.pkg, j.gen)));
    LaunchInScript(j, HexpressRun);
  }

  /** A FINE/Turbo script runs one `fine -batch` step, with the answers given; no other
      script runs one. */
  lemma ScriptFineBatch(j: Job)
    requires j.Valid()
    ensures j.pkg == FineTurbo ==>
      Once(JobScript(j), FineBatch(j.parpar == "1",
                                   if j.mem[0] == "1" then Some(MemoryRequest(j.mem[1], j.mem[2])) else None))
    ensures forall w :: w in JobScript(j) && w.FineBatch? ==>
      j.pkg == FineTurbo && w.partition == (j.parpar == "1") &&
      w.memory == (if j.mem[0] == "1" then Some(MemoryRequest(j.mem[1], j.mem[2])) else None)
  {
    ComputationFineBatch(j.path, j.name, j.mpi, j.gen, j.pkg, j.mem, j.parpar);
    if j.pkg == FineTurbo {
      LaunchInScript(j, FineBatch(j.parpar == "1", MemoryOf(j.mem)));
    } else {
      LaunchInScript(j, HexpressRun);
    }
  }

  // ---------------------------------------------------------------------------
  // The mpirun agrees with the MPI section

  /** The variable an mpirun's path starts from. */
  function LauncherHome(l: Launcher): Var {
    if l == OpenMpiRun then MpirHome else IMpiRoot
  }

  /** `ws` sets and exports `n`. */
  predicate SetsVar(ws: seq<Write>, n: Var) {
    exists w :: w in ws && w.Setting? && w.name == n
  }

  /** The mpirun of a FINE script starts from a variable its MPI section sets, and for
      Intel MPI it lies in the directory whose `mpivars.sh` that section sources. */
  lemma MpiRunMatchesMpiSection(j: Job)
    requires j.Valid() && j.pkg != HexpressHybrid
    ensures forall w :: w in JobScript(j) && w.MpiRun? ==> SetsVar(MpiSettings(j.mpi, j.gen, j.pkg), LauncherHome(w.launcher))
    ensures forall w :: w in JobScript(j) && w.MpiRun? && w.launcher != OpenMpiRun ==>
      Source(w.launcher == IntelBin64Run) in MpiSettings(j.mpi, j.gen, j.pkg)
  {
    var l := LauncherFor(j.mpi, j.pkg, j.gen);
    LauncherSourced(j.mpi, j.gen, j.pkg);
    ScriptRuns(j);
    assert forall w :: w in JobScript(j) && w.MpiRun? ==> w.launcher == l;
  }

  /** The MPI section of a FINE script provides what its mpirun needs. */
  lemma LauncherSourced(mpi: Option<MpiLibrary>, gen: nat, pkg: Package)
    requires mpi.Some? && pkg != HexpressHybrid
    ensures var l := LauncherFor(mpi, pkg, gen);
      SetsVar(MpiSettings(mpi, gen, pkg), LauncherHome(l)) &&
      (l != OpenMpiRun ==> Source(l == IntelBin64Run) in MpiSettings(mpi, gen, pkg))
  {
    MpiSectionHome(mpi, gen, pkg);
    if mpi == Some(IntelMpi) {
      IntelMpiRoot(mpi, gen, pkg);
    }
  }

  /** The MPI section sets the home of the mpirun `LauncherFor` picks. */
  lemma MpiSectionHome(mpi: Option<MpiLibrary>, gen: nat, pkg: Package)
    requires mpi.Some?
    ensures SetsVar(MpiSettings(mpi, gen, pkg), LauncherHome(LauncherFor(mpi, pkg, gen)))
  {
    var m := MpiSettings(mpi, gen, pkg);
    var w := m[2];
    match mpi.value
    case IntelMpi =>
      assert w == Setting(IMpiRoot, Fixed(if OldLayout(pkg, gen) then Impi503Root else Impi2017Root));
    case OpenMpi =>
      assert w == Setting(MpirHome, Fixed(if NewLayout(pkg, gen) then Ompi1104Home else Ompi165Home));
    assert w in m && w.Setting? && w.name == LauncherHome(LauncherFor(mpi, pkg, gen));
  }

  /** Hexpress/Hybrid scripts do not depend on the generation: the hh launcher passes
      the version string where the others pass the generation, and no branch it reaches
      looks at either. */
  lemma HexpressIgnoresGeneration(j: Job, gen: nat)
    requires j.Valid() && j.pkg == HexpressHybrid
    ensures j.(gen := gen).Valid()
    ensures JobScript(j.(gen := gen)) == JobScript(j)
  {
  }

  // ---------------------------------------------------------------------------
  // The text of a script

  /** Every script starts with the `#!/bin/sh` line. */
  lemma ScriptStartsWithShell(j: Job)
    requires j.Valid()
    ensures StartsWith(Render(JobScript(j)), "#!/bin/sh\n")
  {
    var ws := JobScript(j);
    assert ws[0] == Text(Shebang);
    assert Render(ws) == "#!/bin/sh\n" + Render(ws[1..]);
  }

  /** A rendering ends with the rendering of any tail of its writes. */
  lemma RenderEndsWith(a: seq<Write>, b: seq<Write>)
    ensures EndsWith(Render(a + b), Render(b))
  {
    RenderAppend(a, b);
  }

  /** The computation section ends with the mpirun for FINE jobs, and with the Hexpress
      command, a blank line and `$COMMAND` for Hexpress/Hybrid. */
  lemma ComputationTail(path: string, name: string, mpi: Option<MpiLibrary>, gen: nat,
                        pkg: Package, mem: seq<string>, parpar: string)
    requires pkg == FineTurbo ==> MemoryAnswered(mem)
    ensures pkg != HexpressHybrid ==>
      EndsWithWrites(ComputationSettings(path, name, mpi, gen, pkg, mem, parpar), [MpiRun(LauncherFor(mpi, pkg, gen))])
    ensures pkg == HexpressHybrid ==>
      EndsWithWrites(ComputationSettings(path, name, mpi, gen, pkg, mem, parpar), HexpressTail)
  {
    var c := ComputationSettings(path, name, mpi, gen, pkg, mem, parpar);
    if pkg == HexpressHybrid {
      assert c[|c| - 3..] == HexpressTail;
    } else {
      assert c[|c| - 1..] == [MpiRun(LauncherFor(mpi, pkg, gen))];
    }
  }

  /** The last three writes of a Hexpress/Hybrid script. */
  const HexpressTail := [HexpressRun, Text(Blank), Text(RunCommand)]

  predicate EndsWithWrites(ws: seq<Write>, tail: seq<Write>) {
    |tail| <= |ws| && ws[|ws| - |tail|..] == tail
  }

  /** The text of a sequence of writes ends with the text of its tail. */
  lemma RenderTail(ws: seq<Write>, tail: seq<Write>)
    requires EndsWithWrites(ws, tail)
    ensures EndsWith(Render(ws), Render(tail))
  {
    assert ws == ws[..|ws| - |tail|] + tail;
    RenderEndsWith(ws[..|ws| - |tail|], tail);
  }

  lemma RenderHexpressTail()
    ensures Render(HexpressTail) == RenderWrite(HexpressRun) + BlockText(Blank) + BlockText(RunCommand)
  {
    assert Render(HexpressTail[2..]) == BlockText(RunCommand) + Render([]);
    assert Render(HexpressTail[1..]) == BlockText(Blank) + Render(HexpressTail[2..]);
  }

  lemma EndsWithWritesAppend(a: seq<Write>, b: seq<Write>, tail: seq<Write>)
    requires EndsWithWrites(b, tail)
    ensures EndsWithWrites(a + b, tail)
  {
    assert (a + b)[|a + b| - |tail|..] == b[|b| - |tail|..];
  }

  /** The last writes of a script are those of its computation section. */
  lemma ScriptTail(j: Job)
    requires j.Valid()
    ensures j.pkg != HexpressHybrid ==> EndsWithWrites(JobScript(j), [MpiRun(LauncherFor(j.mpi, j.pkg, j.gen))])
    ensures j.pkg == HexpressHybrid ==> EndsWithWrites(JobScript(j), HexpressTail)
  {
    ScriptSections(j);
    assert JobScript(j) == Preamble(j) + Section(j, ComputationTitle);
    ComputationTail(j.path, j.name, j.mpi, j.gen, j.pkg, j.mem, j.parpar);
    var tail := if j.pkg == HexpressHybrid then HexpressTail else [MpiRun(LauncherFor(j.mpi, j.pkg, j.gen))];
    EndsWithWritesAppend(Preamble(j), Section(j, ComputationTitle), tail);
  }

  /** A FINE script ends with its mpirun line; a Hexpress/Hybrid script ends with the
      Hexpress command, a newline and `$COMMAND`, with no final newline. */
  lemma ScriptEnding(j: Job)
    requires j.Valid()
    ensures j.pkg != HexpressHybrid ==> EndsWith(Render(JobScript(j)), RenderWrite(MpiRun(LauncherFor(j.mpi, j.pkg, j.gen))))
    ensures j.pkg == HexpressHybrid ==>
      EndsWith(Render(JobScript(j)), RenderWrite(HexpressRun) + BlockText(Blank) + BlockText(RunCommand))
  {
    ScriptTail(j);
    if j.pkg == HexpressHybrid {
      RenderTail(JobScript(j), HexpressTail);
      RenderHexpressTail();
    } else {
      var tail := [MpiRun(LauncherFor(j.mpi, j.pkg, j.gen))];
      RenderTail(JobScript(j), tail);
      assert Render(tail) == RenderWrite(tail[0]) + Render([]);
    }
  }
}

=== FILE: uncertain_results.dfy ===
/**
 The `.his` statistics extractor: reads the history file of an uncertainty
 computation and writes `moments_global.dat`, one header line with the
 statistical moment names of each STATISTICS_NAMES block and one row of moment
 values per DESIGN_SAMPLE whose SIMULATION_PATH is a design directory.

 Lines are the file's lines as read; the output is everything written, as one
 string, in the order it is written.
 */
module UncertainResults {
  import opened PyStr

  /** The substring that marks a design directory. */
  const DesignDir := "_design_"

  datatype StatsState = StatsState(
    inNames: bool,         // inside a STATISTICS_NAMES block
    inSample: bool,        // inside a DESIGN_SAMPLE block
    name: Option<string>,  // the last name (unset until the first STATISTICS_NAMES block)
    values: seq<string>)   // the moment values of the current sample

  const Start := StatsState(false, false, None, [])

  /** `words` starts with the two tokens `first second` (more may follow). */
  predicate Marks(words: seq<string>, first: string, second: string) {
    |words| >= 2 && words[0] == first && words[1] == second
  }

  /** Each value followed by one space. */
  function Cells(vs: seq<string>): string {
    if |vs| == 0 then "" else vs[0] + " " + Cells(vs[1..])
  }

  /** A row: the values, each followed by a space, then a newline. */
  function Row(vs: seq<string>): string {
    Cells(vs) + "\n"
  }

  /** A row splits back into the values it was written from. */
  lemma {:induction false} RowReadsBack(vs: seq<string>)
    requires forall k :: 0 <= k < |vs| ==> IsToken(vs[k])
    ensures Split(Row(vs)) == vs
  {
    if |vs| == 0 {
      assert Split("\n") == [];
    } else {
      var rest := Row(vs[1..]);
      assert Row(vs) == vs[0] + (" " + rest);
      SplitOfTokenPrefixed(vs[0], " " + rest);
      SplitOfSpacePrefixed(' ', rest);
      RowReadsBack(vs[1..]);
      assert vs == [vs[0]] + vs[1..];
    }
  }

  /** The first half of an iteration: the two-token tests of the names block.
      None is the NameError of a STATISTICS_NAMES end before any beginning. */
  function NamesPart(st: StatsState, words: seq<string>): Option<(StatsState, string)> {
    if |words| != 2 then Some((st, ""))
    else if IsPair(words, "NI_BEGIN", "STATISTICS_NAMES") then Some((st.(inNames := true, name := Some("")), ""))
    else if IsPair(words, "NI_END", "STATISTICS_NAMES") then
      if st.name.None? then None else Some((st.(inNames := false), "\n"))
    else if st.inNames && words[0] == "STATISTICS" then Some((st.(name := Some(words[1])), words[1] + " "))
    else Some((st, ""))
  }

  /** The second half: the tests of the sample block, for lines of two or more tokens. */
  function SamplePart(st: StatsState, words: seq<string>): (StatsState, string) {
    if |words| < 2 then (st, "")
    else if Marks(words, "NI_BEGIN", "DESIGN_SAMPLE") then (st.(inSample := true, values := []), "")
    else if Marks(words, "NI_END", "DESIGN_SAMPLE") then (st.(inSample := false), "")
    else if !st.inSample then (st, "")
    else if Contains(words[0], "DESIGN_STATISTICS") then (st.(values := words[1..]), "")
    else if words[0] == "SIMULATION_PATH" && Contains(words[1], DesignDir) then (st, Row(st.values))
    else (st, "")
  }

  /** One iteration of the loop: both halves, the second on the state the first left. */
  function Step(st: StatsState, line: string): Option<(StatsState, string)> {
    var words := Split(line);
    match NamesPart(st, words)
    case None => None
    case Some((s1, o1)) =>
      var (s2, o2) := SamplePart(s1, words);
      Some((s2, o1 + o2))
  }

  /** The loop over the lines: the final state and everything written. */
  function Run(st: StatsState, lines: seq<string>): Option<(StatsState, string)>
    decreases |lines|
  {
    if |lines| == 0 then Some((st, ""))
    else match Step(st, lines[0])
      case None => None
      case Some((s1, o1)) =>
        match Run(s1, lines[1..])
        case None => None
        case Some((s2, o2)) => Some((s2, o1 + o2))
  }

  /** What the loop has written when it ends: everything, or on the NameError what
      the lines before the failing one wrote. */
  function Partial(st: StatsState, lines: seq<string>): string
    decreases |lines|
  {
    if |lines| == 0 then ""
    else match Step(st, lines[0])
      case None => ""
      case Some((s1, o1)) => o1 + Partial(s1, lines[1..])
  }

  /**
   The result of the script: no input file means an error message and no output
   file at all, because the input is opened first. Otherwise `moments_global.dat`
   is opened before the loop, so on the NameError it keeps what was written
   before the failing line.
   */
  datatype Moments = NoInput | NameFailure(text: string) | Written(text: string)

  function Extract(input: Option<seq<string>>): Moments {
    match input
    case None => NoInput
    case Some(lines) =>
      match Run(Start, lines)
      case None => NameFailure(Partial(Start, lines))
      case Some((_, text)) => Written(text)
  }

  /** On a loop that runs through, what was written is the loop's whole output. */
  lemma {:induction false} PartialOfRun(st: StatsState, lines: seq<string>)
    requires Run(st, lines).Some?
    ensures Partial(st, lines) == Run(st, lines).value.1
    decreases |lines|
  {
    if |lines| > 0 {
      PartialOfRun(Step(st, lines[0]).value.0, lines[1..]);
    }
  }

  /** A line that fails after `a` ran through leaves exactly `a`'s output, whatever follows. */
  lemma {:induction false} PartialAtFailure(st: StatsState, a: seq<string>, line: string, b: seq<string>)
    requires Run(st, a).Some? && Step(Run(st, a).value.0, line).None?
    ensures Partial(st, a + [line] + b) == Run(st, a).value.1
    decreases |a|
  {
    var lines := a + [line] + b;
    if |a| == 0 {
      assert lines[0] == line;
    } else {
      assert lines[0] == a[0];
      assert lines[1..] == a[1..] + [line] + b;
      var s1 := Step(st, a[0]).value.0;
      PartialAtFailure(s1, a[1..], line, b);
    }
  }

  /** Running two pieces one after the other is running their concatenation. */
  lemma {:induction false} RunAppend(st: StatsState, a: seq<string>, b: seq<string>)
    ensures Run(st, a + b) ==
      match Run(st, a)
      case None => None
      case Some((s1, o1)) =>
        match Run(s1, b)
        case None => None
        case Some((s2, o2)) => Some((s2, o1 + o2))
    decreases |a|
  {
    if |a| == 0 {
      assert a + b == b;
      match Run(st, b)
      case None =>
      case Some((s2, o2)) => EmptyConcat(o2);
    } else {
      assert (a + b)[0] == a[0];
      assert (a + b)[1..] == a[1..] + b;
      match Step(st, a[0])
      case None =>
      case Some((s1, o1)) =>
        RunAppend(s1, a[1..], b);
        match Run(s1, a[1..])
        case None =>
        case Some((s2, o2)) =>
          match Run(s2, b)
          case None =>
          case Some((s3, o3)) =>
            ConcatAssociative(o1, o2, o3);
    }
  }

  /** Three pieces that each run through, run through together. */
  lemma RunThree(st: StatsState, a: seq<string>, b: seq<string>, c: seq<string>,
                 s1: StatsState, o1: string, s2: StatsState, o2: string, s3: StatsState, o3: string)
    requires Run(st, a) == Some((s1, o1)) && Run(s1, b) == Some((s2, o2)) && Run(s2, c) == Some((s3, o3))
    ensures Run(st, a + b + c) == Some((s3, o1 + o2 + o3))
  {
    RunAppend(st, a, b);
    RunAppend(st, a + b, c);
  }

  /** One line run on its own is one step. */
  lemma RunOne(st: StatsState, line: string, s1: StatsState, o1: string)
    requires Step(st, line) == Some((s1, o1))
    ensures Run(st, [line]) == Some((s1, o1))
  {
    assert [line][1..] == [];
    assert o1 + "" == o1;
  }

  // ---------------------------------------------------------------------------
  // The names block

  lemma NamesBegin(st: StatsState, line: string)
    requires !st.inSample && IsPair(Split(line), "NI_BEGIN", "STATISTICS_NAMES")
    ensures Step(st, line) == Some((st.(inNames := true, name := Some("")), ""))
  {
    assert "" + "" == "";
  }

  lemma NamesEnd(st: StatsState, line: string)
    requires !st.inSample && st.name.Some? && IsPair(Split(line), "NI_END", "STATISTICS_NAMES")
    ensures Step(st, line) == Some((st.(inNames := false), "\n"))
  {
    assert "\n" + "" == "\n";
  }

  lemma NamesStatistics(st: StatsState, line: string, name: string)
    requires st.inNames && !st.inSample && IsPair(Split(line), "STATISTICS", name)
    ensures Step(st, line) == Some((st.(name := Some(name)), name + " "))
  {
    assert name + " " + "" == name + " ";
  }

  /** Inside a names block, each `STATISTICS <name>` line writes the name and a space. */
  lemma {:induction false} NamesBody(st: StatsState, body: seq<string>, names: seq<string>)
    requires st.inNames && !st.inSample && st.name.Some?
    requires |body| == |names|
    requires forall i :: 0 <= i < |body| ==> IsPair(Split(body[i]), "STATISTICS", names[i])
    ensures Run(st, body) ==
      Some((st.(name := if |names| == 0 then st.name else Some(names[|names| - 1])), Cells(names)))
    decreases |body|
  {
    if |body| > 0 {
      var s1 := st.(name := Some(names[0]));
      NamesStatistics(st, body[0], names[0]);
      NamesBody(s1, body[1..], names[1..]);
    }
  }

  /** A whole names block writes the header row of its names and leaves the last
      name set. */
  lemma NamesBlock(st: StatsState, begin: string, body: seq<string>, end: string, names: seq<string>)
    requires !st.inSample
    requires IsPair(Split(begin), "NI_BEGIN", "STATISTICS_NAMES") && IsPair(Split(end), "NI_END", "STATISTICS_NAMES")
    requires |body| == |names|
    requires forall i :: 0 <= i < |body| ==> IsPair(Split(body[i]), "STATISTICS", names[i])
    ensures Run(st, [begin] + body + [end]) ==
      Some((st.(inNames := false, name := Some(if |names| == 0 then "" else names[|names| - 1])), Row(names)))
  {
    var s1 := st.(inNames := true, name := Some(""));
    NamesBegin(st, begin);
    RunOne(st, begin, s1, "");
    NamesBody(s1, body, names);
    var s2 := s1.(name := if |names| == 0 then s1.name else Some(names[|names| - 1]));
    NamesEnd(s2, end);
    RunOne(s2, end, s2.(inNames := false), "\n");
    RunThree(st, [begin], body, [end], s1, "", s2, Cells(names), s2.(inNames := false), "\n");
    EmptyConcat(Cells(names));
  }

  // ---------------------------------------------------------------------------
  // A design sample, stated independently of the loop

  /** A line inside a sample that opens or closes no block of either kind. */
  predicate BodyLine(line: string) {
    var words := Split(line);
    !IsPair(words, "NI_BEGIN", "STATISTICS_NAMES") && !IsPair(words, "NI_END", "STATISTICS_NAMES") &&
    !Marks(words, "NI_BEGIN", "DESIGN_SAMPLE") && !Marks(words, "NI_END", "DESIGN_SAMPLE")
  }

  predicate IsStatsLine(line: string) {
    var words := Split(line);
    |words| >= 2 && Contains(words[0], "DESIGN_STATISTICS")
  }

  predicate IsDesignPath(line: string) {
    var words := Split(line);
    |words| >= 2 && words[0] == "SIMULATION_PATH" && Contains(words[1], DesignDir)
  }

  /** The values after the lines `p` of a sample: the tokens after the first token of
      the latest statistics line, or `v0` when there is none. */
  function LatestValues(v0: seq<string>, p: seq<string>): seq<string> {
    if |p| == 0 then v0
    else if IsStatsLine(p[|p| - 1]) then Split(p[|p| - 1])[1..]
    else LatestValues(v0, p[..|p| - 1])
  }

  /** The rows the lines `p` of a sample write: one per design path, holding the
      values in force at that line. */
  function SampleRows(v0: seq<string>, p: seq<string>): string {
    if |p| == 0 then ""
    else
      var q := p[..|p| - 1];
      SampleRows(v0, q) +
        if !IsStatsLine(p[|p| - 1]) && IsDesignPath(p[|p| - 1]) then Row(LatestValues(v0, q)) else ""
  }

  lemma SampleStep(st: StatsState, line: string)
    requires st.inSample && !st.inNames && BodyLine(line)
    ensures Step(st, line) ==
      Some((st.(values := LatestValues(st.values, [line])),
            if !IsStatsLine(line) && IsDesignPath(line) then Row(st.values) else ""))
  {
    assert [line][..0] == [];
    assert NamesPart(st, Split(line)) == Some((st, ""));
    var (s2, o2) := SamplePart(st, Split(line));
    assert "" + o2 == o2;
  }

  lemma {:induction false} SampleBody(st: StatsState, p: seq<string>)
    requires st.inSample && !st.inNames
    requires forall i :: 0 <= i < |p| ==> BodyLine(p[i])
    ensures Run(st, p) == Some((st.(values := LatestValues(st.values, p)), SampleRows(st.values, p)))
    decreases |p|
  {
    if |p| > 0 {
      var q := p[..|p| - 1];
      var l := p[|p| - 1];
      assert p == q + [l];
      SampleBody(st, q);
      var s1 := st.(values := LatestValues(st.values, q));
      SampleStep(s1, l);
      var o := if !IsStatsLine(l) && IsDesignPath(l) then Row(s1.values) else "";
      RunOne(s1, l, s1.(values := LatestValues(s1.values, [l])), o);
      RunAppend(st, q, [l]);
    }
  }

  lemma SampleBegin(st: StatsState, line: string)
    requires !st.inNames && Marks(Split(line), "NI_BEGIN", "DESIGN_SAMPLE")
    ensures Step(st, line) == Some((st.(inSample := true, values := []), ""))
  {
    assert "" + "" == "";
  }

  lemma SampleEnd(st: StatsState, line: string)
    requires !st.inNames && Marks(Split(line), "NI_END", "DESIGN_SAMPLE")
    ensures Step(st, line) == Some((st.(inSample := false), ""))
  {
    assert "" + "" == "";
  }

  /** A whole design sample writes one row per design path in it, in order, each the
      values of the latest statistics line before it in the sample (none if there
      is no such line: the values reset when the sample begins). */
  lemma SampleBlock(st: StatsState, begin: string, body: seq<string>, end: string)
    requires !st.inNames
    requires Marks(Split(begin), "NI_BEGIN", "DESIGN_SAMPLE") && Marks(Split(end), "NI_END", "DESIGN_SAMPLE")
    requires forall i :: 0 <= i < |body| ==> BodyLine(body[i])
    ensures Run(st, [begin] + body + [end]) ==
      Some((st.(inSample := false, values := LatestValues([], body)), SampleRows([], body)))
  {
    var s1 := st.(inSample := true, values := []);
    SampleBegin(st, begin);
    RunOne(st, begin, s1, "");
    SampleBody(s1, body);
    var s2 := s1.(values := LatestValues([], body));
    SampleEnd(s2, end);
    RunOne(s2, end, s2.(inSample := false), "");
    RunThree(st, [begin], body, [end], s1, "", s2, SampleRows([], body), s2.(inSample := false), "");
    EmptyConcat(SampleRows([], body));
  }

  /** Outside both kinds of block, a line that opens or closes none writes nothing. */
  lemma OutsideBlocksSilent(st: StatsState, line: string)
    requires !st.inNames && !st.inSample && BodyLine(line)
    ensures Step(st, line) == Some((st, ""))
  {
    assert NamesPart(st, Split(line)) == Some((st, ""));
    assert SamplePart(st, Split(line)) == (st, "");
    EmptyConcat("");
  }

  // ---------------------------------------------------------------------------
  // When the script fails

  /** A names block ends before any has begun. */
  predicate EndBeforeBegin(lines: seq<string>) {
    exists i :: 0 <= i < |lines| && IsPair(Split(lines[i]), "NI_END", "STATISTICS_NAMES") &&
      forall j :: 0 <= j < i ==> !IsPair(Split(lines[j]), "NI_BEGIN", "STATISTICS_NAMES")
  }

  /** Once a name is set the loop cannot fail. */
  lemma {:induction false} NamedRunSucceeds(st: StatsState, lines: seq<string>)
    requires st.name.Some?
    ensures Run(st, lines).Some?
    decreases |lines|
  {
    if |lines| > 0 {
      NamedRunSucceeds(Step(st, lines[0]).value.0, lines[1..]);
    }
  }

  /** Before any name is set, the loop fails exactly when a names block ends before
      one begins. */
  lemma {:induction false} UnnamedRunFails(st: StatsState, lines: seq<string>)
    requires st.name.None? && !st.inNames
    ensures Run(st, lines).None? <==> EndBeforeBegin(lines)
    decreases |lines|
  {
    if |lines| > 0 {
      var w := Split(lines[0]);
      if IsPair(w, "NI_END", "STATISTICS_NAMES") {
        assert EndBeforeBegin(lines) by {
          assert IsPair(Split(lines[0]), "NI_END", "STATISTICS_NAMES");
        }
      } else if IsPair(w, "NI_BEGIN", "STATISTICS_NAMES") {
        NamedRunSucceeds(Step(st, lines[0]).value.0, lines[1..]);
        forall i | 0 <= i < |lines| && IsPair(Split(lines[i]), "NI_END", "STATISTICS_NAMES")
          ensures 0 < i && IsPair(Split(lines[0]), "NI_BEGIN", "STATISTICS_NAMES")
        {
          assert i != 0 by {
            assert Split(lines[0])[0] == "NI_BEGIN";
          }
        }
      } else {
        var s1 := Step(st, lines[0]).value.0;
        UnnamedRunFails(s1, lines[1..]);
        if EndBeforeBegin(lines[1..]) {
          var i :| 0 <= i < |lines[1..]| && IsPair(Split(lines[1..][i]), "NI_END", "STATISTICS_NAMES") &&
            forall j :: 0 <= j < i ==> !IsPair(Split(lines[1..][j]), "NI_BEGIN", "STATISTICS_NAMES");
          assert IsPair(Split(lines[i + 1]), "NI_END", "STATISTICS_NAMES");
          assert forall j :: 0 <= j < i + 1 ==> !IsPair(Split(lines[j]), "NI_BEGIN", "STATISTICS_NAMES") by {
            forall j | 0 <= j < i + 1
              ensures !IsPair(Split(lines[j]), "NI_BEGIN", "STATISTICS_NAMES")
            {
              if j > 0 {
                assert lines[j] == lines[1..][j - 1];
              }
            }
          }
        }
        if EndBeforeBegin(lines) {
          var i :| 0 <= i < |lines| && IsPair(Split(lines[i]), "NI_END", "STATISTICS_NAMES") &&
            forall j :: 0 <= j < i ==> !IsPair(Split(lines[j]), "NI_BEGIN", "STATISTICS_NAMES");
          assert i > 0;
          assert lines[1..][i - 1] == lines[i];
          assert forall j :: 0 <= j < i - 1 ==> lines[1..][j] == lines[j + 1];
        }
      }
    }
  }

  /** The script fails (NameError) exactly when a STATISTICS_NAMES block ends before
      any has begun; without an input file nothing is written. */
  lemma ExtractOutcome(input: Option<seq<string>>)
    ensures input.None? <==> Extract(input) == NoInput
    ensures input.Some? ==> (Extract(input).NameFailure? <==> EndBeforeBegin(input.value))
    ensures input.Some? && Run(Start, input.value).Some? ==> Extract(input) == Written(Run(Start, input.value).value.1)
  {
    if input.Some? {
      UnnamedRunFails(Start, input.value);
    }
  }

  /** On the NameError the output file keeps what the lines before the failing one
      wrote, and nothing from the lines after it. */
  lemma ExtractKeepsPrefix(a: seq<string>, line: string, b: seq<string>)
    requires Run(Start, a).Some? && Step(Run(Start, a).value.0, line).None?
    ensures Extract(Some(a + [line] + b)) == NameFailure(Run(Start, a).value.1)
  {
    RunAppend(Start, a, [line] + b);
    assert a + [line] + b == a + ([line] + b);
    PartialAtFailure(Start, a, line, b);
  }
}

=== FILE: version.dfy ===
/**
 `major_version` of the batch-job generator: the "generation" of a NUMECA
 version string ("112" -> 11, "121b10" -> 12).

 The code first tries `float(version)`; failing that it matches
 `([0-9]+)\w+([0-9]+)` and then `([0-9]+)([a-zA-Z]+)` with `re.match`, and
 divides group 1 by ten. `re.match` backtracks, so group 1 of the first pattern
 is not always the whole leading number: "112rc" yields group "1", generation 0.
 The regular expressions are given their meaning here as ghost predicates; a
 backtracking reference function and a one-pass scanning method are both
 proved against them.
 */
module Version {
  import opened PyStr

  /** `\w` in a Python 2 pattern without flags: [A-Za-z0-9_]. */
  predicate IsWordChar(c: char) {
    ('a' <= c <= 'z') || ('A' <= c <= 'Z') || IsDigit(c) || c == '_'
  }

  predicate IsLetter(c: char) {
    ('a' <= c <= 'z') || ('A' <= c <= 'Z')
  }

  predicate AllWord(s: string) {
    forall i :: 0 <= i < |s| ==> IsWordChar(s[i])
  }

  /** `is_float(version)`, on the strings this model admits as floats: non-empty digit strings. */
  predicate IsFloat(s: string) {
    |s| > 0 && AllDigits(s)
  }

  // ---------------------------------------------------------------------------
  // What the two patterns mean

  /** `([0-9]+)\w+([0-9]+)` matches at the start of `s` with group 1 = `s[..k]`:
      `\w+` covers `s[k..j]` and the second group starts with the digit `s[j]`. */
  ghost predicate AlphaBetaSplit(s: string, k: nat) {
    1 <= k <= |s| && AllDigits(s[..k]) &&
    exists j :: k < j < |s| && AllWord(s[k..j]) && IsDigit(s[j])
  }

  /** The greedy `[0-9]+` is tried longest first, so group 1 is the longest split that matches. */
  ghost predicate IsAlphaBetaGroup(s: string, k: nat) {
    AlphaBetaSplit(s, k) && forall k' :: k < k' <= |s| ==> !AlphaBetaSplit(s, k')
  }

  /** `([0-9]+)([a-zA-Z]+)` matches at the start of `s` with group 1 = `s[..k]`. */
  ghost predicate RcSplit(s: string, k: nat) {
    1 <= k < |s| && AllDigits(s[..k]) && IsLetter(s[k])
  }

  ghost predicate IsRcGroup(s: string, k: nat) {
    RcSplit(s, k) && forall k' :: k < k' <= |s| ==> !RcSplit(s, k')
  }

  lemma AlphaBetaGroupUnique(s: string, k1: nat, k2: nat)
    requires IsAlphaBetaGroup(s, k1) && IsAlphaBetaGroup(s, k2)
    ensures k1 == k2
  {
  }

  // ---------------------------------------------------------------------------
  // Backtracking reference

  /** Length of the run of digits at the start of `s`. */
  function DigitRun(s: string): (d: nat)
    ensures d <= |s| && AllDigits(s[..d])
    ensures d == |s| || !IsDigit(s[d])
  {
    if |s| == 0 || !IsDigit(s[0]) then 0
    else
      var d := 1 + DigitRun(s[1..]);
      assert forall i :: 1 <= i < d ==> s[..d][i] == s[1..][..d - 1][i - 1];
      d
  }

  /** A group 1 made of digits cannot reach past the leading digit run. */
  lemma {:induction false} DigitPrefixWithinRun(s: string, k: nat)
    requires k <= |s| && AllDigits(s[..k])
    ensures k <= DigitRun(s)
    decreases k
  {
    if k > 0 {
      assert IsDigit(s[..k][0]);
      assert AllDigits(s[1..][..k - 1]) by {
        assert s[1..][..k - 1] == s[..k][1..];
      }
      DigitPrefixWithinRun(s[1..], k - 1);
    }
  }

  /** `\w+([0-9]+)` from `k` on: some digit `s[j']`, `j' >= j`, with `s[k..j']` all word characters. */
  function DigitAhead(s: string, k: nat, j: nat): (b: bool)
    requires k < j <= |s| && AllWord(s[k..j])
    ensures b <==> exists j' :: j <= j' < |s| && AllWord(s[k..j']) && IsDigit(s[j'])
    decreases |s| - j
  {
    if j == |s| then false
    else if IsDigit(s[j]) then true
    else if IsWordChar(s[j]) then
      assert s[k..j + 1] == s[k..j] + [s[j]];
      DigitAhead(s, k, j + 1)
    else
      assert forall j' :: j < j' < |s| ==> s[k..j'][j - k] == s[j];
      false
  }

  /** Try group-1 lengths `k`, `k - 1`, ..., 1, as the backtracking matcher does. */
  function TryAlphaBeta(s: string, k: nat): (r: Option<nat>)
    requires k <= DigitRun(s)
    requires forall k' :: k < k' <= |s| ==> !AlphaBetaSplit(s, k')
    ensures r.Some? ==> IsAlphaBetaGroup(s, r.value)
    ensures r.None? ==> forall k' :: !AlphaBetaSplit(s, k')
    decreases k
  {
    if k == 0 then None
    else
      assert AllDigits(s[..k]) by {
        assert forall i :: 0 <= i < k ==> s[..k][i] == s[..DigitRun(s)][i];
      }
      if k < |s| && IsWordChar(s[k]) && (assert s[k..k + 1] == [s[k]]; DigitAhead(s, k, k + 1)) then
        Some(k)
      else
        TryAlphaBeta(s, k - 1)
  }

  /** Group 1 of `([0-9]+)\w+([0-9]+)` matched against `s`, or None when it does not match. */
  function AlphaBetaGroup(s: string): (r: Option<nat>)
    ensures r.Some? ==> IsAlphaBetaGroup(s, r.value)
    ensures r.None? ==> forall k :: !AlphaBetaSplit(s, k)
  {
    forall k' | DigitRun(s) < k' <= |s| ensures !AlphaBetaSplit(s, k') {
      if AlphaBetaSplit(s, k') {
        DigitPrefixWithinRun(s, k');
      }
    }
    TryAlphaBeta(s, DigitRun(s))
  }

  /** Group 1 of `([0-9]+)([a-zA-Z]+)` matched against `s`, or None when it does not match. */
  function RcGroup(s: string): (r: Option<nat>)
    ensures r.Some? ==> IsRcGroup(s, r.value)
    ensures r.None? ==> forall k :: !RcSplit(s, k)
  {
    var d := DigitRun(s);
    forall k: nat | RcSplit(s, k) ensures k == d {
      DigitPrefixWithinRun(s, k);
    }
    if 1 <= d < |s| && IsLetter(s[d]) then Some(d) else None
  }

  /**
   `major_version(version)`: the leading number of the version divided by ten
   (integer division), where "leading number" is the whole string when it is all
   digits and otherwise group 1 of the first pattern that matches. None is the
   uncaught AttributeError raised when neither pattern matches.
   */
  function MajorVersion(version: string): (r: Option<nat>)
    ensures IsFloat(version) ==> r == Some(DigitsValue(version) / 10)
    ensures forall k: nat :: !IsFloat(version) && IsAlphaBetaGroup(version, k) ==>
      AllDigits(version[..k]) && r == Some(DigitsValue(version[..k]) / 10)
    ensures forall k: nat ::
      (!IsFloat(version) && (forall k': nat :: !AlphaBetaSplit(version, k')) && IsRcGroup(version, k)) ==>
      AllDigits(version[..k]) && r == Some(DigitsValue(version[..k]) / 10)
    ensures r.None? <==>
      (!IsFloat(version) && (forall k: nat :: !AlphaBetaSplit(version, k)) &&
       (forall k: nat :: !RcSplit(version, k)))
  {
    if IsFloat(version) then Some(DigitsValue(version) / 10)
    else
      match AlphaBetaGroup(version)
      case Some(k) =>
        forall k': nat | IsAlphaBetaGroup(version, k') ensures k' == k {
          AlphaBetaGroupUnique(version, k, k');
        }
        Some(DigitsValue(version[..k]) / 10)
      case None =>
        match RcGroup(version)
        case Some(k) => Some(DigitsValue(version[..k]) / 10)
        case None => None
  }

  // ---------------------------------------------------------------------------
  // One-pass implementation

  /** What a split of the first pattern forces, given the leading word run `s[..i]`,
      its leading digit run `s[..d]` and the index `last` of its last digit. */
  lemma SplitWithinWordRun(s: string, i: nat, d: nat, last: int, k: nat)
    requires 0 <= d <= i <= |s|
    requires AllWord(s[..i]) && (i == |s| || !IsWordChar(s[i]))
    requires AllDigits(s[..d]) && (d == i || !IsDigit(s[d]))
    requires -1 <= last < i && forall p :: last < p < i ==> !IsDigit(s[p])
    requires AlphaBetaSplit(s, k)
    ensures k <= d && k < last
  {
    var j :| k < j < |s| && AllWord(s[k..j]) && IsDigit(s[j]);
    if j >= i {
      assert false;
    }
  }

  /** Group 1 of `([0-9]+)\w+([0-9]+)` in one left-to-right pass: with `d` the leading
      digit run and `last` the last digit of the leading word run, group 1 has
      length min(d, last - 1) when that is at least 1. */
  method ScanAlphaBeta(s: string) returns (found: bool, k: nat)
    ensures found ==> IsAlphaBetaGroup(s, k)
    ensures !found ==> forall k' :: !AlphaBetaSplit(s, k')
    ensures found <==> AlphaBetaGroup(s).Some?
    ensures found ==> k == AlphaBetaGroup(s).value
  {
    var i := 0;
    var d := 0;
    var last := -1;
    while i < |s| && IsWordChar(s[i])
      invariant 0 <= d <= i <= |s|
      invariant AllWord(s[..i])
      invariant AllDigits(s[..d]) && (d == i || !IsDigit(s[d]))
      invariant -1 <= last < i
      invariant last >= 0 ==> IsDigit(s[last])
      invariant forall p :: last < p < i ==> !IsDigit(s[p])
    {
      if IsDigit(s[i]) {
        if d == i {
          d := d + 1;
        }
        last := i;
      }
      i := i + 1;
    }
    if d >= 1 && last >= 2 {
      found := true;
      k := if d < last then d else last - 1;
      assert AllDigits(s[..k]) by {
        assert forall p :: 0 <= p < k ==> s[..k][p] == s[..d][p];
      }
      assert AllWord(s[k..last]) by {
        assert forall p :: 0 <= p < last - k ==> s[k..last][p] == s[..i][k + p];
      }
      assert AlphaBetaSplit(s, k);
      forall k' | k < k' <= |s| ensures !AlphaBetaSplit(s, k') {
        if AlphaBetaSplit(s, k') {
          SplitWithinWordRun(s, i, d, last, k');
        }
      }
      AlphaBetaGroupUnique(s, k, AlphaBetaGroup(s).value);
    } else {
      found := false;
      k := 0;
      forall k' ensures !AlphaBetaSplit(s, k') {
        if AlphaBetaSplit(s, k') {
          SplitWithinWordRun(s, i, d, last, k');
        }
      }
    }
  }

  // ---------------------------------------------------------------------------
  // Consequences

  /** With three or more leading digits the first pattern always matches, so the rc
      pattern is never consulted: group 1 = all but the last two digits suffices. */
  lemma ThreeLeadingDigitsMatchFirstPattern(s: string)
    requires DigitRun(s) >= 3
    ensures AlphaBetaSplit(s, DigitRun(s) - 2)
  {
    var d := DigitRun(s);
    var k := d - 2;
    assert s[..k] == s[..d][..k];
    assert s[k..k + 1] == [s[k]];
    assert s[k] == s[..d][k] && s[k + 1] == s[..d][k + 1];
  }

  /**
   A release candidate: digits `ds` followed by a non-empty tail that starts with a
   letter and holds no digit. With one or two digits the rc pattern takes the
   whole number; with three or more the first pattern matches with all but the
   last two digits ("112rc" -> group "1" -> generation 0, "11rc" -> 1).
   */
  lemma {:induction false} ReleaseCandidateGeneration(ds: string, tail: string)
    requires |ds| >= 1 && AllDigits(ds)
    requires |tail| >= 1 && IsLetter(tail[0])
    requires forall i :: 0 <= i < |tail| ==> !IsDigit(tail[i])
    ensures |ds| <= 2 ==> MajorVersion(ds + tail) == Some(DigitsValue(ds) / 10)
    ensures |ds| >= 3 ==> MajorVersion(ds + tail) == Some(DigitsValue(ds[..|ds| - 2]) / 10)
  {
    var s := ds + tail;
    assert s[..|ds|] == ds;
    assert DigitRun(s) == |ds| by {
      DigitPrefixWithinRun(s, |ds|);
      assert s[|ds|] == tail[0];
    }
    assert !IsFloat(s) by {
      assert s[|ds|] == tail[0];
    }
    // a split of the first pattern needs a digit after position k, hence within ds
    forall k: nat | AlphaBetaSplit(s, k) ensures k <= |ds| - 2 {
      var j :| k < j < |s| && AllWord(s[k..j]) && IsDigit(s[j]);
    }
    if |ds| <= 2 {
      assert RcSplit(s, |ds|);
      assert IsRcGroup(s, |ds|) by {
        forall k': nat | |ds| < k' <= |s| ensures !RcSplit(s, k') {
        }
      }
    } else {
      ThreeLeadingDigitsMatchFirstPattern(s);
      assert IsAlphaBetaGroup(s, |ds| - 2);
      assert s[..|ds| - 2] == ds[..|ds| - 2];
    }
  }

  // ---------------------------------------------------------------------------
  // The evidently intended generation

  /**
   The generation the comments describe: the whole leading number divided by ten,
   for every string the code accepts (same crash cases as `MajorVersion`).
   */
  function IntendedMajorVersion(version: string): (r: Option<nat>)
    ensures r.Some? <==> MajorVersion(version).Some?
    ensures r.Some? ==> r.value == DigitsValue(version[..DigitRun(version)]) / 10
  {
    if IsFloat(version) then
      assert version[..DigitRun(version)] == version;
      Some(DigitsValue(version) / 10)
    else if MajorVersion(version).Some? then Some(DigitsValue(version[..DigitRun(version)]) / 10)
    else None
  }

  /** For a release candidate the intended generation is the whole number over ten
      ("112rc" -> 11). */
  lemma IntendedReleaseCandidateGeneration(ds: string, tail: string)
    requires |ds| >= 1 && AllDigits(ds)
    requires |tail| >= 1 && IsLetter(tail[0])
    requires forall i :: 0 <= i < |tail| ==> !IsDigit(tail[i])
    ensures IntendedMajorVersion(ds + tail) == Some(DigitsValue(ds) / 10)
  {
    var s := ds + tail;
    ReleaseCandidateGeneration(ds, tail);
    assert s[..|ds|] == ds;
    DigitPrefixWithinRun(s, |ds|);
    assert s[|ds|] == tail[0];
  }

  /** The code and the intent agree exactly when group 1 is the whole leading number
      (plain numbers, "121b10", "112_2", two-digit release candidates). */
  lemma MajorVersionMatchesIntentWhenWholeNumber(version: string)
    requires MajorVersion(version).Some?
    requires IsFloat(version) || AlphaBetaGroup(version) == Some(DigitRun(version)) ||
      (AlphaBetaGroup(version).None? && RcGroup(version).Some?)
    ensures MajorVersion(version) == IntendedMajorVersion(version)
  {
    if !IsFloat(version) && AlphaBetaGroup(version).None? {
      assert RcGroup(version).value == DigitRun(version);
    }
  }

  // ---------------------------------------------------------------------------
  // Beta and patch versions

  /** In a beta or patch version (digits `ds`, then a word character that is not a
      digit, then a digit) group 1 of the first pattern is the whole of `ds`. */
  lemma SuffixedGroup(ds: string, tail: string)
    requires |ds| >= 1 && AllDigits(ds)
    requires |tail| >= 2 && IsWordChar(tail[0]) && !IsDigit(tail[0]) && IsDigit(tail[1])
    ensures !IsFloat(ds + tail) && DigitRun(ds + tail) == |ds|
    ensures IsAlphaBetaGroup(ds + tail, |ds|)
  {
    var s := ds + tail;
    var n := |ds|;
    assert s[..n] == ds;
    assert s[n] == tail[0] && s[n + 1] == tail[1];
    var d := DigitRun(s);
    DigitPrefixWithinRun(s, n);
    assert s[n..n + 1] == [s[n]];
    assert AlphaBetaSplit(s, n);
    forall k: nat | AlphaBetaSplit(s, k) ensures k <= n {
      DigitPrefixWithinRun(s, k);
    }
  }

  /**
   A beta or patch version ("121b10", "112_2") has the whole leading number over
   ten as its generation, and there the code and the intent agree.
   */
  lemma SuffixedGeneration(ds: string, tail: string)
    requires |ds| >= 1 && AllDigits(ds)
    requires |tail| >= 2 && IsWordChar(tail[0]) && !IsDigit(tail[0]) && IsDigit(tail[1])
    ensures MajorVersion(ds + tail) == Some(DigitsValue(ds) / 10)
    ensures IntendedMajorVersion(ds + tail) == MajorVersion(ds + tail)
  {
    var s := ds + tail;
    SuffixedGroup(ds, tail);
    assert s[..|ds|] == ds;
    AlphaBetaGroupUnique(s, |ds|, AlphaBetaGroup(s).value);
    MajorVersionMatchesIntentWhenWholeNumber(s);
  }

  // ---------------------------------------------------------------------------
  // Worked examples

  lemma ValueOf1() ensures DigitsValue("1") == 1 {
    assert "1"[..0] == "";
  }

  lemma ValueOf11() ensures DigitsValue("11") == 11 {
    assert "11"[..1] == "1";
    ValueOf1();
  }

  lemma ValueOf12() ensures DigitsValue("12") == 12 {
    assert "12"[..1] == "1";
    ValueOf1();
  }

  lemma ValueOf112() ensures DigitsValue("112") == 112 {
    assert "112"[..2] == "11";
    ValueOf11();
  }

  lemma ValueOf121() ensures DigitsValue("121") == 121 {
    assert "121"[..2] == "12";
    ValueOf12();
  }

  /** "112" is a number: generation 11. */
  lemma PlainVersionExample()
    ensures MajorVersion("112") == Some(11)
  {
    ValueOf112();
  }

  /** "121b10" (a beta) is generation 12. */
  lemma BetaVersionExample()
    ensures MajorVersion("121b10") == Some(12)
  {
    assert "121b10" == "121" + "b10";
    ValueOf121();
    SuffixedGeneration("121", "b10");
  }

  /** "112_2" (a patch) is generation 11. */
  lemma PatchVersionExample()
    ensures MajorVersion("112_2") == Some(11)
  {
    assert "112_2" == "112" + "_2";
    ValueOf112();
    SuffixedGeneration("112", "_2");
  }

  /** "112rc": the code yields generation 0 where generation 11 is meant. */
  lemma ReleaseCandidateExample()
    ensures MajorVersion("112rc") == Some(0)
    ensures IntendedMajorVersion("112rc") == Some(11)
  {
    assert "112rc" == "112" + "rc";
    assert "112"[..1] == "1";
    ValueOf1();
    ValueOf112();
    ReleaseCandidateGeneration("112", "rc");
    IntendedReleaseCandidateGeneration("112", "rc");
  }

  /** A version with no leading digit makes the code crash (None). */
  lemma NoLeadingDigitExample()
    ensures MajorVersion("rc1") == None
  {
    forall k: nat ensures !AlphaBetaSplit("rc1", k) && !RcSplit("rc1", k) {
      if k >= 1 && k <= 3 {
        assert "rc1"[..k][0] == 'r';
      }
    }
  }
}
